=== FILE: README.md ===
# ModTek startup pipeline in Dafny

ModTek is a mod loader for BattleTech. At start-up it does four things:

- It reads every `mod.json` descriptor.
- It resolves a load order from the descriptors' dependencies and conflicts.
- It expands each mod's manifest into resource entries.
- It routes those entries:
  - into the game's resource list (`BTRLEntries`);
  - into the asset-bundle, texture and video registries;
  - into JSON merge groups.

  It keeps a type cache and a metadata-database cache up to date along the way.

This project models that pipeline, all from `ModTek/ModTek.cs`, as pure Dafny functions over immutable datatypes, with a few imperative methods whose loops mirror the source. Each part has a module:

| module | file | what it models |
|---|---|---|
| `Common` | common.dfy | `Option`, `Result` and sequence facts (no duplicates, subsequences) |
| `Paths` | paths.dfy | `Path.GetFileName`/`GetExtension`/`GetFileNameWithoutExtension`/`IsPathRooted` with Windows separators, case-insensitive suffixes, the deny list |
| `JsonIds` | json_ids.dfy | `InferIDFromJObject` over a small JSON tree |
| `Descriptors` | descriptors.dfy | `ModDef`, `ManifestEntry`, and collecting the enabled descriptors |
| `LoadOrder` | load_order.dfy | the resolver as functions: conflict mirroring, optional dependencies, the dependency check, seeding, the fixed-point pass, and the theorems about the order |
| `LoadOrderImpl` | load_order_impl.dfy | `PropagateConflictsForward`, `FillInOptionalDependencies` and `GetLoadOrder` as loops, proved equal to the functions |
| `Expansion` | expansion.dfy | `InferIDFromFile`, the implicit StreamingAssets entry, directory expansion, the prefab rule, the DLL entry point, `LoadMod` and the `LoadMods` loop |
| `TypeCache` | type_cache.dfy | `GetTypesFromCache`, `GetTypesFromCacheOrManifest`, `TryAddTypeToCache`, `UpdateCacheToRelativePath` |
| `Classification` | classification.dfy | the per-entry loop of `BuildModManifestEntriesLoop` and `AddModEntry` |
| `Database` | database.dfy | `AddModEntryToDB` and the "Syncing Database" stage |

Some of the program's dependencies become parameters:

- The file system, the JSON parser and the DLL loader are function-valued fields of `Expansion.Disk`.
- `Path.GetFullPath`, `GetRelativePath` and `ResolvePath` are fields of `TypeCache.PathFns` and `Database.DbWorld`.
- The game's version manifest is a list of (id, path, type) rows.
- `InstantiateResourceAndUpdateMDDB` is a predicate that says whether the insert succeeded.

Exceptions that escape a loop become `Failure` results. These are:

- a `Substring` out of range;
- indexing an empty type list;
- a second video with the same file name;
- `Enum.Parse` of an unknown type;
- a key collision in `UpdateCacheToRelativePath`;
- a JSON token that cannot be converted to a string.

## Model

| member | source | states |
|---|---|---|
| Paths.FileIsOnDenyList | ModTek/ModTek.cs:191-194 | a path is denied exactly when it ends, ignoring case, with one of ".DS_STORE", "~", ".nomedia" |
| Paths.DenyListIgnoresCase | ModTek/ModTek.cs:191-194 | a path is denied exactly when its lower-case spelling is |
| Paths.JsonIsNeverDenied | ModTek/ModTek.cs:191-194 | a file whose extension reads ".json" in any case is never on the deny list |
| Paths.ExtensionRoundTrip | ModTek/ModTek.cs:262-271 | for dir + stem + "." + ext, the extension helper gives "." + ext and the stem helper gives stem, which is the file-name fallback `InferIDFromFile` uses |
| Paths.StemAndExtension | ModTek/ModTek.cs:262-271 | when a path has an extension, the name without it followed by the extension is the whole file name |
| Paths.FileNameOfJoin | ModTek/ModTek.cs:895-897 | the file name of a directory joined with a separator-free name is that name, which is the key a video is registered under |
| JsonIds.InferFromIsFirstNonNull | ModTek/ModTek.cs:245-260 | the scan over the id paths gives null exactly when every path selects nothing or null; otherwise it returns the first candidate that is not null |
| JsonIds.InferredIdIsFirst | ModTek/ModTek.cs:245-260 | an inferred id comes from a path whose predecessors all select null |
| JsonIds.DescriptionIdWins | ModTek/ModTek.cs:247-252 | "Description.Id" takes priority over every top-level id property |
| JsonIds.NoIdProperties | ModTek/ModTek.cs:245-260 | an object with none of the six properties has no id |
| JsonIds.InferIdFromJObject | ModTek/ModTek.cs:245-260 | a null object has no id; otherwise the id is null exactly when every id path selects null, and else it is the first candidate, in the fixed path order, that is not null |
| Expansion.InferIdFromFile | ModTek/ModTek.cs:262-271 | a non-JSON or missing file, or a JSON file with no id, is named after the file without its extension; a JSON file with an id gives that id; only an existing JSON file that fails to parse, or whose id token cannot be converted, raises an error |
| Descriptors.CollectModDefs | ModTek/ModTek.cs:665-696 | the collected map is keyed by each descriptor's own name and holds only enabled descriptors |
| Descriptors.CollectKeepsFirstEnabled | ModTek/ModTek.cs:665-696 | a name is collected exactly when some parsed, enabled descriptor offers it, and the one kept is the first such descriptor |
| LoadOrder.PropagatedConflicts | ModTek/ModTek.cs:434-448 | after mirroring, conflicts among present mods are symmetric; declared conflicts are kept; every added conflict was declared by the other side; nothing but conflicts changes |
| LoadOrder.FillInOptionalDependencies | ModTek/ModTek.cs:450-464 | a mod's dependencies become exactly its hard dependencies plus the optional dependencies that name present mods; nothing else changes |
| LoadOrder.NormalizedConstraints | ModTek/ModTek.cs:434-464 | after both steps, dependencies and conflicts are exactly as described above |
| LoadOrder.ListCheckAgreesOnDistinctLists | ModTek/ModTek.cs:491-495 | on a duplicate-free dependency list, the count-after-`Intersect` test means "all dependencies loaded and no conflict loaded" |
| LoadOrder.RepeatedDependencyNeverResolves | ModTek/ModTek.cs:491-495 | a dependency list with a repeated name never passes the count test |
| LoadOrder.OrderByDescending | ModTek/ModTek.cs:518 | the remaining names are listed once each, strictly descending |
| LoadOrder.DescendingIsCanonical | ModTek/ModTek.cs:518 | the strictly descending listing of a set is unique |
| LoadOrder.Seed | ModTek/ModTek.cs:507-515 | seeding from the persisted order keeps a subsequence of it in which every mod passes the check against the mods before it |
| LoadOrder.SeedOfPrefix | ModTek/ModTek.cs:507-515 | walking more of the persisted order only appends to the seed |
| LoadOrder.SeedAcceptsEveryPassingName | ModTek/ModTek.cs:507-515 | every present name that passes the check against the names accepted before its turn is accepted next, and a name that does not pass leaves the seed as it was |
| LoadOrder.PassShape | ModTek/ModTek.cs:525-541 | one pass only appends to the order, and the appended and still-unloaded names together are the names it visited |
| LoadOrder.PassKeepsValidOrder | ModTek/ModTek.cs:530-540 | a pass only accepts a mod that passes the check against every mod accepted before it, including those accepted earlier in the same pass |
| LoadOrder.PassKeepsDescending | ModTek/ModTek.cs:518-541 | the names a pass leaves unloaded stay strictly descending |
| LoadOrder.FixedPointIsStuck | ModTek/ModTek.cs:525-543 | when the loop stops, every name left unloaded still fails the check against the final order |
| LoadOrder.ResolveIsValid | ModTek/ModTek.cs:497-544 | every mod of the resolved order passes the check against the mods before it |
| LoadOrder.ResolvePartitions | ModTek/ModTek.cs:497-544 | order and unloaded list split the descriptor names with no overlap; the order is duplicate-free when the persisted order is |
| LoadOrder.LoadOrderIsSound | ModTek/ModTek.cs:497-544 | for the normalised descriptors: valid order, exact partition, sorted unloaded list, and every unloaded mod blocked |
| LoadOrder.DependenciesLoadEarlier | ModTek/ModTek.cs:450-464 | every hard dependency, and every optional dependency on a present mod, appears strictly earlier in the order |
| LoadOrder.NoConflictingModsBothLoad | ModTek/ModTek.cs:434-448 | no two mods in the order conflict, in either direction of the declaration |
| LoadOrder.ResolveIsIdempotent | ModTek/ModTek.cs:507-541 | feeding the resolved order back as the persisted order gives the same order and unloaded list |
| LoadOrder.LoadOrderIsIdempotent | ModTek/ModTek.cs:724 | the order written to load_order.json resolves to itself on the next start |
| LoadOrder.RepeatedPersistedNameLoadsTwice | ModTek/ModTek.cs:507-515 | a persisted order that repeats a mod name puts that mod in the order twice |
| LoadOrderImpl.PropagateConflictsForward | ModTek/ModTek.cs:434-448 | the loop over the dictionary's keys computes exactly the mirrored conflicts |
| LoadOrderImpl.FillInOptionalDependenciesLoop | ModTek/ModTek.cs:450-464 | the loop computes exactly the filled-in dependencies |
| LoadOrderImpl.RunPass | ModTek/ModTek.cs:527-541 | one backward scan of the unloaded list is the functional pass; the removal count is the number of names it accepted |
| LoadOrderImpl.GetLoadOrder | ModTek/ModTek.cs:497-544 | the imperative resolver returns exactly the functional load order and unloaded list |
| LoadOrder.LoadOrderOf | ModTek/ModTek.cs:497-544 | the resolver over the normalised descriptors returns an order in which every mod passes the check against the mods before it (LoadOrder.LoadOrderIsSound states the rest) |
| Expansion.WithImplicitManifest | ModTek/ModTek.cs:553-554 | the implicit StreamingAssets entry is appended exactly when the mod asks for it and no entry already resolves to its StreamingAssets directory; otherwise the manifest is unchanged |
| Expansion.ImplicitManifestIdempotent | ModTek/ModTek.cs:553-554 | appending the implicit entry a second time adds nothing |
| Expansion.Kept | ModTek/ModTek.cs:583 | the files kept from a directory are exactly those not on the deny list, each as often as it was listed, and a denied file is never kept |
| Expansion.KeptCons | ModTek/ModTek.cs:583 | a file at the front of the listing is kept, in front, exactly when it is not on the deny list |
| Expansion.KeptAppend | ModTek/ModTek.cs:583 | filtering a listing split in two filters each part and keeps them in order, so the kept files keep the listing's order |
| Expansion.ExpandDirectoryFails | ModTek/ModTek.cs:583-588 | expanding a directory fails exactly when inferring the id of some kept file fails |
| Expansion.ExpandDirectoryChildren | ModTek/ModTek.cs:583-588 | a successful expansion gives one child per kept file, in listing order; the i-th child is the directory entry with the i-th kept file's full path and that file's inferred id, and nothing else changed |
| Expansion.ExpandEntry | ModTek/ModTek.cs:557-602 | one manifest entry only appends to the collected entries; it aborts as a misplaced prefab exactly when a prefab names a bundle not yet collected, and as malformed exactly when a non-prefab has neither path nor type |
| Expansion.ExpandEntryAdds | ModTek/ModTek.cs:567-601 | what one entry contributes: a prefab after its bundle adds itself, named after its file, unless denied; a directory adds one child per kept file with its full path and inferred id, and aborts exactly when some inference fails; an existing file that is not denied adds itself with its full path and its own id or, lacking one, the inferred id; a missing or denied path adds nothing |
| Expansion.ExpandEntriesAppend | ModTek/ModTek.cs:557-602 | walking a manifest is walking its first part and then the rest from where the first part left off; an abort in the first part ends the walk |
| Expansion.ExpandEntriesKeeps | ModTek/ModTek.cs:557-602 | while a mod's manifest is walked, every recorded entry has an id and every prefab follows its asset bundle |
| Expansion.PrefabFirstAbortsMod | ModTek/ModTek.cs:557-566 | a prefab naming a bundle that is not among the entries collected before it aborts the whole mod, wherever it stands in the manifest |
| Expansion.SplitEntryPointRoundTrip | ModTek/ModTek.cs:617-629 | the method name holds no '.', and type + "." + method gives back the entry point |
| Expansion.JoinThenSplit | ModTek/ModTek.cs:617-629 | splitting type + "." + method, for a dot-free method, recovers both parts |
| Expansion.LoadMod | ModTek/ModTek.cs:548-641 | an abort in the manifest loop skips the mod for that reason; when the loop collects at least one entry and the DLL, if any, exists and loads, exactly the collected entries are recorded; anything recorded is what the loop collected, is non-empty, has ids throughout and puts prefabs after their bundles |
| Expansion.LoadMods | ModTek/ModTek.cs:708-721 | a mod has recorded entries exactly when it is in the load order and its load recorded something, and the entries are the ones that load produced |
| TypeCache.TypesInCatalogMembers | ModTek/ModTek.cs:363-383 | the types gathered for a path are exactly the types of the manifest rows whose full path matches |
| TypeCache.GetTypesFromCacheOrManifest | ModTek/ModTek.cs:363-383 | the lookup itself; CacheHitIgnoresCatalog, MissWithoutMatch and MissWithMatchIsCached state its three outcomes |
| TypeCache.CacheHitIgnoresCatalog | ModTek/ModTek.cs:363-369 | on a cache hit the cached list is returned, the manifest is not consulted and the cache is unchanged |
| TypeCache.MissWithoutMatch | ModTek/ModTek.cs:363-383 | a miss with no matching manifest row returns null and leaves the cache unchanged |
| TypeCache.MissWithMatchIsCached | ModTek/ModTek.cs:370-382 | a miss with a match returns the matching rows' types and caches them under the relative path; a second lookup is a hit with the same answer |
| TypeCache.TryAddTypeToCacheSpec | ModTek/ModTek.cs:385-399 | afterwards the type is cached for the relative path; existing types are kept in order; other keys are untouched |
| TypeCache.TryAddTypeToCacheIdempotent | ModTek/ModTek.cs:385-399 | repeating the call changes nothing |
| TypeCache.TryAddTypeToCacheKeepsNoDup | ModTek/ModTek.cs:385-399 | a duplicate-free type list stays duplicate-free |
| TypeCache.ToAddIsLastWriter | ModTek/ModTek.cs:284-292 | a relative key is collected exactly when some rooted key maps to it, and it carries the value of the last such key |
| TypeCache.UpdateCacheToRelativePath | ModTek/ModTek.cs:280-300 | the conversion itself; UpdateCacheToRelativePathSpec states its outcome |
| TypeCache.UpdateCacheToRelativePathSpec | ModTek/ModTek.cs:280-300 | the conversion fails exactly when a rooted key's relative form is already a key; otherwise unrooted keys keep their values, rooted keys are replaced by their relative forms, and each relative form holds the value of the last rooted key mapping to it |
| TypeCache.LastWriterValue | ModTek/ModTek.cs:284-292 | a rooted key that no later rooted key shares a relative form with leaves its value under that relative form |
| TypeCache.UpdateWithoutRootedKeysIsIdentity | ModTek/ModTek.cs:280-300 | a cache with no rooted keys is returned unchanged |
| Classification.AddModEntrySpec | ModTek/ModTek.cs:732-769 | an entry joins the resource list exactly when its addendum is unnamed or known; asset bundles and textures are registered by id only then; videos, merge groups and the type cache are untouched |
| Classification.AddModEntry | ModTek/ModTek.cs:732-769 | the function itself; AddModEntrySpec states its routing and frame |
| Classification.AddEachSpec | ModTek/ModTek.cs:881-886 | with a known addendum, a typeless entry appends one copy per listed type, in the listed order (a repeated type gives repeated copies); with an unknown addendum nothing changes; merge groups, videos and the type cache are untouched |
| Classification.AddToGroupKeeps | ModTek/ModTek.cs:862-877 | adding an overlay to a merge group keeps every group duplicate-free, non-empty and in visiting order |
| Classification.AddToGroupJoins | ModTek/ModTek.cs:865-877 | adding an overlay puts it in its target's group and takes no overlay out of any group |
| Classification.RelativeToStreamingAssetsRoundTrip | ModTek/ModTek.cs:850-851 | for pre + "StreamingAssets" + separator + rest, with no later "StreamingAssets", the relative path is rest |
| Classification.FindById | ModTek/ModTek.cs:925 | the manifest row found for an id has that id, and none is found only when no row has it |
| Classification.FindByIdIsFirst | ModTek/ModTek.cs:926 | the manifest row chosen for a JSON merge is the first row carrying the entry's id |
| Classification.VideoRegistersByFileName | ModTek/ModTek.cs:893-902 | a video entry changes only the video table: it is registered under its file name exactly when the file exists, a second file of that name fails, and a missing file changes nothing |
| Classification.JsonMergeJoinsFirstRowGroup | ModTek/ModTek.cs:922-953 | a typed JSON merge never fails and never touches the resource list; it joins the merge group at the full path of the first manifest row with its id, and changes nothing when no row has that id |
| Classification.TypelessMergeJoinsGroup | ModTek/ModTek.cs:849-877 | a typeless JSON overlay under StreamingAssets with cached types joins the group of the file it shadows and never reaches the resource list; with no types it is dropped; with an empty type list it fails unless already in the group |
| Classification.AdvancedMergeJoinsGroup | ModTek/ModTek.cs:903-919 | an AdvancedJSONMerge entry always joins the group of its target file and never reaches the resource list |
| Classification.ClassifyEntryGrowsGroups | ModTek/ModTek.cs:849-953 | classifying an entry never takes an overlay out of a merge group |
| Classification.ClassifyEntry | ModTek/ModTek.cs:849-953 | the loop body for one entry; ConsumedNeverReachesBtrl, ClassifyEntryKeepsGroups and the branch lemmas above state its behaviour |
| Classification.ConsumedNeverReachesBtrl | ModTek/ModTek.cs:849-953 | an entry consumed into a merge group or the videos, or dropped as unresolved, leaves the resource list unchanged; any other entry only appends copies of itself |
| Classification.ClassifyEntryKeepsGroups | ModTek/ModTek.cs:849-953 | classifying one entry keeps every merge group duplicate-free, non-empty and a subsequence of the overlay paths visited so far |
| Classification.FlattenFromOrder | ModTek/ModTek.cs:828-843 | every visited entry belongs to a mod of the load order |
| Classification.ClassifyEntries | ModTek/ModTek.cs:834-954 | after the loop each merge group lists each overlay path once, in load order and then declaration order, and every AdvancedJSONMerge entry is in the group of its target |
| Classification.BuildModManifestEntries | ModTek/ModTek.cs:822-954 | an empty load order changes nothing; otherwise the loop runs over the entries of the mods that recorded any, in load order, with well-formed groups holding every AdvancedJSONMerge entry |
| Database.AddModEntryToDBSpec | ModTek/ModTek.cs:771-809 | only a JSON file whose type Enum.Parse rejects fails; an insert happens exactly for a JSON file whose type parses to one of the nine database kinds, whose cached time differs from the file's and whose insert succeeds; every other call leaves the cache unchanged; an accepted file ends up stamped with its time, and no other key's stamp changes |
| Database.AddModEntryToDB | ModTek/ModTek.cs:771-809 | the function itself; AddModEntryToDBSpec, ParsedSpellingDecides and AddModEntryToDBIdempotent state its behaviour |
| Database.ParsedSpellingDecides | ModTek/ModTek.cs:776-790 | two type strings that parse to the same resource type, such as "MechDef" and " MechDef ", give the same outcome for the same file |
| Database.AddModEntryToDBIdempotent | ModTek/ModTek.cs:790-796 | a second call for the same file inserts nothing and leaves the cache as the first call left it |
| Database.AddTargetsFails | ModTek/ModTek.cs:1053-1064 | adding a list of files fails exactly when one of them is a JSON file with an unknown type |
| Database.AddTargetsSpec | ModTek/ModTek.cs:1053-1064 | after adding a list of files every accepted file is stamped, no key is lost and every new key is one of the files |
| Database.EntryTargetsSpec | ModTek/ModTek.cs:1055-1057 | the files added at the end are exactly the resource-list entries marked for the database |
| Database.HasPathSpec | ModTek/ModTek.cs:1003 | a key is in use exactly when some resource-list entry has its resolved path |
| Database.Replacement | ModTek/ModTek.cs:1008-1010 | no replacement is found exactly when no resource-list entry and no manifest row shares the key's file name |
| Database.ReplacementIsFirstMatch | ModTek/ModTek.cs:1009-1011 | a stale key is replaced by the first resource-list entry with its file name and, only when there is none, by the first manifest row with it |
| Database.ScanKeys | ModTek/ModTek.cs:998-1022 | the scan itself; ScanRebuildsIffBlocked, ScanRemovesStaleKeys and ScanPairsReplacements state its outcome |
| Database.ScanRebuildsIffBlocked | ModTek/ModTek.cs:998-1022 | the scan asks for a rebuild exactly when some stale key has no replacement |
| Database.ScanRemovesStaleKeys | ModTek/ModTek.cs:998-1022 | without a rebuild the keys to remove are exactly the stale keys |
| Database.ScanPairsReplacements | ModTek/ModTek.cs:1012-1021 | each removed key is paired with its own replacement |
| Database.PrunedKeysAreLive | ModTek/ModTek.cs:1025-1030 | after the removals every remaining key resolves to the path of a current resource-list entry |
| Database.SyncedEntriesAreCached | ModTek/ModTek.cs:1025-1064 | after a successful sync every accepted resource-list entry marked for the database is stamped in the cache |
| Database.RebuildKeepsOnlyCurrentFiles | ModTek/ModTek.cs:1042-1064 | after a rebuild the cache starts empty and ends holding only files of the current resource list |
| Database.SyncDropsStaleKeys | ModTek/ModTek.cs:1025-1064 | without a rebuild every key of the synced cache was in use, or is the file of a replacement or of a marked entry |
| Database.SyncDatabase | ModTek/ModTek.cs:994-1064 | the syncing stage itself; PrunedKeysAreLive, SyncedEntriesAreCached, RebuildKeepsOnlyCurrentFiles and SyncDropsStaleKeys state its outcome |

## Left out

- File and directory I/O is not modelled: `Init`, `LoadOrCreateMergeCache`/`LoadOrCreateTypeCache`/`LoadOrCreateDBCache`, `LoadLoadOrder` and `WriteJsonFile`. Their results are parameters: the persisted order, the type cache and the db cache.
- `ParseGameJSONFile` (ModTek/ModTek.cs:230-243) calls into the game by reflection. A parse is an abstract result that may fail.
- The `Uri` internals of `GetRelativePath`, and `Path.GetFullPath`, `Path.Combine` and `ResolvePath`, are framework behaviour. They are uninterpreted functions.
- The merge stage (ModTek/ModTek.cs:959-988), `MergeCache` and `AdvancedJSONMerger` are not modelled. The model stops at the (target, overlay list) groups handed to them. `AdvancedJSONMerger.GetTargetFile` is the function `mergeTarget`.
- `Classification.ClassifyAdvancedMerge`: `AdvancedJSONMerger.GetTargetFile` followed by `ResolvePath` is a total function `mergeTarget`. An exception thrown there (an unreadable or malformed merge file) is not modelled; the source would let it escape the loop.
- `BTModLoader.LoadDLL`, Harmony patching and `PrintHarmonySummary` are foreign calls. The DLL load is the predicate `Disk.loadDll` over the path, method and type name `EntryPoint` computes; a load that throws skips the mod. What the DLL does is not modelled, and neither are the mod settings passed to it.
- `ProgressPanel` and the `ProgressReport` yields are UI and cooperative scheduling. Each loop is plain sequential code.
- `MetadataDatabase` and `InstantiateResourceAndUpdateMDDB` are an external database. They are modelled only as an insert that may fail.
- The patches under ModTek/Patches are engine hooks with no stateable logic; the sound-volume patch also uses floating point.
- Ordering of remaining mod names: `OrderByDescending` at ModTek/ModTek.cs:518 uses the current culture's string comparison. The model uses ordinal character order. No proved property depends on which total order it is.
- Case folding: `ToLower` is modelled for ASCII letters only.
- Paths use Windows separators ('\\', '/' and ':').
- Null paths, and a null `modDef.DLLEntryPoint` type part, are outside the model. So is the null guard at the top of `AddModEntry`: every path in the model is a string.
- ModDef.cs is not part of this model. Its collections `DependsOn`, `OptionallyDependsOn` and `ConflictsWith` are modelled as sets. With a list that holds a duplicate, the count test of `AreDependanciesResolved` can never pass; `LoadOrder.RepeatedDependencyNeverResolves` shows this for lists.
- The copy constructor `ModDef.ManifestEntry(entry, path, id)` (ModTek/ModTek.cs:586, :883) is modelled as a copy of the entry with only the path, id or type replaced. This assumes the constructor in ModDef.cs copies every other field unchanged.
- `GetVersionManifestEntry()` (ModTek/ModTek.cs:1010) is modelled, in `Database.Replacement`, as a target with the entry's path and type. This assumes it never returns null and maps `Path` to `FilePath` and `Type` to `Type`, so the fallback to the cached manifest is taken only when no BTRL entry has the file name.
- The implicit manifest entry is modelled as a StreamingAssets entry whose second constructor argument is `ShouldMergeJSON` and whose `AddToDB` is true. This assumes the constructor in ModDef.cs.
- Mutation of entries in `LoadMod` and `BuildModManifestEntriesLoop` (the `Id`, `Path` and `Type` assignments) is modelled as building new values. The difference shows only if the same descriptor is loaded twice.
- `Enum.Parse` is the function `DbWorld.parse` from a type string to the resource type's name, or none when it throws. Which spellings it accepts (surrounding whitespace, numeric values, comma-separated names) is left to that function.
- Dictionary key order is a parameter wherever the source iterates over a dictionary's keys: the conflict and optional-dependency loops, the relative-path conversion and the db-cache scan. It is listed once per key.
- The early return for an empty load order (ModTek/ModTek.cs:822-823) also skips the merge and database stages. `Database.SyncDatabase` is specified on its own, without that guard.
- `Classification.RelativeToStreamingAssets`: a typeless entry whose path does not contain "StreamingAssets" starts its relative path at index 15 as the source does. Only the well-formed case is proved to recover the relative part.

=== FILE: classification.dfy ===
/** Routing every recorded manifest entry (BuildModManifestEntriesLoop,
    ModTek/ModTek.cs:822-954) and adding entries to the game's resource
    list (AddModEntry, ModTek/ModTek.cs:731-769). Entries are visited in load
    order, and in declaration order within a mod. */
module Classification {
  import opened Common
  import opened Paths
  import opened Descriptors
  import opened TypeCache

  /** The game's VersionManifest and the functions the loop calls outside
      this file. */
  datatype World = World(
    pf: PathFns,
    combine: (string, string) -> string,   // Path.Combine
    streamingAssets: string,               // StreamingAssetsDirectory
    catalog: seq<CatalogEntry>,            // CachedVersionManifest
    addenda: set<string>,                  // addendum names the manifest knows
    isFile: string -> bool,                // File.Exists
    mergeTarget: string -> string)         // ResolvePath(AdvancedJSONMerger.GetTargetFile(p), StreamingAssetsDirectory)

  /** What the loop builds: BTRLEntries, ModAssetBundlePaths, ModTexture2Ds,
      ModVideos, jsonMerges (target path to overlay paths) and the type cache. */
  datatype State = State(
    btrl: seq<ManifestEntry>,
    bundles: map<string, string>,
    textures: set<string>,
    videos: map<string, string>,
    merges: map<string, seq<string>>,
    typeCache: Cache)

  function Initial(typeCache: Cache): State
  {
    State([], map[], {}, map[], map[], typeCache)
  }

  // ---- AddModEntry ----

  /** The entry names no addendum, or one the manifest has. */
  predicate AddendumKnown(w: World, e: ManifestEntry)
  {
    e.addToAddendum == "" || e.addToAddendum in w.addenda
  }

  /** AddModEntry: an entry whose addendum is missing is dropped; otherwise
      asset bundles and textures are registered by id and the entry joins
      BTRLEntries. Every entry reaching it carries an id (see
      Expansion.LoadMod). */
  function AddModEntry(w: World, st: State, e: ManifestEntry): State
    requires e.id.Some?
  {
    if !AddendumKnown(w, e) then st
    else
      var st1 :=
        if e.typ == Some("AssetBundle") then st.(bundles := st.bundles[e.id.value := e.path])
        else if e.typ == Some("Texture2D") then st.(textures := st.textures + {e.id.value})
        else st;
      st1.(btrl := st1.btrl + [e])
  }

  /** The entry is appended exactly when its addendum is known; the bundle and
      texture registries change only for their own types; videos, merge
      groups and the type cache never change. */
  lemma AddModEntrySpec(w: World, st: State, e: ManifestEntry)
    requires e.id.Some?
    ensures var r := AddModEntry(w, st, e);
      && r.btrl == (if AddendumKnown(w, e) then st.btrl + [e] else st.btrl)
      && r.bundles == (if AddendumKnown(w, e) && e.typ == Some("AssetBundle") then st.bundles[e.id.value := e.path] else st.bundles)
      && r.textures == (if AddendumKnown(w, e) && e.typ == Some("Texture2D") then st.textures + {e.id.value} else st.textures)
      && r.videos == st.videos && r.merges == st.merges && r.typeCache == st.typeCache
  {
  }

  /** One AddModEntry per type, for an entry with no type of its own. */
  function AddEach(w: World, st: State, e: ManifestEntry, types: seq<string>): State
    requires e.id.Some?
    decreases |types|
  {
    if types == [] then st
    else AddEach(w, AddModEntry(w, st, e.(typ := Some(types[0]))), e, types[1..])
  }

  /** The entry once per listed type, in the order the types are listed. */
  function Copies(e: ManifestEntry, types: seq<string>): seq<ManifestEntry>
  {
    seq(|types|, j requires 0 <= j < |types| => e.(typ := Some(types[j])))
  }

  /** With a known addendum, adding per type appends one copy of the entry
      for each listed type, in order (a repeated type gives repeated copies);
      with an unknown addendum nothing changes. Merge groups, videos and the
      type cache are never touched. */
  lemma {:induction false} AddEachSpec(w: World, st: State, e: ManifestEntry, types: seq<string>)
    requires e.id.Some?
    ensures var r := AddEach(w, st, e, types);
      && (AddendumKnown(w, e) ==> r.btrl == st.btrl + Copies(e, types))
      && (!AddendumKnown(w, e) ==> r == st)
      && r.merges == st.merges && r.videos == st.videos && r.typeCache == st.typeCache
    decreases |types|
  {
    if types != [] {
      var e0 := e.(typ := Some(types[0]));
      var st1 := AddModEntry(w, st, e0);
      AddModEntrySpec(w, st, e0);
      AddEachSpec(w, st1, e, types[1..]);
      if AddendumKnown(w, e) {
        assert AddendumKnown(w, e0);
        var cs, rest := Copies(e, types), Copies(e, types[1..]);
        assert cs == [e0] + rest by {
          forall j | 0 <= j < |cs| ensures cs[j] == ([e0] + rest)[j] {
            if j > 0 { assert types[1..][j - 1] == types[j]; }
          }
        }
        assert st.btrl + cs == st.btrl + [e0] + rest;
      }
    }
  }

  // ---- Merge groups ----

  /** jsonMerges[target].Add(path), creating the list if needed; a path already
      in the group is not added again. */
  function AddToGroup(merges: map<string, seq<string>>, target: string, path: string): map<string, seq<string>>
  {
    if target in merges && path in merges[target] then merges
    else merges[target := (if target in merges then merges[target] else []) + [path]]
  }

  /** The overlay `path` is in the merge group of `target`. */
  predicate InGroup(merges: map<string, seq<string>>, target: string, path: string)
  {
    target in merges && path in merges[target]
  }

  /** No overlay ever leaves a merge group. */
  ghost predicate GroupsGrow(before: map<string, seq<string>>, after: map<string, seq<string>>)
  {
    forall t, p :: InGroup(before, t, p) ==> InGroup(after, t, p)
  }

  /** Adding an overlay puts it in its group and takes nothing out. */
  lemma AddToGroupJoins(merges: map<string, seq<string>>, target: string, path: string)
    ensures InGroup(AddToGroup(merges, target, path), target, path)
    ensures GroupsGrow(merges, AddToGroup(merges, target, path))
  {
    if !InGroup(merges, target, path) {
      var m := AddToGroup(merges, target, path);
      assert m[target][|m[target]| - 1] == path;
    }
  }

  /** The merge groups hold each overlay path at most once, are never empty,
      and list their paths in the order the entries carrying them were visited. */
  ghost predicate GroupsWellFormed(merges: map<string, seq<string>>, visited: seq<string>)
  {
    forall k :: k in merges ==> NoDup(merges[k]) && |merges[k]| > 0 && IsSubseq(merges[k], visited)
  }

  lemma GroupsExtend(merges: map<string, seq<string>>, visited: seq<string>, path: string)
    requires GroupsWellFormed(merges, visited)
    ensures GroupsWellFormed(merges, visited + [path])
  {
    forall k | k in merges
      ensures IsSubseq(merges[k], visited + [path])
    {
      SubseqExtend(merges[k], visited, path);
    }
  }

  lemma AddToGroupKeeps(merges: map<string, seq<string>>, visited: seq<string>, target: string, path: string)
    requires GroupsWellFormed(merges, visited)
    ensures GroupsWellFormed(AddToGroup(merges, target, path), visited + [path])
  {
    GroupsExtend(merges, visited, path);
    if !(target in merges && path in merges[target]) {
      var g: seq<string> := if target in merges then merges[target] else [];
      if target in merges {
        SubseqAppendBoth(g, visited, path);
      } else {
        SubseqAppendBoth([], visited, path);
      }
      NoDupAppend(g, path);
    }
  }

  // ---- Classifying one entry ----

  const StreamingAssetsName: string := "StreamingAssets"

  /** `sub` occurs in `s` starting at index i. */
  predicate OccursAt(s: string, sub: string, i: int)
  {
    0 <= i && i + |sub| <= |s| && s[i..i + |sub|] == sub
  }

  /** String.LastIndexOf(sub, Ordinal) scanning candidate starts j, j-1, ..., 0. */
  function LastIndexOfFrom(s: string, sub: string, j: int): (r: int)
    requires -1 <= j <= |s| - |sub|
    ensures -1 <= r <= j
    ensures r >= 0 ==> OccursAt(s, sub, r)
    ensures forall i :: r < i <= j ==> !OccursAt(s, sub, i)
    decreases j + 1
  {
    if j < 0 then -1
    else if s[j..j + |sub|] == sub then j
    else LastIndexOfFrom(s, sub, j - 1)
  }

  function LastIndexOfString(s: string, sub: string): (r: int)
    ensures r >= 0 ==> OccursAt(s, sub, r)
    ensures forall i :: r < i ==> !OccursAt(s, sub, i)
  {
    if |sub| > |s| then -1 else LastIndexOfFrom(s, sub, |s| - |sub|)
  }

  /** The part of a StreamingAssets path after "StreamingAssets" and one
      more character (the separator); the Substring throws when that start
      lies past the end. */
  function RelativeToStreamingAssets(path: string): Result<string, string>
  {
    var start := LastIndexOfString(path, StreamingAssetsName) + 16;
    if start > |path| then Failure("startIndex cannot be larger than length of string.")
    else Success(path[start..])
  }

  /** For a path of the form pre + "StreamingAssets" + separator + rest, with
      no later "StreamingAssets", the relative part is `rest`. */
  lemma RelativeToStreamingAssetsRoundTrip(pre: string, sep: char, rest: string)
    requires forall i :: |pre| < i ==> !OccursAt(pre + StreamingAssetsName + [sep] + rest, StreamingAssetsName, i)
    ensures RelativeToStreamingAssets(pre + StreamingAssetsName + [sep] + rest) == Success(rest)
  {
    var path := pre + StreamingAssetsName + [sep] + rest;
    assert OccursAt(path, StreamingAssetsName, |pre|);
    assert LastIndexOfString(path, StreamingAssetsName) == |pre|;
    assert path[|pre| + 16..] == rest;
  }

  /** The first manifest entry with this id (VersionManifest.Find). */
  function FindById(catalog: seq<CatalogEntry>, id: string): (r: Option<CatalogEntry>)
    ensures r.Some? ==> r.value in catalog && r.value.id == id
    ensures r.None? ==> forall i :: 0 <= i < |catalog| ==> catalog[i].id != id
  {
    if catalog == [] then None
    else if catalog[0].id == id then Some(catalog[0])
    else FindById(catalog[1..], id)
  }

  /** The row found is the first one carrying the id, as List.Find returns. */
  lemma {:induction false} FindByIdIsFirst(catalog: seq<CatalogEntry>, id: string, i: nat)
    requires i < |catalog| && catalog[i].id == id
    requires forall j :: 0 <= j < i ==> catalog[j].id != id
    ensures FindById(catalog, id) == Some(catalog[i])
  {
    if i > 0 {
      assert catalog[0].id != id;
      var tail := catalog[1..];
      forall j | 0 <= j < i - 1 ensures tail[j].id != id {
        assert tail[j] == catalog[j + 1];
      }
      FindByIdIsFirst(tail, id, i - 1);
    }
  }

  /** The absolute StreamingAssets path a typeless entry stands for. */
  function TypelessTarget(w: World, relPath: string): string
  {
    w.pf.fullPath(w.combine(w.streamingAssets, relPath))
  }

  /** A typeless entry: look its types up through the type cache, then
      route it by what was found. */
  function ClassifyTypeless(w: World, st: State, e: ManifestEntry): Result<State, string>
    requires e.id.Some?
  {
    match RelativeToStreamingAssets(e.path)
    case Failure(m) => Failure(m)
    case Success(relPath) =>
      var fake := TypelessTarget(w, relPath);
      var lookup := GetTypesFromCacheOrManifest(st.typeCache, w.pf, w.catalog, fake);
      RouteTypeless(w, st.(typeCache := lookup.1), e, fake, lookup.0)
  }

  /** With no types the entry is dropped; a JSON entry that should merge joins
      the merge group of its target (the first cached type must exist); any
      other is added once per type. */
  function RouteTypeless(w: World, st: State, e: ManifestEntry, fake: string, types: Option<seq<string>>): Result<State, string>
    requires e.id.Some?
  {
    if types.None? then Success(st)
    else if IsJson(e.path) && e.shouldMergeJson then
      if fake in st.merges && e.path in st.merges[fake] then Success(st)
      else if |types.value| == 0 then Failure("Index was out of range.")
      else Success(st.(merges := AddToGroup(st.merges, fake, e.path)))
    else Success(AddEach(w, st, e, types.value))
  }

  /** A video is registered under its file name when the file exists. */
  function ClassifyVideo(w: World, st: State, e: ManifestEntry): Result<State, string>
  {
    var fileName := GetFileName(e.path);
    if !w.isFile(e.path) then Success(st)
    else if fileName in st.videos then Failure("An item with the same key has already been added.")
    else Success(st.(videos := st.videos[fileName := e.path]))
  }

  /** An advanced merge joins the group of the file it targets. */
  function ClassifyAdvancedMerge(w: World, st: State, e: ManifestEntry): State
  {
    var target := w.mergeTarget(e.path);
    var tc := GetTypesFromCacheOrManifest(st.typeCache, w.pf, w.catalog, target).1;
    st.(typeCache := tc, merges := AddToGroup(st.merges, target, e.path))
  }

  /** A typed JSON entry that should merge joins the group of the manifest
      entry with the same id; without one it is dropped. */
  function ClassifyJsonMerge(w: World, st: State, e: ManifestEntry): State
    requires e.id.Some?
  {
    match FindById(w.catalog, e.id.value)
    case None => st
    case Some(m) =>
      var target := w.pf.fullPath(m.filePath);
      if target in st.merges && e.path in st.merges[target] then st
      else st.(typeCache := TryAddTypeToCache(st.typeCache, w.pf, target, m.typ),
               merges := AddToGroup(st.merges, target, e.path))
  }

  /** The loop body for one entry. Exceptions the source lets escape (a
      Substring out of range, indexing an empty cached type list, a second
      video with the same file name) are failures. */
  function ClassifyEntry(w: World, st: State, e: ManifestEntry): Result<State, string>
    requires e.id.Some?
  {
    if e.typ.None? then ClassifyTypeless(w, st, e)
    else if e.typ == Some("Video") then ClassifyVideo(w, st, e)
    else if e.typ == Some("AdvancedJSONMerge") then Success(ClassifyAdvancedMerge(w, st, e))
    else if IsJson(e.path) && e.shouldMergeJson then Success(ClassifyJsonMerge(w, st, e))
    else Success(AddModEntry(w, st, e))
  }

  /** The entry takes the path into BTRLEntries: it is neither a video, an
      advanced merge nor a JSON merge, and a typeless entry needs types. */
  predicate ReachesBtrl(w: World, st: State, e: ManifestEntry)
  {
    if e.typ.None? then
      match RelativeToStreamingAssets(e.path)
      case Failure(_) => false
      case Success(relPath) =>
        GetTypesFromCacheOrManifest(st.typeCache, w.pf, w.catalog, TypelessTarget(w, relPath)).0.Some?
        && !(IsJson(e.path) && e.shouldMergeJson)
    else
      e.typ != Some("Video") && e.typ != Some("AdvancedJSONMerge") && !(IsJson(e.path) && e.shouldMergeJson)
  }

  /** BTRLEntries grew from `before` to `after` by copies of entry e only. */
  predicate GrewBy(before: seq<ManifestEntry>, after: seq<ManifestEntry>, e: ManifestEntry)
  {
    && |before| <= |after| && after[..|before|] == before
    && forall j :: |before| <= j < |after| ==> after[j].path == e.path && after[j].id == e.id
  }

  lemma RouteTypelessBtrl(w: World, st: State, e: ManifestEntry, fake: string, types: Option<seq<string>>)
    requires e.id.Some?
    ensures var r := RouteTypeless(w, st, e, fake, types);
      r.Success? ==>
        && GrewBy(st.btrl, r.value.btrl, e)
        && (types.None? || (IsJson(e.path) && e.shouldMergeJson) ==> r.value.btrl == st.btrl)
  {
    if types.Some? && !(IsJson(e.path) && e.shouldMergeJson) {
      AddEachSpec(w, st, e, types.value);
    }
  }

  lemma TypelessBtrl(w: World, st: State, e: ManifestEntry)
    requires e.id.Some? && e.typ.None?
    ensures var r := ClassifyTypeless(w, st, e);
      r.Success? ==> GrewBy(st.btrl, r.value.btrl, e) && (!ReachesBtrl(w, st, e) ==> r.value.btrl == st.btrl)
  {
    var rel := RelativeToStreamingAssets(e.path);
    if rel.Success? {
      var fake := TypelessTarget(w, rel.value);
      var lookup := GetTypesFromCacheOrManifest(st.typeCache, w.pf, w.catalog, fake);
      RouteTypelessBtrl(w, st.(typeCache := lookup.1), e, fake, lookup.0);
    }
  }

  /** An entry consumed into a merge group or the videos, or dropped as
      unresolved, leaves BTRLEntries untouched; an entry that reaches it only
      appends copies of itself (one per type when it had none). */
  lemma ConsumedNeverReachesBtrl(w: World, st: State, e: ManifestEntry)
    requires e.id.Some?
    ensures var r := ClassifyEntry(w, st, e);
      r.Success? ==> GrewBy(st.btrl, r.value.btrl, e) && (!ReachesBtrl(w, st, e) ==> r.value.btrl == st.btrl)
  {
    if e.typ.None? {
      TypelessBtrl(w, st, e);
    } else if ReachesBtrl(w, st, e) {
      AddModEntrySpec(w, st, e);
    }
  }

  lemma RouteTypelessKeepsGroups(w: World, st: State, e: ManifestEntry, fake: string, types: Option<seq<string>>, visited: seq<string>)
    requires e.id.Some? && GroupsWellFormed(st.merges, visited)
    ensures var r := RouteTypeless(w, st, e, fake, types);
      r.Success? ==> GroupsWellFormed(r.value.merges, visited + [e.path])
  {
    GroupsExtend(st.merges, visited, e.path);
    if types.Some? {
      if IsJson(e.path) && e.shouldMergeJson {
        AddToGroupKeeps(st.merges, visited, fake, e.path);
      } else {
        AddEachSpec(w, st, e, types.value);
      }
    }
  }

  lemma TypelessKeepsGroups(w: World, st: State, e: ManifestEntry, visited: seq<string>)
    requires e.id.Some? && GroupsWellFormed(st.merges, visited)
    ensures var r := ClassifyTypeless(w, st, e);
      r.Success? ==> GroupsWellFormed(r.value.merges, visited + [e.path])
  {
    var rel := RelativeToStreamingAssets(e.path);
    if rel.Success? {
      var fake := TypelessTarget(w, rel.value);
      var lookup := GetTypesFromCacheOrManifest(st.typeCache, w.pf, w.catalog, fake);
      RouteTypelessKeepsGroups(w, st.(typeCache := lookup.1), e, fake, lookup.0, visited);
    }
  }

  lemma JsonMergeKeepsGroups(w: World, st: State, e: ManifestEntry, visited: seq<string>)
    requires e.id.Some? && GroupsWellFormed(st.merges, visited)
    ensures GroupsWellFormed(ClassifyJsonMerge(w, st, e).merges, visited + [e.path])
  {
    GroupsExtend(st.merges, visited, e.path);
    var m := FindById(w.catalog, e.id.value);
    if m.Some? {
      AddToGroupKeeps(st.merges, visited, w.pf.fullPath(m.value.filePath), e.path);
    }
  }

  /** A classified entry keeps the merge groups well formed, with its own path
      counted as visited. */
  lemma ClassifyEntryKeepsGroups(w: World, st: State, e: ManifestEntry, visited: seq<string>)
    requires e.id.Some? && GroupsWellFormed(st.merges, visited)
    ensures var r := ClassifyEntry(w, st, e);
      r.Success? ==> GroupsWellFormed(r.value.merges, visited + [e.path])
  {
    GroupsExtend(st.merges, visited, e.path);
    if e.typ.None? {
      TypelessKeepsGroups(w, st, e, visited);
    } else if e.typ == Some("AdvancedJSONMerge") {
      AddToGroupKeeps(st.merges, visited, w.mergeTarget(e.path), e.path);
    } else if e.typ != Some("Video") && IsJson(e.path) && e.shouldMergeJson {
      JsonMergeKeepsGroups(w, st, e, visited);
    } else if e.typ != Some("Video") {
      AddModEntrySpec(w, st, e);
    }
  }

  /** A video entry only ever touches the video table: it is registered under
      its file name when the file exists, and a second file of that name fails. */
  lemma VideoRegistersByFileName(w: World, st: State, e: ManifestEntry)
    requires e.id.Some? && e.typ == Some("Video")
    ensures var r := ClassifyEntry(w, st, e);
      && (r.Failure? <==> w.isFile(e.path) && GetFileName(e.path) in st.videos)
      && (r.Success? && w.isFile(e.path) ==>
            r.value == st.(videos := st.videos[GetFileName(e.path) := e.path]))
      && (!w.isFile(e.path) ==> r == Success(st))
  {
  }

  /** A typed JSON entry that should merge joins the merge group of the full
      path of the first manifest row with its id, leaving the resource list
      alone; with no such row nothing changes. */
  lemma JsonMergeJoinsFirstRowGroup(w: World, st: State, e: ManifestEntry)
    requires e.id.Some? && e.typ.Some? && e.typ != Some("Video") && e.typ != Some("AdvancedJSONMerge")
    requires IsJson(e.path) && e.shouldMergeJson
    ensures var r := ClassifyEntry(w, st, e);
      && r.Success?
      && r.value.btrl == st.btrl
      && ((forall i :: 0 <= i < |w.catalog| ==> w.catalog[i].id != e.id.value) ==> r.value == st)
    ensures forall i :: 0 <= i < |w.catalog| && w.catalog[i].id == e.id.value
                        && (forall j :: 0 <= j < i ==> w.catalog[j].id != e.id.value) ==>
      var target := w.pf.fullPath(w.catalog[i].filePath);
      var r := ClassifyEntry(w, st, e);
      r.Success? && target in r.value.merges && e.path in r.value.merges[target]
  {
    forall i | 0 <= i < |w.catalog| && w.catalog[i].id == e.id.value
               && (forall j :: 0 <= j < i ==> w.catalog[j].id != e.id.value)
      ensures var target := w.pf.fullPath(w.catalog[i].filePath);
        var r := ClassifyEntry(w, st, e);
        r.Success? && target in r.value.merges && e.path in r.value.merges[target]
    {
      FindByIdIsFirst(w.catalog, e.id.value, i);
    }
  }

  /** A typeless JSON overlay under StreamingAssets that should merge joins
      the merge group of the file it shadows when that file has cached types,
      never reaching the resource list; with no types it is dropped, and with
      an empty type list it fails unless it is already in the group. */
  lemma TypelessMergeJoinsGroup(w: World, st: State, e: ManifestEntry)
    requires e.id.Some? && e.typ.None? && IsJson(e.path) && e.shouldMergeJson
    requires RelativeToStreamingAssets(e.path).Success?
    ensures var fake := TypelessTarget(w, RelativeToStreamingAssets(e.path).value);
      var lookup := GetTypesFromCacheOrManifest(st.typeCache, w.pf, w.catalog, fake);
      var r := ClassifyEntry(w, st, e);
      && (lookup.0.None? ==> r == Success(st.(typeCache := lookup.1)))
      && (lookup.0 == Some([]) ==> (r.Failure? <==> !InGroup(st.merges, fake, e.path)))
      && (r.Success? ==> r.value.btrl == st.btrl && GroupsGrow(st.merges, r.value.merges))
      && (lookup.0.Some? && r.Success? ==> InGroup(r.value.merges, fake, e.path))
  {
    var fake := TypelessTarget(w, RelativeToStreamingAssets(e.path).value);
    AddToGroupJoins(st.merges, fake, e.path);
  }

  /** An AdvancedJSONMerge entry always joins the merge group of the file it
      targets and never reaches the resource list. */
  lemma AdvancedMergeJoinsGroup(w: World, st: State, e: ManifestEntry)
    requires e.id.Some? && e.typ == Some("AdvancedJSONMerge")
    ensures var r := ClassifyEntry(w, st, e);
      && r.Success? && r.value.btrl == st.btrl
      && InGroup(r.value.merges, w.mergeTarget(e.path), e.path)
      && GroupsGrow(st.merges, r.value.merges)
  {
    AddToGroupJoins(st.merges, w.mergeTarget(e.path), e.path);
  }

  /** No classified entry takes an overlay out of a merge group. */
  lemma ClassifyEntryGrowsGroups(w: World, st: State, e: ManifestEntry)
    requires e.id.Some?
    ensures var r := ClassifyEntry(w, st, e);
      r.Success? ==> GroupsGrow(st.merges, r.value.merges)
  {
    if e.typ.None? {
      var rel := RelativeToStreamingAssets(e.path);
      if rel.Success? {
        var fake := TypelessTarget(w, rel.value);
        var lookup := GetTypesFromCacheOrManifest(st.typeCache, w.pf, w.catalog, fake);
        AddToGroupJoins(st.merges, fake, e.path);
        if lookup.0.Some? && !(IsJson(e.path) && e.shouldMergeJson) {
          AddEachSpec(w, st.(typeCache := lookup.1), e, lookup.0.value);
        }
      }
    } else if e.typ == Some("AdvancedJSONMerge") {
      AddToGroupJoins(st.merges, w.mergeTarget(e.path), e.path);
    } else if e.typ != Some("Video") && IsJson(e.path) && e.shouldMergeJson {
      var m := FindById(w.catalog, e.id.value);
      if m.Some? {
        AddToGroupJoins(st.merges, w.pf.fullPath(m.value.filePath), e.path);
      }
    } else if e.typ != Some("Video") {
      AddModEntrySpec(w, st, e);
    }
  }

  // ---- The loop ----

  /** The entries of the mods that recorded any, mod by mod in load order. */
  function Flatten(order: seq<Name>, byMod: map<Name, seq<ManifestEntry>>): seq<ManifestEntry>
  {
    if order == [] then []
    else
      var rest := Flatten(order[..|order| - 1], byMod);
      var last := order[|order| - 1];
      if last in byMod then rest + byMod[last] else rest
  }

  /** Every flattened entry belongs to a mod of the load order. */
  lemma {:induction false} FlattenFromOrder(order: seq<Name>, byMod: map<Name, seq<ManifestEntry>>, e: ManifestEntry)
    requires e in Flatten(order, byMod)
    ensures exists n :: n in order && n in byMod && e in byMod[n]
  {
    if order != [] {
      var last := order[|order| - 1];
      var earlier := order[..|order| - 1];
      if e in Flatten(earlier, byMod) {
        FlattenFromOrder(earlier, byMod, e);
        var n :| n in earlier && n in byMod && e in byMod[n];
        assert n in order;
      } else {
        assert last in order;
      }
    }
  }

  /** Every mod's entries carrying ids makes every flattened entry carry one. */
  lemma FlattenHasIds(order: seq<Name>, byMod: map<Name, seq<ManifestEntry>>)
    requires forall n :: n in byMod ==> forall i :: 0 <= i < |byMod[n]| ==> byMod[n][i].id.Some?
    ensures forall i :: 0 <= i < |Flatten(order, byMod)| ==> Flatten(order, byMod)[i].id.Some?
  {
    var es := Flatten(order, byMod);
    forall i | 0 <= i < |es|
      ensures es[i].id.Some?
    {
      FlattenFromOrder(order, byMod, es[i]);
    }
  }

  function PathsOf(entries: seq<ManifestEntry>): (r: seq<string>)
    ensures |r| == |entries| && forall i :: 0 <= i < |entries| ==> r[i] == entries[i].path
  {
    seq(|entries|, i requires 0 <= i < |entries| => entries[i].path)
  }

  /** Every AdvancedJSONMerge entry among the first n is in the group of its target. */
  ghost predicate AdvancedMergesJoined(w: World, merges: map<string, seq<string>>, entries: seq<ManifestEntry>, n: int)
    requires 0 <= n <= |entries|
  {
    forall j :: 0 <= j < n && entries[j].typ == Some("AdvancedJSONMerge") ==>
      InGroup(merges, w.mergeTarget(entries[j].path), entries[j].path)
  }

  lemma ClassifyEntryKeepsJoined(w: World, st: State, entries: seq<ManifestEntry>, i: int)
    requires 0 <= i < |entries| && entries[i].id.Some?
    requires AdvancedMergesJoined(w, st.merges, entries, i)
    ensures var r := ClassifyEntry(w, st, entries[i]);
      r.Success? ==> AdvancedMergesJoined(w, r.value.merges, entries, i + 1)
  {
    var e := entries[i];
    ClassifyEntryGrowsGroups(w, st, e);
    if e.typ == Some("AdvancedJSONMerge") {
      AdvancedMergeJoinsGroup(w, st, e);
    }
  }

  /** The per-entry loop from an empty state: every merge group lists each
      overlay path once, in visiting order. */
  method ClassifyEntries(w: World, typeCache: Cache, entries: seq<ManifestEntry>) returns (r: Result<State, string>)
    requires forall i :: 0 <= i < |entries| ==> entries[i].id.Some?
    ensures r.Success? ==> GroupsWellFormed(r.value.merges, PathsOf(entries))
    ensures r.Success? ==> forall i :: 0 <= i < |entries| && entries[i].typ == Some("AdvancedJSONMerge") ==>
      InGroup(r.value.merges, w.mergeTarget(entries[i].path), entries[i].path)
  {
    var st := Initial(typeCache);
    ghost var visited: seq<string> := [];
    for i := 0 to |entries|
      invariant |visited| == i && forall j :: 0 <= j < i ==> visited[j] == entries[j].path
      invariant GroupsWellFormed(st.merges, visited)
      invariant AdvancedMergesJoined(w, st.merges, entries, i)
    {
      var e := entries[i];
      var step := ClassifyEntry(w, st, e);
      if step.Failure? {
        return Failure(step.error);
      }
      ClassifyEntryKeepsGroups(w, st, e, visited);
      ClassifyEntryKeepsJoined(w, st, entries, i);
      st := step.value;
      visited := visited + [e.path];
    }
    assert visited == PathsOf(entries);
    return Success(st);
  }

  /** BuildModManifestEntriesLoop up to the merge stage: nothing happens for
      an empty load order; otherwise the entries of the mods that recorded
      any are classified in load order. */
  method BuildModManifestEntries(w: World, typeCache: Cache, order: seq<Name>, byMod: map<Name, seq<ManifestEntry>>)
    returns (r: Result<State, string>)
    requires forall n :: n in byMod ==> forall i :: 0 <= i < |byMod[n]| ==> byMod[n][i].id.Some?
    ensures order == [] ==> r == Success(Initial(typeCache))
    ensures r.Success? ==> GroupsWellFormed(r.value.merges, PathsOf(Flatten(order, byMod)))
    ensures r.Success? ==> forall e :: e in Flatten(order, byMod) && e.typ == Some("AdvancedJSONMerge") ==>
      InGroup(r.value.merges, w.mergeTarget(e.path), e.path)
  {
    if order == [] {
      return Success(Initial(typeCache));
    }
    FlattenHasIds(order, byMod);
    r := ClassifyEntries(w, typeCache, Flatten(order, byMod));
  }
}

=== FILE: common.dfy ===
/** Shared vocabulary: optional values, results with an error channel, and the
    few facts about sequences that every stage of the pipeline relies on. */
module Common {

  /** A value that may be missing; stands for a C# reference that may be null. */
  datatype Option<+T> = None | Some(value: T)

  /** Either a value, or the reason an exception left the code being modelled. */
  datatype Result<+T, +E> = Success(value: T) | Failure(error: E)

  /** The elements of a sequence, as a set. */
  function Elems<T(==)>(s: seq<T>): set<T>
  {
    set x | x in s
  }

  /** No element occurs twice. */
  predicate NoDup<T(==)>(s: seq<T>)
  {
    forall i, j :: 0 <= i < j < |s| ==> s[i] != s[j]
  }

  /** `a` can be obtained from `b` by deleting elements (order is kept).
      Defined from the back so that appending to both sides unfolds directly. */
  predicate IsSubseq<T(==)>(a: seq<T>, b: seq<T>)
    decreases |b|
  {
    if a == [] then true
    else if b == [] then false
    else if a[|a| - 1] == b[|b| - 1] then IsSubseq(a[..|a| - 1], b[..|b| - 1])
    else IsSubseq(a, b[..|b| - 1])
  }

  lemma ConcatAssoc<T>(a: seq<T>, b: seq<T>, c: seq<T>)
    ensures a + (b + c) == (a + b) + c
  {
  }

  lemma ElemsAppend<T>(s: seq<T>, x: T)
    ensures Elems(s + [x]) == Elems(s) + {x}
  {
    assert forall y :: y in s + [x] <==> y in s || y == x;
  }

  lemma NoDupAppend<T>(s: seq<T>, x: T)
    requires NoDup(s) && x !in s
    ensures NoDup(s + [x])
  {
  }

  lemma ElemsConcat<T>(a: seq<T>, b: seq<T>)
    ensures Elems(a + b) == Elems(a) + Elems(b)
  {
    assert forall y :: y in a + b <==> y in a || y in b;
  }

  /** Joining duplicate-free sequences with no common element keeps them duplicate-free. */
  lemma NoDupConcat<T>(a: seq<T>, b: seq<T>)
    requires NoDup(a) && NoDup(b) && Elems(a) !! Elems(b)
    ensures NoDup(a + b)
  {
    var c := a + b;
    forall i, j | 0 <= i < j < |c|
      ensures c[i] != c[j]
    {
      if i < |a| && j >= |a| {
        assert c[i] in Elems(a) && c[j] == b[j - |a|] && c[j] in Elems(b);
      } else if i >= |a| {
        assert c[i] == b[i - |a|] && c[j] == b[j - |a|];
      }
    }
  }

  /** A duplicate-free sequence has as many distinct elements as positions. */
  lemma {:induction false} NoDupCard<T>(s: seq<T>)
    ensures NoDup(s) <==> |Elems(s)| == |s|
  {
    if s == [] {
      assert Elems(s) == {};
    } else {
      var init, x := s[..|s| - 1], s[|s| - 1];
      assert s == init + [x];
      NoDupCard(init);
      ElemsAppend(init, x);
      if x in init {
        assert Elems(s) == Elems(init);
        assert !NoDup(s) by {
          var k :| 0 <= k < |init| && init[k] == x;
          assert s[k] == s[|s| - 1];
        }
        ElemsBound(init);
      } else {
        assert x !in Elems(init);
        assert |Elems(s)| == |Elems(init)| + 1;
        if NoDup(init) {
          NoDupAppend(init, x);
        } else {
          assert !NoDup(s) by {
            var i, j :| 0 <= i < j < |init| && init[i] == init[j];
            assert s[i] == s[j];
          }
        }
      }
      if !NoDup(init) {
        assert |Elems(init)| < |init| by { ElemsBound(init); }
      }
    }
  }

  lemma {:induction false} ElemsBound<T>(s: seq<T>)
    ensures |Elems(s)| <= |s|
  {
    if s != [] {
      var init, x := s[..|s| - 1], s[|s| - 1];
      assert s == init + [x];
      ElemsAppend(init, x);
      ElemsBound(init);
    } else {
      assert Elems(s) == {};
    }
  }

  /** The multiset of a duplicate-free sequence is the multiset of its element set. */
  lemma {:induction false} NoDupMultiset<T>(s: seq<T>)
    requires NoDup(s)
    ensures multiset(s) == multiset(Elems(s))
  {
    if s != [] {
      var init, x := s[..|s| - 1], s[|s| - 1];
      assert s == init + [x];
      NoDupMultiset(init);
      ElemsAppend(init, x);
      assert x !in init;
      assert x !in Elems(init);
    } else {
      assert Elems(s) == {};
    }
  }

  /** Dropping the last element of `a` keeps it a subsequence of `b`. */
  lemma {:induction false} SubseqDropLast<T>(a: seq<T>, b: seq<T>)
    requires a != [] && IsSubseq(a, b)
    ensures IsSubseq(a[..|a| - 1], b)
    decreases |b|, 0
  {
    var a', b' := a[..|a| - 1], b[..|b| - 1];
    if a[|a| - 1] == b[|b| - 1] {
      // IsSubseq(a', b') holds; extend b' by one element
      SubseqExtend(a', b', b[|b| - 1]);
      assert b' + [b[|b| - 1]] == b;
    } else {
      SubseqDropLast(a, b');
      SubseqExtend(a', b', b[|b| - 1]);
      assert b' + [b[|b| - 1]] == b;
    }
  }

  /** A subsequence stays one when the longer sequence grows at the end. */
  lemma {:induction false} SubseqExtend<T>(a: seq<T>, b: seq<T>, y: T)
    requires IsSubseq(a, b)
    ensures IsSubseq(a, b + [y])
    decreases |b|, 1
  {
    var b2 := b + [y];
    assert b2[..|b2| - 1] == b;
    if a != [] && a[|a| - 1] == y {
      SubseqDropLast(a, b);
    }
  }

  /** Appending the same element to both sides keeps the subsequence relation. */
  lemma SubseqAppendBoth<T>(a: seq<T>, b: seq<T>, y: T)
    requires IsSubseq(a, b)
    ensures IsSubseq(a + [y], b + [y])
  {
    assert (a + [y])[..|a|] == a;
    assert (b + [y])[..|b|] == b;
  }

  /** Every element of a subsequence occurs in the longer sequence. */
  lemma {:induction false} SubseqElems<T>(a: seq<T>, b: seq<T>)
    requires IsSubseq(a, b)
    ensures Elems(a) <= Elems(b)
    decreases |b|
  {
    if a != [] {
      var b' := b[..|b| - 1];
      assert b == b' + [b[|b| - 1]];
      ElemsAppend(b', b[|b| - 1]);
      if a[|a| - 1] == b[|b| - 1] {
        var a' := a[..|a| - 1];
        SubseqElems(a', b');
        assert a == a' + [a[|a| - 1]];
        ElemsAppend(a', a[|a| - 1]);
      } else {
        SubseqElems(a, b');
      }
    }
  }

  /** A subsequence of a duplicate-free sequence is duplicate-free. */
  lemma {:induction false} SubseqNoDup<T>(a: seq<T>, b: seq<T>)
    requires IsSubseq(a, b) && NoDup(b)
    ensures NoDup(a)
    decreases |b|
  {
    if a != [] {
      var a', b' := a[..|a| - 1], b[..|b| - 1];
      assert NoDup(b');
      if a[|a| - 1] == b[|b| - 1] {
        SubseqNoDup(a', b');
        SubseqElems(a', b');
        assert b[|b| - 1] !in Elems(b');
        assert a[|a| - 1] !in a';
        assert a == a' + [a[|a| - 1]];
        NoDupAppend(a', a[|a| - 1]);
      } else {
        SubseqNoDup(a, b');
      }
    }
  }
}

=== FILE: database.dfy ===
/** Keeping the mod metadata database in step with the resource list
    (AddModEntryToDB, ModTek/ModTek.cs:771-809, and the "Syncing Database"
    stage, ModTek/ModTek.cs:994-1064). The database itself is out of reach:
    what is modelled is the db cache, relative path to the last-write time
    the database was filled from, and which files get (re)inserted. */
module Database {
  import opened Common
  import opened Paths
  import opened Descriptors
  import opened TypeCache

  /** Last-write times, as ticks. */
  type DbCache = map<string, int>

  /** The file system and the database as functions. */
  datatype DbWorld = DbWorld(
    resolve: string -> string,              // ResolvePath(path, GameDirectory)
    relative: string -> string,             // GetRelativePath(path, GameDirectory)
    fullPath: string -> string,             // Path.GetFullPath
    lastWrite: string -> int,               // File.GetLastWriteTimeUtc
    insertOk: (string, string) -> bool,     // InstantiateResourceAndUpdateMDDB(type, path) did not throw
    parse: string -> Option<string>)        // Enum.Parse: the BattleTechResourceType name, or None when it throws

  /** The resource types whose definitions live in the metadata database. */
  const DbKinds: set<string> := {
    "TurretDef", "UpgradeDef", "VehicleDef", "ContractOverride", "SimGameEventDef",
    "LanceDef", "MechDef", "PilotDef", "WeaponDef" }

  /** A file to add and the type it is added as. */
  datatype Target = Target(abs: string, typ: Option<string>)

  /** Enum.Parse accepts the type string; a missing type throws. */
  predicate Parses(dw: DbWorld, typ: Option<string>)
  {
    typ.Some? && dw.parse(typ.value).Some?
  }

  /** The resource type the type string parses to. Whitespace around a name,
      a numeric value and the other spellings Enum.Parse accepts all end
      up as the type's own name here. */
  function Kind(dw: DbWorld, typ: Option<string>): (k: string)
    requires Parses(dw, typ)
    ensures Some(k) == dw.parse(typ.value)
  {
    dw.parse(typ.value).value
  }

  /** The cache has no entry for the file, or one older than the file. */
  predicate Stale(dw: DbWorld, cache: DbCache, abs: string)
  {
    dw.relative(abs) !in cache || cache[dw.relative(abs)] != dw.lastWrite(abs)
  }

  /** AddModEntryToDB: only JSON files count; an unknown type name throws;
      a database kind whose cache entry is missing or outdated is inserted
      and stamped, unless the insert throws. Returns whether it inserted. */
  function AddModEntryToDB(dw: DbWorld, cache: DbCache, t: Target): Result<(bool, DbCache), string>
  {
    if !IsJson(t.abs) then Success((false, cache))
    else if !Parses(dw, t.typ) then Failure("Requested value was not found.")
    else if Kind(dw, t.typ) in DbKinds && Stale(dw, cache, t.abs) && dw.insertOk(Kind(dw, t.typ), t.abs) then
      Success((true, cache[dw.relative(t.abs) := dw.lastWrite(t.abs)]))
    else Success((false, cache))
  }

  /** A target the database takes: a JSON file of a database kind whose
      insert succeeds. */
  predicate Eligible(dw: DbWorld, t: Target)
  {
    IsJson(t.abs) && Parses(dw, t.typ) && Kind(dw, t.typ) in DbKinds && dw.insertOk(Kind(dw, t.typ), t.abs)
  }

  /** Only JSON files with an unknown type fail; an insert happens exactly
      for an eligible, stale target; otherwise the cache is unchanged; an
      eligible target always leaves its file stamped with its last-write
      time; no key is ever removed and no other key's stamp changes. */
  lemma AddModEntryToDBSpec(dw: DbWorld, cache: DbCache, t: Target)
    ensures var r := AddModEntryToDB(dw, cache, t);
      && (r.Failure? <==> IsJson(t.abs) && !Parses(dw, t.typ))
      && (r.Success? ==>
            && (r.value.0 <==> Eligible(dw, t) && Stale(dw, cache, t.abs))
            && (!r.value.0 ==> r.value.1 == cache)
            && cache.Keys <= r.value.1.Keys
            && r.value.1.Keys <= cache.Keys + {dw.relative(t.abs)}
            && (forall k :: k in cache && k != dw.relative(t.abs) ==> r.value.1[k] == cache[k])
            && (Eligible(dw, t) ==> dw.relative(t.abs) in r.value.1 && !Stale(dw, r.value.1, t.abs)))
  {
  }

  /** Only the parsed type matters: two spellings that Enum.Parse maps to
      the same resource type, such as "MechDef" and " MechDef ", give the
      same outcome. */
  lemma ParsedSpellingDecides(dw: DbWorld, cache: DbCache, abs: string, s1: string, s2: string)
    requires dw.parse(s1) == dw.parse(s2)
    ensures AddModEntryToDB(dw, cache, Target(abs, Some(s1))) == AddModEntryToDB(dw, cache, Target(abs, Some(s2)))
  {
  }

  /** Adding the same file twice: the second call inserts nothing. */
  lemma AddModEntryToDBIdempotent(dw: DbWorld, cache: DbCache, t: Target)
    requires AddModEntryToDB(dw, cache, t).Success?
    ensures var c1 := AddModEntryToDB(dw, cache, t).value.1;
      AddModEntryToDB(dw, c1, t) == Success((false, c1))
  {
  }

  /** Adding targets in order; the first exception ends the stage. */
  function AddTargets(dw: DbWorld, cache: DbCache, ts: seq<Target>): Result<DbCache, string>
    decreases |ts|
  {
    if ts == [] then Success(cache)
    else
      match AddModEntryToDB(dw, cache, ts[0])
      case Failure(m) => Failure(m)
      case Success(p) => AddTargets(dw, p.1, ts[1..])
  }

  /** The stage fails exactly when one of the targets is a JSON file with an
      unknown type. */
  lemma {:induction false} AddTargetsFails(dw: DbWorld, cache: DbCache, ts: seq<Target>)
    ensures AddTargets(dw, cache, ts).Failure? <==> exists i :: 0 <= i < |ts| && IsJson(ts[i].abs) && !Parses(dw, ts[i].typ)
    decreases |ts|
  {
    if ts != [] {
      AddModEntryToDBSpec(dw, cache, ts[0]);
      var step := AddModEntryToDB(dw, cache, ts[0]);
      if step.Success? {
        AddTargetsFails(dw, step.value.1, ts[1..]);
        if AddTargets(dw, cache, ts).Failure? {
          var i :| 0 <= i < |ts[1..]| && IsJson(ts[1..][i].abs) && !Parses(dw, ts[1..][i].typ);
          assert ts[i + 1] == ts[1..][i];
        }
        if exists i :: 0 <= i < |ts| && IsJson(ts[i].abs) && !Parses(dw, ts[i].typ) {
          var i :| 0 <= i < |ts| && IsJson(ts[i].abs) && !Parses(dw, ts[i].typ);
          if i > 0 {
            assert ts[1..][i - 1] == ts[i];
          }
        }
      }
    }
  }

  /** After a successful stage every eligible target is stamped in the
      cache, no key is lost, and every new key belongs to some target. */
  lemma {:induction false} AddTargetsSpec(dw: DbWorld, cache: DbCache, ts: seq<Target>)
    requires AddTargets(dw, cache, ts).Success?
    ensures var r := AddTargets(dw, cache, ts).value;
      && cache.Keys <= r.Keys
      && (forall i :: 0 <= i < |ts| && Eligible(dw, ts[i]) ==> dw.relative(ts[i].abs) in r)
      && (forall k :: k in r ==> k in cache || exists i :: 0 <= i < |ts| && k == dw.relative(ts[i].abs))
    decreases |ts|
  {
    if ts != [] {
      AddModEntryToDBSpec(dw, cache, ts[0]);
      var c1 := AddModEntryToDB(dw, cache, ts[0]).value.1;
      AddTargetsSpec(dw, c1, ts[1..]);
      var r := AddTargets(dw, cache, ts).value;
      forall i | 0 <= i < |ts| && Eligible(dw, ts[i])
        ensures dw.relative(ts[i].abs) in r
      {
        if i > 0 {
          assert ts[i] == ts[1..][i - 1];
        }
      }
      forall k | k in r
        ensures k in cache || exists i :: 0 <= i < |ts| && k == dw.relative(ts[i].abs)
      {
        if k !in c1 {
          var i :| 0 <= i < |ts[1..]| && k == dw.relative(ts[1..][i].abs);
          assert ts[i + 1] == ts[1..][i];
        } else if k !in cache {
          assert k == dw.relative(ts[0].abs);
        }
      }
    }
  }

  /** The resource-list entries marked for the database, as targets. */
  function EntryTargets(btrl: seq<ManifestEntry>): seq<Target>
  {
    if btrl == [] then []
    else if btrl[0].addToDb then [Target(btrl[0].path, btrl[0].typ)] + EntryTargets(btrl[1..])
    else EntryTargets(btrl[1..])
  }

  /** The targets are exactly the marked entries' files and types. */
  lemma {:induction false} EntryTargetsSpec(btrl: seq<ManifestEntry>, t: Target)
    ensures t in EntryTargets(btrl) <==> exists j :: 0 <= j < |btrl| && btrl[j].addToDb && t == Target(btrl[j].path, btrl[j].typ)
  {
    if btrl != [] {
      EntryTargetsSpec(btrl[1..], t);
      if exists j :: 0 <= j < |btrl| && btrl[j].addToDb && t == Target(btrl[j].path, btrl[j].typ) {
        var j :| 0 <= j < |btrl| && btrl[j].addToDb && t == Target(btrl[j].path, btrl[j].typ);
        if j > 0 {
          assert btrl[1..][j - 1] == btrl[j];
        }
      }
      if t in EntryTargets(btrl[1..]) {
        var j :| 0 <= j < |btrl[1..]| && btrl[1..][j].addToDb && t == Target(btrl[1..][j].path, btrl[1..][j].typ);
        assert btrl[j + 1] == btrl[1..][j];
      }
    }
  }

  // ---- Finding stale cache keys ----

  /** List.Exists(x => x.Path == path). */
  function HasPath(btrl: seq<ManifestEntry>, path: string): bool
  {
    btrl != [] && (btrl[0].path == path || HasPath(btrl[1..], path))
  }

  lemma {:induction false} HasPathSpec(btrl: seq<ManifestEntry>, path: string)
    ensures HasPath(btrl, path) <==> exists i :: 0 <= i < |btrl| && btrl[i].path == path
  {
    if btrl != [] {
      HasPathSpec(btrl[1..], path);
      if exists i :: 0 <= i < |btrl| && btrl[i].path == path {
        var i :| 0 <= i < |btrl| && btrl[i].path == path;
        if i > 0 {
          assert btrl[1..][i - 1] == btrl[i];
        }
      }
      if HasPath(btrl[1..], path) && btrl[0].path != path {
        var i :| 0 <= i < |btrl[1..]| && btrl[1..][i].path == path;
        assert btrl[i + 1] == btrl[1..][i];
      }
    }
  }

  /** A cache key is still in use when some resource-list entry has exactly
      the resolved path. */
  predicate Live(dw: DbWorld, btrl: seq<ManifestEntry>, key: string)
  {
    HasPath(btrl, dw.resolve(key))
  }

  /** The first resource-list entry with the same file name, else the first
      manifest row with it, as the file that replaces a stale key. */
  function Replacement(btrl: seq<ManifestEntry>, catalog: seq<CatalogEntry>, key: string): (r: Option<Target>)
    ensures r.None? <==>
      (forall i :: 0 <= i < |btrl| ==> GetFileName(btrl[i].path) != GetFileName(key)) &&
      (forall i :: 0 <= i < |catalog| ==> GetFileName(catalog[i].filePath) != GetFileName(key))
  {
    var name := GetFileName(key);
    var fe := FirstEntryNamed(btrl, name);
    if fe.Some? then
      assert exists i :: 0 <= i < |btrl| && btrl[i] == fe.value;
      Some(Target(fe.value.path, fe.value.typ))
    else
      var fr := FirstRowNamed(catalog, name);
      if fr.Some? then
        assert exists i :: 0 <= i < |catalog| && catalog[i] == fr.value;
        Some(Target(fr.value.filePath, Some(fr.value.typ)))
      else None
  }

  function FirstEntryNamed(btrl: seq<ManifestEntry>, name: string): (r: Option<ManifestEntry>)
    ensures r.Some? ==> r.value in btrl && GetFileName(r.value.path) == name
    ensures r.None? ==> forall i :: 0 <= i < |btrl| ==> GetFileName(btrl[i].path) != name
  {
    if btrl == [] then None
    else if GetFileName(btrl[0].path) == name then Some(btrl[0])
    else FirstEntryNamed(btrl[1..], name)
  }

  function FirstRowNamed(catalog: seq<CatalogEntry>, name: string): (r: Option<CatalogEntry>)
    ensures r.Some? ==> r.value in catalog && GetFileName(r.value.filePath) == name
    ensures r.None? ==> forall i :: 0 <= i < |catalog| ==> GetFileName(catalog[i].filePath) != name
  {
    if catalog == [] then None
    else if GetFileName(catalog[0].filePath) == name then Some(catalog[0])
    else FirstRowNamed(catalog[1..], name)
  }

  lemma {:induction false} FirstEntryNamedIsFirst(btrl: seq<ManifestEntry>, name: string, i: nat)
    requires i < |btrl| && GetFileName(btrl[i].path) == name
    requires forall j :: 0 <= j < i ==> GetFileName(btrl[j].path) != name
    ensures FirstEntryNamed(btrl, name) == Some(btrl[i])
  {
    if i > 0 {
      assert GetFileName(btrl[0].path) != name;
      var tail := btrl[1..];
      forall j | 0 <= j < i - 1 ensures GetFileName(tail[j].path) != name {
        assert tail[j] == btrl[j + 1];
      }
      FirstEntryNamedIsFirst(tail, name, i - 1);
    }
  }

  lemma {:induction false} FirstRowNamedIsFirst(catalog: seq<CatalogEntry>, name: string, i: nat)
    requires i < |catalog| && GetFileName(catalog[i].filePath) == name
    requires forall j :: 0 <= j < i ==> GetFileName(catalog[j].filePath) != name
    ensures FirstRowNamed(catalog, name) == Some(catalog[i])
  {
    if i > 0 {
      assert GetFileName(catalog[0].filePath) != name;
      var tail := catalog[1..];
      forall j | 0 <= j < i - 1 ensures GetFileName(tail[j].filePath) != name {
        assert tail[j] == catalog[j + 1];
      }
      FirstRowNamedIsFirst(tail, name, i - 1);
    }
  }

  /** A stale key is replaced by the first resource-list entry sharing its
      file name; only when there is none does the first such manifest row
      stand in. */
  lemma ReplacementIsFirstMatch(btrl: seq<ManifestEntry>, catalog: seq<CatalogEntry>, key: string)
    ensures forall i :: 0 <= i < |btrl| && GetFileName(btrl[i].path) == GetFileName(key)
                        && (forall j :: 0 <= j < i ==> GetFileName(btrl[j].path) != GetFileName(key)) ==>
      Replacement(btrl, catalog, key) == Some(Target(btrl[i].path, btrl[i].typ))
    ensures (forall i :: 0 <= i < |btrl| ==> GetFileName(btrl[i].path) != GetFileName(key)) ==>
      forall i :: 0 <= i < |catalog| && GetFileName(catalog[i].filePath) == GetFileName(key)
                  && (forall j :: 0 <= j < i ==> GetFileName(catalog[j].filePath) != GetFileName(key)) ==>
        Replacement(btrl, catalog, key) == Some(Target(catalog[i].filePath, Some(catalog[i].typ)))
  {
    var name := GetFileName(key);
    forall i | 0 <= i < |btrl| && GetFileName(btrl[i].path) == name
               && (forall j :: 0 <= j < i ==> GetFileName(btrl[j].path) != name)
      ensures Replacement(btrl, catalog, key) == Some(Target(btrl[i].path, btrl[i].typ))
    {
      FirstEntryNamedIsFirst(btrl, name, i);
    }
    if forall i :: 0 <= i < |btrl| ==> GetFileName(btrl[i].path) != name {
      forall i | 0 <= i < |catalog| && GetFileName(catalog[i].filePath) == name
                 && (forall j :: 0 <= j < i ==> GetFileName(catalog[j].filePath) != name)
        ensures Replacement(btrl, catalog, key) == Some(Target(catalog[i].filePath, Some(catalog[i].typ)))
      {
        FirstRowNamedIsFirst(catalog, name, i);
      }
    }
  }

  /** The outcome of scanning the cache keys: rebuild, or the stale keys to
      drop and the files that replace them. */
  datatype Scan = Rebuild | Replace(removals: seq<string>, replacements: seq<Target>)

  /** The scan over the cache keys; the first stale key without a replacement
      stops it. */
  function ScanKeys(dw: DbWorld, btrl: seq<ManifestEntry>, catalog: seq<CatalogEntry>, keys: seq<string>): Scan
    decreases |keys|
  {
    if keys == [] then Replace([], [])
    else if Live(dw, btrl, keys[0]) then ScanKeys(dw, btrl, catalog, keys[1..])
    else
      match Replacement(btrl, catalog, keys[0])
      case None => Rebuild
      case Some(t) =>
        match ScanKeys(dw, btrl, catalog, keys[1..])
        case Rebuild => Rebuild
        case Replace(rm, rp) => Replace([keys[0]] + rm, [t] + rp)
  }

  /** A stale key no file can replace. */
  predicate Blocked(dw: DbWorld, btrl: seq<ManifestEntry>, catalog: seq<CatalogEntry>, key: string)
  {
    !Live(dw, btrl, key) && Replacement(btrl, catalog, key).None?
  }

  /** The scan asks for a rebuild exactly when some key is blocked. */
  lemma {:induction false} ScanRebuildsIffBlocked(dw: DbWorld, btrl: seq<ManifestEntry>, catalog: seq<CatalogEntry>, keys: seq<string>)
    ensures ScanKeys(dw, btrl, catalog, keys).Rebuild? <==> exists k :: k in keys && Blocked(dw, btrl, catalog, k)
    decreases |keys|
  {
    if keys != [] {
      var k0, rest := keys[0], keys[1..];
      ScanRebuildsIffBlocked(dw, btrl, catalog, rest);
      assert forall k :: k in keys <==> k == k0 || k in rest;
      if Live(dw, btrl, k0) {
        assert !Blocked(dw, btrl, catalog, k0);
        assert ScanKeys(dw, btrl, catalog, keys) == ScanKeys(dw, btrl, catalog, rest);
      } else if Replacement(btrl, catalog, k0).None? {
        assert ScanKeys(dw, btrl, catalog, keys) == Rebuild;
        assert k0 in keys && Blocked(dw, btrl, catalog, k0);
      } else {
        assert !Blocked(dw, btrl, catalog, k0);
        assert ScanKeys(dw, btrl, catalog, keys).Rebuild? == ScanKeys(dw, btrl, catalog, rest).Rebuild?;
      }
    }
  }

  /** Without a rebuild the scan pairs each removed key with its replacement. */
  lemma {:induction false} ScanPairsReplacements(dw: DbWorld, btrl: seq<ManifestEntry>, catalog: seq<CatalogEntry>, keys: seq<string>)
    requires ScanKeys(dw, btrl, catalog, keys).Replace?
    ensures var s := ScanKeys(dw, btrl, catalog, keys);
      && |s.removals| == |s.replacements|
      && (forall i :: 0 <= i < |s.removals| ==> Replacement(btrl, catalog, s.removals[i]) == Some(s.replacements[i]))
    decreases |keys|
  {
    if keys != [] {
      var k0 := keys[0];
      var s := ScanKeys(dw, btrl, catalog, keys);
      var rest := ScanKeys(dw, btrl, catalog, keys[1..]);
      if Live(dw, btrl, k0) {
        assert s == rest;
        ScanPairsReplacements(dw, btrl, catalog, keys[1..]);
      } else {
        assert Replacement(btrl, catalog, k0).Some? && rest.Replace?;
        var t := Replacement(btrl, catalog, k0).value;
        ScanPairsReplacements(dw, btrl, catalog, keys[1..]);
        assert s == Replace([k0] + rest.removals, [t] + rest.replacements);
        forall i | 0 <= i < |s.removals|
          ensures Replacement(btrl, catalog, s.removals[i]) == Some(s.replacements[i])
        {
          if i > 0 {
            assert s.removals[i] == rest.removals[i - 1] && s.replacements[i] == rest.replacements[i - 1];
          }
        }
      }
    }
  }

  /** Without a rebuild the scan removes exactly the stale keys. */
  lemma {:induction false} ScanRemovesStaleKeys(dw: DbWorld, btrl: seq<ManifestEntry>, catalog: seq<CatalogEntry>, keys: seq<string>)
    requires ScanKeys(dw, btrl, catalog, keys).Replace?
    ensures forall k :: k in ScanKeys(dw, btrl, catalog, keys).removals <==> k in keys && !Live(dw, btrl, k)
    decreases |keys|
  {
    if keys != [] {
      var k0 := keys[0];
      var removals := ScanKeys(dw, btrl, catalog, keys).removals;
      var rest := ScanKeys(dw, btrl, catalog, keys[1..]);
      assert rest.Replace?;
      ScanRemovesStaleKeys(dw, btrl, catalog, keys[1..]);
      var head: seq<string> := if Live(dw, btrl, k0) then [] else [k0];
      assert removals == head + rest.removals;
      forall k
        ensures k in removals <==> k in keys && !Live(dw, btrl, k)
      {
        assert k in keys <==> k == k0 || k in keys[1..];
      }
    }
  }

  /** Drop the given keys. */
  function RemoveKeys(cache: DbCache, removals: seq<string>): (r: DbCache)
    ensures r.Keys == cache.Keys - set k | k in removals
    ensures forall k :: k in r ==> r[k] == cache[k]
  {
    map k | k in cache && k !in removals :: cache[k]
  }

  /** The syncing stage: scan the cache keys (listed once each, in the
      dictionary's order); on a rebuild start from an empty cache, otherwise
      drop the stale keys and add their replacements; then add every
      resource-list entry marked for the database. */
  function SyncDatabase(dw: DbWorld, btrl: seq<ManifestEntry>, catalog: seq<CatalogEntry>, cache: DbCache, keys: seq<string>): Result<DbCache, string>
  {
    match ScanKeys(dw, btrl, catalog, keys)
    case Rebuild => AddTargets(dw, map[], EntryTargets(btrl))
    case Replace(rm, rp) =>
      var replaced := seq(|rp|, i requires 0 <= i < |rp| => Target(dw.fullPath(rp[i].abs), rp[i].typ));
      match AddTargets(dw, RemoveKeys(cache, rm), replaced)
      case Failure(m) => Failure(m)
      case Success(c) => AddTargets(dw, c, EntryTargets(btrl))
  }

  /** After pruning, every key left in the cache is in use. */
  lemma PrunedKeysAreLive(dw: DbWorld, btrl: seq<ManifestEntry>, catalog: seq<CatalogEntry>, cache: DbCache, keys: seq<string>)
    requires forall k :: k in cache <==> k in keys
    requires ScanKeys(dw, btrl, catalog, keys).Replace?
    ensures forall k :: k in RemoveKeys(cache, ScanKeys(dw, btrl, catalog, keys).removals) ==> Live(dw, btrl, k)
  {
    ScanRemovesStaleKeys(dw, btrl, catalog, keys);
  }

  /** After a successful sync every resource-list entry marked for the
      database and accepted by it has its file stamped in the cache. */
  lemma SyncedEntriesAreCached(dw: DbWorld, btrl: seq<ManifestEntry>, catalog: seq<CatalogEntry>, cache: DbCache, keys: seq<string>, j: int)
    requires SyncDatabase(dw, btrl, catalog, cache, keys).Success?
    requires 0 <= j < |btrl| && btrl[j].addToDb && Eligible(dw, Target(btrl[j].path, btrl[j].typ))
    ensures dw.relative(btrl[j].path) in SyncDatabase(dw, btrl, catalog, cache, keys).value
  {
    var ts := EntryTargets(btrl);
    var t := Target(btrl[j].path, btrl[j].typ);
    EntryTargetsSpec(btrl, t);
    var i :| 0 <= i < |ts| && ts[i] == t;
    match ScanKeys(dw, btrl, catalog, keys)
    case Rebuild =>
      AddTargetsSpec(dw, map[], ts);
    case Replace(rm, rp) =>
      var replaced := seq(|rp|, i requires 0 <= i < |rp| => Target(dw.fullPath(rp[i].abs), rp[i].typ));
      var c := AddTargets(dw, RemoveKeys(cache, rm), replaced).value;
      AddTargetsSpec(dw, c, ts);
  }

  /** A rebuilt cache holds only files of this run's resource list. */
  lemma RebuildKeepsOnlyCurrentFiles(dw: DbWorld, btrl: seq<ManifestEntry>, catalog: seq<CatalogEntry>, cache: DbCache, keys: seq<string>)
    requires ScanKeys(dw, btrl, catalog, keys).Rebuild?
    requires SyncDatabase(dw, btrl, catalog, cache, keys).Success?
    ensures forall k :: k in SyncDatabase(dw, btrl, catalog, cache, keys).value ==>
      exists j :: 0 <= j < |btrl| && k == dw.relative(btrl[j].path)
  {
    var ts := EntryTargets(btrl);
    AddTargetsSpec(dw, map[], ts);
    forall k | k in SyncDatabase(dw, btrl, catalog, cache, keys).value
      ensures exists j :: 0 <= j < |btrl| && k == dw.relative(btrl[j].path)
    {
      var i :| 0 <= i < |ts| && k == dw.relative(ts[i].abs);
      EntryTargetsSpec(btrl, ts[i]);
      var j :| 0 <= j < |btrl| && btrl[j].addToDb && ts[i] == Target(btrl[j].path, btrl[j].typ);
    }
  }

  /** Without a rebuild, a key of the synced cache is a key that was in use,
      the file of a replacement, or the file of an entry marked for the
      database: no stale key survives on its own. */
  lemma SyncDropsStaleKeys(dw: DbWorld, btrl: seq<ManifestEntry>, catalog: seq<CatalogEntry>, cache: DbCache, keys: seq<string>)
    requires forall k :: k in cache <==> k in keys
    requires ScanKeys(dw, btrl, catalog, keys).Replace?
    requires SyncDatabase(dw, btrl, catalog, cache, keys).Success?
    ensures var rp := ScanKeys(dw, btrl, catalog, keys).replacements;
      forall k :: k in SyncDatabase(dw, btrl, catalog, cache, keys).value ==>
        || (k in cache && Live(dw, btrl, k))
        || (exists i :: 0 <= i < |rp| && k == dw.relative(dw.fullPath(rp[i].abs)))
        || (exists j :: 0 <= j < |btrl| && btrl[j].addToDb && k == dw.relative(btrl[j].path))
  {
    var s := ScanKeys(dw, btrl, catalog, keys);
    var rm, rp := s.removals, s.replacements;
    var replaced := seq(|rp|, i requires 0 <= i < |rp| => Target(dw.fullPath(rp[i].abs), rp[i].typ));
    var pruned := RemoveKeys(cache, rm);
    PrunedKeysAreLive(dw, btrl, catalog, cache, keys);
    AddTargetsSpec(dw, pruned, replaced);
    var c := AddTargets(dw, pruned, replaced).value;
    var ts := EntryTargets(btrl);
    AddTargetsSpec(dw, c, ts);
    var r := SyncDatabase(dw, btrl, catalog, cache, keys).value;
    forall k | k in r
      ensures || (k in cache && Live(dw, btrl, k))
              || (exists i :: 0 <= i < |rp| && k == dw.relative(dw.fullPath(rp[i].abs)))
              || (exists j :: 0 <= j < |btrl| && btrl[j].addToDb && k == dw.relative(btrl[j].path))
    {
      if k !in c {
        var i :| 0 <= i < |ts| && k == dw.relative(ts[i].abs);
        EntryTargetsSpec(btrl, ts[i]);
      } else if k !in pruned {
        var i :| 0 <= i < |replaced| && k == dw.relative(replaced[i].abs);
      }
    }
  }
}

=== FILE: descriptors.dfy ===
/** Mod descriptors (ModDef) and their manifest declarations (ModDef.ManifestEntry),
    and the collection of descriptors from the mods directory
    (ModTek/ModTek.cs:665-696). ModDef.cs itself is not part of this model; the
    fields below are the ones ModTek.cs reads. */
module Descriptors {
  import opened Common

  type Name = string

  /** One manifest declaration, and also one expanded entry: the source uses the
      same class for both. A C# string that may be null or empty is modelled as
      `""` when the code only ever tests it with string.IsNullOrEmpty. */
  datatype ManifestEntry = ManifestEntry(
    path: string,
    typ: Option<string>,
    id: Option<string>,
    shouldMergeJson: bool,
    addToAddendum: string,
    addToDb: bool,
    assetBundleName: string)

  /** A parsed mod.json. Dependency and conflict collections are sets: the
      source's ModDef type is not shown, and the list-based reading of the
      dependency check is modelled separately (LoadOrder.ResolvedOnLists). */
  datatype ModDef = ModDef(
    name: Name,
    version: string,
    enabled: bool,
    dependsOn: set<Name>,
    optionallyDependsOn: set<Name>,
    conflictsWith: set<Name>,
    directory: string,
    manifest: seq<ManifestEntry>,
    loadImplicitManifest: bool,
    dll: Option<string>,
    dllEntryPoint: Option<string>)

  /** What ModDef.CreateFromPath produced for one mod directory, in directory
      enumeration order: a descriptor, or an exception (a ConfigParseError). */
  datatype ParsedDescriptor = ParsedDef(def: ModDef) | ConfigParseError

  /** The i-th directory offers an enabled descriptor named `n`. */
  predicate Offers(found: seq<ParsedDescriptor>, i: int, n: Name)
    requires 0 <= i < |found|
  {
    found[i].ParsedDef? && found[i].def.enabled && found[i].def.name == n
  }

  /** Descriptors are keyed by their own name. */
  predicate KeyedByName(defs: map<Name, ModDef>)
  {
    forall n :: n in defs ==> defs[n].name == n
  }

  /** The loop that fills `modDefs`: unparsable and disabled descriptors are
      skipped, and a name already taken is skipped too. */
  function CollectModDefs(found: seq<ParsedDescriptor>): (defs: map<Name, ModDef>)
    decreases |found|
    ensures KeyedByName(defs)
    ensures forall n :: n in defs ==> defs[n].enabled
  {
    if found == [] then map[]
    else
      var earlier := CollectModDefs(found[..|found| - 1]);
      var last := found[|found| - 1];
      if last.ParsedDef? && last.def.enabled && last.def.name !in earlier then
        earlier[last.def.name := last.def]
      else
        earlier
  }

  /** A name is collected exactly when some directory offers an enabled
      descriptor of that name, and the descriptor kept is the first one offered. */
  lemma {:induction false} CollectKeepsFirstEnabled(found: seq<ParsedDescriptor>, n: Name)
    ensures n in CollectModDefs(found) <==> exists i :: 0 <= i < |found| && Offers(found, i, n)
    ensures n in CollectModDefs(found) ==>
      exists i :: 0 <= i < |found| && Offers(found, i, n) && found[i].def == CollectModDefs(found)[n]
        && forall j :: 0 <= j < i ==> !Offers(found, j, n)
    decreases |found|
  {
    if found != [] {
      var prefix := found[..|found| - 1];
      CollectKeepsFirstEnabled(prefix, n);
      assert forall i :: 0 <= i < |prefix| ==> (Offers(prefix, i, n) <==> Offers(found, i, n));
      var last := found[|found| - 1];
      var earlier := CollectModDefs(prefix);
      if n in earlier {
        var i :| 0 <= i < |prefix| && Offers(prefix, i, n) && prefix[i].def == earlier[n]
          && forall j :: 0 <= j < i ==> !Offers(prefix, j, n);
        assert Offers(found, i, n) && found[i].def == CollectModDefs(found)[n];
        assert forall j :: 0 <= j < i ==> !Offers(found, j, n);
      } else if Offers(found, |found| - 1, n) {
        assert CollectModDefs(found)[n] == last.def;
        assert forall j :: 0 <= j < |found| - 1 ==> !Offers(found, j, n);
      } else {
        assert n !in CollectModDefs(found);
        assert forall i :: 0 <= i < |found| ==> !Offers(found, i, n);
      }
    }
  }
}

=== FILE: expansion.dfy ===
/** Turning a mod's manifest into the entries it contributes (LoadMod,
    ModTek/ModTek.cs:548-641) and loading every mod of the load order
    (ModTek/ModTek.cs:711-724). The file system, the JSON reader and the DLL
    loader are functions carried by a `Disk` value. */
module Expansion {
  import opened Common
  import opened Paths
  import opened JsonIds
  import opened Descriptors

  /** The outside world as LoadMod sees it. */
  datatype Disk = Disk(
    combine: (string, string) -> string,              // Path.Combine
    fullPath: string -> string,                        // Path.GetFullPath
    isDirectory: string -> bool,                       // Directory.Exists
    isFile: string -> bool,                            // File.Exists
    filesUnder: string -> seq<string>,                 // Directory.GetFiles(dir, "*", AllDirectories)
    parse: string -> Option<map<string, Json>>,        // ParseGameJSONFile; None when it throws
    loadDll: (string, string, Option<string>) -> bool) // BTModLoader.LoadDLL returns normally

  /** Why a mod contributes no entries. */
  datatype Skip =
    | PrefabBeforeBundle      // a Prefab names an AssetBundle not added before it
    | MissingPathAndType      // an entry with neither path nor type
    | MissingDll              // the declared DLL file does not exist
    | Threw(message: string)  // an exception left LoadMod; LoadMods catches it
    | NothingToAdd            // nothing survived; entriesByMod is not touched

  datatype LoadOutcome = Recorded(entries: seq<ManifestEntry>) | Skipped(why: Skip)

  // ---- Ids of files ----

  /** InferIDFromFile: a JSON file that exists gives the id stored in it, if
      any; everything else is named after the file without its extension.
      Parsing failures propagate. */
  function InferIdFromFile(disk: Disk, path: string): (r: Result<string, string>)
    ensures r.Failure? <==>
      IsJson(path) && disk.isFile(path)
      && (disk.parse(path).None? || InferIdFromJObject(disk.parse(path)).Failure?)
    ensures r.Success? && r.value != GetFileNameWithoutExtension(path) ==>
      IsJson(path) && InferIdFromJObject(disk.parse(path)) == Success(Some(r.value))
    ensures IsJson(path) && disk.isFile(path) && disk.parse(path).Some?
            && InferIdFromJObject(disk.parse(path)).Success?
            && InferIdFromJObject(disk.parse(path)).value.Some? ==>
      r == Success(InferIdFromJObject(disk.parse(path)).value.value)
    ensures !IsJson(path) || !disk.isFile(path)
            || (disk.parse(path).Some? && InferIdFromJObject(disk.parse(path)) == Success(None)) ==>
      r == Success(GetFileNameWithoutExtension(path))
  {
    if !IsJson(path) || !disk.isFile(path) then
      Success(GetFileNameWithoutExtension(path))
    else
      match disk.parse(path)
      case None => Failure("the JSON file could not be parsed")
      case Some(obj) =>
        match InferIdFromJObject(Some(obj))
        case Failure(e) => Failure(e)
        case Success(None) => Success(GetFileNameWithoutExtension(path))
        case Success(Some(id)) => Success(id)
  }

  // ---- The implicit StreamingAssets entry ----

  const StreamingAssets: string := "StreamingAssets"

  /** new ModDef.ManifestEntry("StreamingAssets", true): no type, merged. */
  const ImplicitEntry: ManifestEntry := ManifestEntry(StreamingAssets, None, None, true, "", true, "")

  /** Some entry of the manifest already resolves to the mod's StreamingAssets folder. */
  predicate CoversStreamingAssets(disk: Disk, dir: string, manifest: seq<ManifestEntry>)
  {
    exists i :: 0 <= i < |manifest| &&
      disk.fullPath(disk.combine(dir, manifest[i].path)) == disk.fullPath(disk.combine(dir, StreamingAssets))
  }

  /** The manifest LoadMod walks: the implicit entry is appended when the mod
      asks for it and no entry already points there. */
  function WithImplicitManifest(disk: Disk, def: ModDef): (m: seq<ManifestEntry>)
    ensures def.loadImplicitManifest ==> CoversStreamingAssets(disk, def.directory, m)
    ensures m == def.manifest || m == def.manifest + [ImplicitEntry]
    ensures m == def.manifest + [ImplicitEntry] <==>
      def.loadImplicitManifest && !CoversStreamingAssets(disk, def.directory, def.manifest)
  {
    if def.loadImplicitManifest && !CoversStreamingAssets(disk, def.directory, def.manifest) then
      var m := def.manifest + [ImplicitEntry];
      assert m[|m| - 1] == ImplicitEntry;
      m
    else def.manifest
  }

  /** Adding the implicit entry twice adds it once. */
  lemma ImplicitManifestIdempotent(disk: Disk, def: ModDef)
    ensures WithImplicitManifest(disk, def.(manifest := WithImplicitManifest(disk, def)))
         == WithImplicitManifest(disk, def)
  {
  }

  // ---- Expanding entries ----

  /** The files of a directory that pass the deny list, in listing order. */
  function Kept(files: seq<string>): (r: seq<string>)
    ensures forall f :: f in r <==> f in files && !FileIsOnDenyList(f)
    ensures forall f :: multiset(r)[f] == if FileIsOnDenyList(f) then 0 else multiset(files)[f]
    ensures |r| <= |files|
  {
    if files == [] then []
    else
      assert files == [files[0]] + files[1..];
      if FileIsOnDenyList(files[0]) then Kept(files[1..])
      else [files[0]] + Kept(files[1..])
  }

  /** A file in front is kept exactly when it is not denied. */
  lemma KeptCons(f: string, rest: seq<string>)
    ensures Kept([f] + rest) == (if FileIsOnDenyList(f) then [] else [f]) + Kept(rest)
  {
    var fs := [f] + rest;
    assert fs[0] == f && fs[1..] == rest;
  }

  /** Keeping distributes over concatenation; with KeptCons this pins `Kept`
      down as the order-preserving filter of the files not denied. */
  lemma {:induction false} KeptAppend(a: seq<string>, b: seq<string>)
    ensures Kept(a + b) == Kept(a) + Kept(b)
  {
    if a == [] {
      assert a + b == b;
    } else {
      var x, a1 := a[0], a[1..];
      var head := if FileIsOnDenyList(x) then [] else [x];
      assert a == [x] + a1;
      ConcatAssoc([x], a1, b);
      KeptCons(x, a1 + b);
      KeptCons(x, a1);
      KeptAppend(a1, b);
      ConcatAssoc(head, Kept(a1), Kept(b));
    }
  }

  /** One child entry per kept file, a copy of the directory entry with the
      file's full path and inferred id. The first failing inference aborts. */
  function ExpandDirectory(disk: Disk, entry: ManifestEntry, files: seq<string>): Result<seq<ManifestEntry>, string>
  {
    if files == [] then Success([])
    else
      var rest := ExpandDirectory(disk, entry, files[1..]);
      if FileIsOnDenyList(files[0]) then rest
      else
        match InferIdFromFile(disk, files[0])
        case Failure(m) => Failure(m)
        case Success(id) =>
          if rest.Failure? then rest
          else Success([entry.(path := disk.fullPath(files[0]), id := Some(id))] + rest.value)
  }

  /** Expanding a directory fails exactly when inferring some kept file's id fails. */
  lemma {:induction false} ExpandDirectoryFails(disk: Disk, entry: ManifestEntry, files: seq<string>)
    ensures ExpandDirectory(disk, entry, files).Failure? <==>
      exists f :: f in Kept(files) && InferIdFromFile(disk, f).Failure?
  {
    if files != [] {
      ExpandDirectoryFails(disk, entry, files[1..]);
      if !FileIsOnDenyList(files[0]) {
        assert Kept(files) == [files[0]] + Kept(files[1..]);
      }
    }
  }

  /** A directory expands to one entry per kept file, in order, each a copy of
      the directory entry with that file's full path and an id. */
  lemma {:induction false} ExpandDirectoryChildren(disk: Disk, entry: ManifestEntry, files: seq<string>)
    ensures var r := ExpandDirectory(disk, entry, files);
      r.Success? ==>
        && |r.value| == |Kept(files)|
        && forall i :: 0 <= i < |r.value| ==> IsChild(disk, entry, Kept(files)[i], r.value[i])
  {
    if files != [] {
      ExpandDirectoryChildren(disk, entry, files[1..]);
      var r := ExpandDirectory(disk, entry, files);
      var rest := ExpandDirectory(disk, entry, files[1..]);
      if !FileIsOnDenyList(files[0]) && r.Success? {
        var k, kr := Kept(files), Kept(files[1..]);
        var id := InferIdFromFile(disk, files[0]);
        assert id.Success? && rest.Success?;
        var c := entry.(path := disk.fullPath(files[0]), id := Some(id.value));
        assert r.value == [c] + rest.value;
        assert k == [files[0]] + kr;
        ChildrenCons(disk, entry, files[0], c, kr, rest.value);
      } else if r.Success? {
        assert r == rest && Kept(files) == Kept(files[1..]);
      }
    }
  }

  lemma ChildrenCons(disk: Disk, entry: ManifestEntry, f: string, c: ManifestEntry, fs: seq<string>, cs: seq<ManifestEntry>)
    requires IsChild(disk, entry, f, c) && |fs| == |cs|
    requires forall i :: 0 <= i < |cs| ==> IsChild(disk, entry, fs[i], cs[i])
    ensures forall i :: 0 <= i < |cs| + 1 ==> IsChild(disk, entry, ([f] + fs)[i], ([c] + cs)[i])
  {
  }

  /** `c` is the directory entry copied for file `f`: its full path and the
      id inferred from the file. */
  predicate IsChild(disk: Disk, entry: ManifestEntry, f: string, c: ManifestEntry)
  {
    InferIdFromFile(disk, f).Success? &&
    c == entry.(path := disk.fullPath(f), id := Some(InferIdFromFile(disk, f).value))
  }

  /** Some entry already collected is an AssetBundle with this id. */
  predicate HasBundle(acc: seq<ManifestEntry>, name: string)
  {
    exists j :: 0 <= j < |acc| && acc[j].typ == Some("AssetBundle") && acc[j].id == Some(name)
  }

  predicate NeedsBundle(e: ManifestEntry)
  {
    e.typ == Some("Prefab") && e.assetBundleName != ""
  }

  /** Every Prefab that names an AssetBundle comes after that bundle. */
  predicate BundlesFirst(es: seq<ManifestEntry>)
  {
    forall i :: 0 <= i < |es| && NeedsBundle(es[i]) ==> HasBundle(es[..i], es[i].assetBundleName)
  }

  predicate AllHaveIds(es: seq<ManifestEntry>)
  {
    forall i :: 0 <= i < |es| ==> es[i].id.Some?
  }

  datatype Step = Continue(acc: seq<ManifestEntry>) | Abort(why: Skip)

  /** An entry with neither a path nor a type. */
  predicate Malformed(e: ManifestEntry)
  {
    e.path == "" && (e.typ == None || e.typ == Some(""))
  }

  /** The body of LoadMod's manifest loop for one entry. */
  function ExpandEntry(disk: Disk, dir: string, acc: seq<ManifestEntry>, e: ManifestEntry): (s: Step)
    ensures s.Continue? ==> acc <= s.acc
    ensures s == Abort(PrefabBeforeBundle) <==> NeedsBundle(e) && !HasBundle(acc, e.assetBundleName)
    ensures s == Abort(MissingPathAndType) <==> !NeedsBundle(e) && Malformed(e)
  {
    if NeedsBundle(e) then
      if !HasBundle(acc, e.assetBundleName) then Abort(PrefabBeforeBundle)
      else if FileIsOnDenyList(e.path) then Continue(acc)
      else Continue(acc + [e.(id := Some(GetFileNameWithoutExtension(e.path)))])
    else if Malformed(e) then Abort(MissingPathAndType)
    else
      var entryPath := disk.fullPath(disk.combine(dir, e.path));
      if disk.isDirectory(entryPath) then
        match ExpandDirectory(disk, e, disk.filesUnder(entryPath))
        case Failure(m) => Abort(Threw(m))
        case Success(children) => Continue(acc + children)
      else if disk.isFile(entryPath) && !FileIsOnDenyList(entryPath) then
        if e.id.Some? then Continue(acc + [e.(path := entryPath)])
        else
          match InferIdFromFile(disk, entryPath)
          case Failure(m) => Abort(Threw(m))
          case Success(id) => Continue(acc + [e.(id := Some(id), path := entryPath)])
      else Continue(acc)
  }

  /** What one entry adds: a prefab after its bundle adds itself named after
      its file unless denied; a directory adds one child per kept file, each
      with the file's full path and inferred id, and aborts when an inference
      fails; an existing file that is not denied adds itself with its full
      path and its own id, or else the inferred one; anything else adds
      nothing. */
  lemma ExpandEntryAdds(disk: Disk, dir: string, acc: seq<ManifestEntry>, e: ManifestEntry)
    ensures var s := ExpandEntry(disk, dir, acc, e);
      NeedsBundle(e) && HasBundle(acc, e.assetBundleName) ==>
        s == Continue(acc + (if FileIsOnDenyList(e.path) then []
                             else [e.(id := Some(GetFileNameWithoutExtension(e.path)))]))
    ensures var s := ExpandEntry(disk, dir, acc, e);
      var p := disk.fullPath(disk.combine(dir, e.path));
      var kept := Kept(disk.filesUnder(p));
      !NeedsBundle(e) && !Malformed(e) && disk.isDirectory(p) ==>
        && (s.Abort? <==> exists f :: f in kept && InferIdFromFile(disk, f).Failure?)
        && (s.Continue? ==>
              && |s.acc| == |acc| + |kept| && s.acc[..|acc|] == acc
              && forall i :: 0 <= i < |kept| ==> IsChild(disk, e, kept[i], s.acc[|acc| + i]))
    ensures var s := ExpandEntry(disk, dir, acc, e);
      var p := disk.fullPath(disk.combine(dir, e.path));
      var id := if e.id.Some? then Success(e.id.value) else InferIdFromFile(disk, p);
      !NeedsBundle(e) && !Malformed(e) && !disk.isDirectory(p) && disk.isFile(p) && !FileIsOnDenyList(p) ==>
        && (id.Failure? ==> s.Abort?)
        && (id.Success? ==> s == Continue(acc + [e.(id := Some(id.value), path := p)]))
    ensures var s := ExpandEntry(disk, dir, acc, e);
      var p := disk.fullPath(disk.combine(dir, e.path));
      !NeedsBundle(e) && !Malformed(e) && !disk.isDirectory(p) && !(disk.isFile(p) && !FileIsOnDenyList(p)) ==>
        s == Continue(acc)
  {
    var p := disk.fullPath(disk.combine(dir, e.path));
    if !NeedsBundle(e) && !Malformed(e) && disk.isDirectory(p) {
      var files := disk.filesUnder(p);
      ExpandDirectoryFails(disk, e, files);
      ExpandDirectoryChildren(disk, e, files);
      var s := ExpandEntry(disk, dir, acc, e);
      if s.Continue? {
        var children := ExpandDirectory(disk, e, files).value;
        assert s.acc == acc + children;
        assert s.acc[..|acc|] == acc;
        forall i | 0 <= i < |Kept(files)|
          ensures IsChild(disk, e, Kept(files)[i], s.acc[|acc| + i])
        {
          assert s.acc[|acc| + i] == children[i];
        }
      }
    }
  }

  /** The whole manifest loop, in declaration order. */
  function ExpandEntries(disk: Disk, dir: string, acc: seq<ManifestEntry>, manifest: seq<ManifestEntry>): Step
    decreases |manifest|
  {
    if manifest == [] then Continue(acc)
    else
      match ExpandEntry(disk, dir, acc, manifest[0])
      case Abort(why) => Abort(why)
      case Continue(acc') => ExpandEntries(disk, dir, acc', manifest[1..])
  }

  lemma BundlesFirstAppend(acc: seq<ManifestEntry>, more: seq<ManifestEntry>)
    requires BundlesFirst(acc)
    requires forall i :: 0 <= i < |more| && NeedsBundle(more[i]) ==> HasBundle(acc, more[i].assetBundleName)
    ensures BundlesFirst(acc + more)
  {
    var es := acc + more;
    forall i | 0 <= i < |es| && NeedsBundle(es[i])
      ensures HasBundle(es[..i], es[i].assetBundleName)
    {
      if i < |acc| {
        assert es[..i] == acc[..i];
      } else {
        var j :| 0 <= j < |acc| && acc[j].typ == Some("AssetBundle") && acc[j].id == Some(more[i - |acc|].assetBundleName);
        assert es[..i][j] == acc[j];
      }
    }
  }

  lemma AppendKeeps(acc: seq<ManifestEntry>, more: seq<ManifestEntry>)
    requires BundlesFirst(acc) && AllHaveIds(acc) && AllHaveIds(more)
    requires forall i :: 0 <= i < |more| && NeedsBundle(more[i]) ==> HasBundle(acc, more[i].assetBundleName)
    ensures BundlesFirst(acc + more) && AllHaveIds(acc + more)
  {
    BundlesFirstAppend(acc, more);
    var es := acc + more;
    forall i | 0 <= i < |es|
      ensures es[i].id.Some?
    {
      if i >= |acc| {
        assert es[i] == more[i - |acc|];
      }
    }
  }

  /** One step keeps the collected entries ordered bundles-first and gives
      every added entry an id. */
  lemma ExpandEntryKeeps(disk: Disk, dir: string, acc: seq<ManifestEntry>, e: ManifestEntry)
    requires BundlesFirst(acc) && AllHaveIds(acc)
    ensures var s := ExpandEntry(disk, dir, acc, e);
      s.Continue? ==> BundlesFirst(s.acc) && AllHaveIds(s.acc)
  {
    if NeedsBundle(e) {
      if HasBundle(acc, e.assetBundleName) && !FileIsOnDenyList(e.path) {
        AppendKeeps(acc, [e.(id := Some(GetFileNameWithoutExtension(e.path)))]);
      }
    } else if !Malformed(e) {
      var entryPath := disk.fullPath(disk.combine(dir, e.path));
      if disk.isDirectory(entryPath) {
        var files := disk.filesUnder(entryPath);
        var r := ExpandDirectory(disk, e, files);
        if r.Success? {
          ExpandDirectoryChildren(disk, e, files);
          assert forall i :: 0 <= i < |r.value| ==> IsChild(disk, e, Kept(files)[i], r.value[i]);
          AppendKeeps(acc, r.value);
        }
      } else if disk.isFile(entryPath) && !FileIsOnDenyList(entryPath) {
        if e.id.Some? {
          AppendKeeps(acc, [e.(path := entryPath)]);
        } else if InferIdFromFile(disk, entryPath).Success? {
          AppendKeeps(acc, [e.(id := Some(InferIdFromFile(disk, entryPath).value), path := entryPath)]);
        }
      }
    }
  }

  lemma {:induction false} ExpandEntriesKeeps(disk: Disk, dir: string, acc: seq<ManifestEntry>, manifest: seq<ManifestEntry>)
    requires BundlesFirst(acc) && AllHaveIds(acc)
    ensures var s := ExpandEntries(disk, dir, acc, manifest);
      s.Continue? ==> BundlesFirst(s.acc) && AllHaveIds(s.acc)
    decreases |manifest|
  {
    if manifest != [] {
      ExpandEntryKeeps(disk, dir, acc, manifest[0]);
      var s := ExpandEntry(disk, dir, acc, manifest[0]);
      if s.Continue? {
        ExpandEntriesKeeps(disk, dir, s.acc, manifest[1..]);
      }
    }
  }

  // ---- The DLL entry point ----

  /** "Namespace.Type.Method" splits at its last '.' into the type name and
      the method name; without a '.' the whole string names the method. */
  function SplitEntryPoint(ep: string): (Option<string>, string)
  {
    var pos := LastIndexOf(ep, '.');
    if pos == -1 then (None, ep) else (Some(ep[..pos]), ep[pos + 1..])
  }

  /** Splitting loses nothing, and the method name holds no '.'. */
  lemma SplitEntryPointRoundTrip(ep: string)
    ensures var (t, m) := SplitEntryPoint(ep);
      && '.' !in m
      && (t.None? ==> m == ep)
      && (t.Some? ==> t.value + "." + m == ep)
  {
    var pos := LastIndexOf(ep, '.');
    if pos != -1 {
      assert ep == ep[..pos] + "." + ep[pos + 1..];
    }
  }

  /** Joining a type name and a dot-free method name, then splitting, gives
      both back. */
  lemma JoinThenSplit(t: string, m: string)
    requires '.' !in m
    ensures SplitEntryPoint(t + "." + m) == (Some(t), m)
  {
    var ep := t + "." + m;
    var tail := "." + m;
    assert ep == t + tail;
    forall j | |t| < j < |ep|
      ensures ep[j] != '.'
    {
      assert ep[j] == m[j - |t| - 1];
    }
    assert ep[|t|] == '.';
    assert ep[..|t|] == t;
    assert ep[|t| + 1..] == m;
  }

  /** The (type, method) pair handed to the DLL loader: "Init" when the mod
      names no entry point. */
  function EntryPoint(dllEntryPoint: Option<string>): (Option<string>, string)
  {
    if dllEntryPoint.None? then (None, "Init") else SplitEntryPoint(dllEntryPoint.value)
  }

  // ---- LoadMod and LoadMods ----

  /** The mod declares no DLL, or its DLL file exists and loads without throwing. */
  predicate DllLoads(disk: Disk, def: ModDef)
  {
    def.dll.None? ||
    (disk.isFile(disk.combine(def.directory, def.dll.value)) &&
     disk.loadDll(disk.combine(def.directory, def.dll.value), EntryPoint(def.dllEntryPoint).1, EntryPoint(def.dllEntryPoint).0))
  }

  /** LoadMod: the entries a mod contributes, or why it contributes none. */
  function LoadMod(disk: Disk, def: ModDef): (r: LoadOutcome)
    ensures r.Recorded? ==> |r.entries| > 0 && BundlesFirst(r.entries) && AllHaveIds(r.entries)
    ensures var walk := ExpandEntries(disk, def.directory, [], WithImplicitManifest(disk, def));
      && (walk.Abort? ==> r == Skipped(walk.why))
      && (walk.Continue? && |walk.acc| > 0 && DllLoads(disk, def) ==> r == Recorded(walk.acc))
      && (r.Recorded? ==> walk == Continue(r.entries) && DllLoads(disk, def))
  {
    var manifest := WithImplicitManifest(disk, def);
    ExpandEntriesKeeps(disk, def.directory, [], manifest);
    match ExpandEntries(disk, def.directory, [], manifest)
    case Abort(why) => Skipped(why)
    case Continue(additions) =>
      if def.dll.Some? && !disk.isFile(disk.combine(def.directory, def.dll.value)) then Skipped(MissingDll)
      else if def.dll.Some? &&
        !disk.loadDll(disk.combine(def.directory, def.dll.value), EntryPoint(def.dllEntryPoint).1, EntryPoint(def.dllEntryPoint).0)
      then Skipped(Threw("the DLL failed to load"))
      else if |additions| == 0 then Skipped(NothingToAdd)
      else Recorded(additions)
  }

  /** Running the manifest loop over `pre + post` runs it over `pre`, then
      over `post` from where `pre` left off; an abort in `pre` ends it. */
  lemma {:induction false} ExpandEntriesAppend(disk: Disk, dir: string, acc: seq<ManifestEntry>,
                                               pre: seq<ManifestEntry>, post: seq<ManifestEntry>)
    ensures ExpandEntries(disk, dir, acc, pre + post) ==
      match ExpandEntries(disk, dir, acc, pre)
      case Abort(why) => Abort(why)
      case Continue(a) => ExpandEntries(disk, dir, a, post)
    decreases |pre|
  {
    if pre == [] {
      assert pre + post == post;
    } else {
      var whole := pre + post;
      assert whole[0] == pre[0];
      assert whole[1..] == pre[1..] + post;
      match ExpandEntry(disk, dir, acc, pre[0])
      case Abort(_) =>
      case Continue(a) => ExpandEntriesAppend(disk, dir, a, pre[1..], post);
    }
  }

  /** The manifest loop stops at a Prefab whose AssetBundle the entries
      collected before it lack. */
  lemma PrefabAbortsLoop(disk: Disk, dir: string, pre: seq<ManifestEntry>, e: ManifestEntry,
                         rest: seq<ManifestEntry>, acc: seq<ManifestEntry>)
    requires NeedsBundle(e) && ExpandEntries(disk, dir, [], pre) == Continue(acc)
    requires !HasBundle(acc, e.assetBundleName)
    ensures ExpandEntries(disk, dir, [], pre + ([e] + rest)) == Abort(PrefabBeforeBundle)
  {
    ExpandEntriesAppend(disk, dir, [], pre, [e] + rest);
    var tail := [e] + rest;
    assert tail[0] == e;
  }

  /** An entry of the declared manifest keeps its place in the walked one. */
  lemma ImplicitTail(disk: Disk, def: ModDef, pre: seq<ManifestEntry>, e: ManifestEntry, post: seq<ManifestEntry>)
    returns (rest: seq<ManifestEntry>)
    requires def.manifest == pre + [e] + post
    ensures WithImplicitManifest(disk, def) == pre + ([e] + rest)
  {
    if WithImplicitManifest(disk, def) == def.manifest {
      rest := post;
    } else {
      rest := post + [ImplicitEntry];
    }
  }

  /** A Prefab whose AssetBundle is not among the entries collected before it
      stops the whole mod, wherever it stands in the manifest. */
  lemma PrefabFirstAbortsMod(disk: Disk, def: ModDef, pre: seq<ManifestEntry>, e: ManifestEntry,
                             post: seq<ManifestEntry>, acc: seq<ManifestEntry>)
    requires def.manifest == pre + [e] + post && NeedsBundle(e)
    requires ExpandEntries(disk, def.directory, [], pre) == Continue(acc)
    requires !HasBundle(acc, e.assetBundleName)
    ensures LoadMod(disk, def) == Skipped(PrefabBeforeBundle)
  {
    var rest := ImplicitTail(disk, def, pre, e, post);
    PrefabAbortsLoop(disk, def.directory, pre, e, rest, acc);
  }

  /** entriesByMod after the LoadMods loop over the load order: each loaded
      mod that recorded entries, with exactly the entries LoadMod produced. */
  function LoadMods(disk: Disk, defs: map<Name, ModDef>, order: seq<Name>): (r: map<Name, seq<ManifestEntry>>)
    requires forall i :: 0 <= i < |order| ==> order[i] in defs
    ensures forall n :: n in r <==> n in order && LoadMod(disk, defs[n]).Recorded?
    ensures forall n :: n in r ==> r[n] == LoadMod(disk, defs[n]).entries && |r[n]| > 0
    decreases |order|
  {
    if order == [] then map[]
    else
      var last := order[|order| - 1];
      var earlier := LoadMods(disk, defs, order[..|order| - 1]);
      assert forall n :: n in order <==> n in order[..|order| - 1] || n == last;
      match LoadMod(disk, defs[last])
      case Recorded(es) => earlier[last := es]
      case Skipped(_) => earlier
  }
}

=== FILE: json_ids.dfy ===
/** Inferring a resource id from a parsed JSON object (InferIDFromJObject,
    ModTek/ModTek.cs:245-260). The JSON tree is a small datatype; a property
    path such as "Description.Id" is a sequence of property names. */
module JsonIds {
  import opened Common

  /** A JSON token. Numbers keep the text they are rendered with. */
  datatype Json =
    | JNull
    | JString(s: string)
    | JNumber(text: string)
    | JBool(b: bool)
    | JObject(props: map<string, Json>)
    | JArray(items: seq<Json>)

  /** The property paths tried, in priority order. */
  const IdPaths: seq<seq<string>> :=
    [["Description", "Id"], ["id"], ["Id"], ["ID"], ["identifier"], ["Identifier"]]

  /** JToken.SelectToken without errorWhenNoMatch: follow the property names
      through nested objects; a missing property, or a step into a
      non-object, selects nothing. */
  function SelectToken(t: Json, path: seq<string>): Option<Json>
    decreases |path|
  {
    if path == [] then Some(t)
    else if t.JObject? && path[0] in t.props then SelectToken(t.props[path[0]], path[1..])
    else None
  }

  /** The explicit (string) conversion of a token: null stays null, a
      primitive becomes its text, an object or array throws. */
  function AsString(t: Json): Result<Option<string>, string>
  {
    match t
    case JNull => Success(None)
    case JString(s) => Success(Some(s))
    case JNumber(text) => Success(Some(text))
    case JBool(b) => Success(Some(if b then "True" else "False"))
    case JObject(_) => Failure("Can not convert Object to String.")
    case JArray(_) => Failure("Can not convert Array to String.")
  }

  /** What the k-th path contributes: the converted token, or null when
      nothing is selected. */
  function Candidate(obj: map<string, Json>, k: int): Result<Option<string>, string>
    requires 0 <= k < |IdPaths|
  {
    match SelectToken(JObject(obj), IdPaths[k])
    case None => Success(None)
    case Some(t) => AsString(t)
  }

  /** The loop over the paths from index k: the first candidate that is not
      null is the answer (or the exception its conversion raised). */
  function InferFrom(obj: map<string, Json>, k: int): Result<Option<string>, string>
    requires 0 <= k <= |IdPaths|
    decreases |IdPaths| - k
  {
    if k == |IdPaths| then Success(None)
    else if Candidate(obj, k) == Success(None) then InferFrom(obj, k + 1)
    else Candidate(obj, k)
  }

  /** InferIDFromJObject: a null object has no id; otherwise the id is the
      first id path, in the fixed order, whose token is not null, and none
      when every path selects null. */
  function InferIdFromJObject(obj: Option<map<string, Json>>): (r: Result<Option<string>, string>)
    ensures obj.None? ==> r == Success(None)
    ensures obj.Some? ==>
      (r == Success(None) <==> forall j :: 0 <= j < |IdPaths| ==> Candidate(obj.value, j) == Success(None))
    ensures obj.Some? && r != Success(None) ==>
      exists j :: 0 <= j < |IdPaths| && r == Candidate(obj.value, j) &&
                  forall i :: 0 <= i < j ==> Candidate(obj.value, i) == Success(None)
  {
    if obj.None? then Success(None)
    else
      InferFromIsFirstNonNull(obj.value, 0);
      InferFrom(obj.value, 0)
  }

  /** Paths k.. all yield null exactly when the scan from k finds nothing;
      otherwise the scan returns the first candidate that is not null. */
  lemma {:induction false} InferFromIsFirstNonNull(obj: map<string, Json>, k: int)
    requires 0 <= k <= |IdPaths|
    ensures InferFrom(obj, k) == Success(None) <==>
      forall j :: k <= j < |IdPaths| ==> Candidate(obj, j) == Success(None)
    ensures InferFrom(obj, k) != Success(None) ==>
      exists j :: k <= j < |IdPaths| && InferFrom(obj, k) == Candidate(obj, j) &&
                  forall i :: k <= i < j ==> Candidate(obj, i) == Success(None)
    decreases |IdPaths| - k
  {
    if k < |IdPaths| {
      InferFromIsFirstNonNull(obj, k + 1);
      if Candidate(obj, k) == Success(None) && InferFrom(obj, k + 1) != Success(None) {
        var j :| k + 1 <= j < |IdPaths| && InferFrom(obj, k + 1) == Candidate(obj, j)
          && forall i :: k + 1 <= i < j ==> Candidate(obj, i) == Success(None);
        assert forall i :: k <= i < j ==> Candidate(obj, i) == Success(None);
      }
    }
  }

  /** The id found is the first non-null token in priority order: its path
      comes before every other path that selects a non-null token. */
  lemma InferredIdIsFirst(obj: map<string, Json>, id: string)
    requires InferIdFromJObject(Some(obj)) == Success(Some(id))
    ensures exists j :: 0 <= j < |IdPaths| && Candidate(obj, j) == Success(Some(id)) &&
                        forall i :: 0 <= i < j ==> Candidate(obj, i) == Success(None)
  {
    InferFromIsFirstNonNull(obj, 0);
  }

  /** "Description.Id" wins over a top-level "id". */
  lemma DescriptionIdWins(desc: map<string, Json>, rest: map<string, Json>, id: string)
    requires "Id" in desc && desc["Id"] == JString(id)
    ensures InferIdFromJObject(Some(rest["Description" := JObject(desc)])) == Success(Some(id))
  {
    var obj := rest["Description" := JObject(desc)];
    assert SelectToken(JObject(obj), IdPaths[0]) == Some(JString(id));
  }

  /** An object with none of the properties has no id. */
  lemma NoIdProperties(obj: map<string, Json>)
    requires "Description" !in obj
    requires forall j :: 1 <= j < |IdPaths| ==> IdPaths[j][0] !in obj
    ensures InferIdFromJObject(Some(obj)) == Success(None)
  {
    InferFromIsFirstNonNull(obj, 0);
    forall j | 0 <= j < |IdPaths|
      ensures Candidate(obj, j) == Success(None)
    {
      assert SelectToken(JObject(obj), IdPaths[j]) == None;
    }
  }
}

=== FILE: load_order.dfy ===
/** The load-order resolver (ModTek/ModTek.cs:434-544): constraint
    normalisation, the dependency check, seeding from the persisted order and
    the fixed-point pass over the rest. The functions here are the reference
    definitions; LoadOrderImpl holds the loop-based versions that follow the
    source statement by statement. */
module LoadOrder {
  import opened Common
  import opened Descriptors

  /** The resolver's result: the load order and the names left unloaded
      (`unloaded`, an out parameter of GetLoadOrder). */
  datatype Resolution = Resolution(order: seq<Name>, unloaded: seq<Name>)

  // ---------------------------------------------------------------------------
  // Name ordering used by OrderByDescending (ordinal, character by character)

  /** `a` sorts strictly before `b`. */
  predicate Below(a: Name, b: Name)
  {
    if |a| == 0 then |b| > 0
    else if |b| == 0 then false
    else if a[0] != b[0] then a[0] < b[0]
    else Below(a[1..], b[1..])
  }

  lemma BelowIrreflexive(a: Name)
    ensures !Below(a, a)
  {
  }

  lemma BelowAsymmetric(a: Name, b: Name)
    ensures !(Below(a, b) && Below(b, a))
  {
  }

  lemma BelowTransitive(a: Name, b: Name, c: Name)
    requires Below(a, b) && Below(b, c)
    ensures Below(a, c)
  {
  }

  lemma BelowTotal(a: Name, b: Name)
    ensures a == b || Below(a, b) || Below(b, a)
  {
  }

  lemma {:induction false} MaxExists(s: set<Name>)
    requires s != {}
    ensures exists m :: m in s && forall y :: y in s && y != m ==> Below(y, m)
    decreases |s|
  {
    var x :| x in s;
    if s == {x} {
      assert forall y :: y in s && y != x ==> Below(y, x);
    } else {
      MaxExists(s - {x});
      var m :| m in s - {x} && forall y :: y in s - {x} && y != m ==> Below(y, m);
      BelowTotal(x, m);
      if Below(x, m) {
        assert forall y :: y in s && y != m ==> Below(y, m);
      } else {
        forall y | y in s && y != x
          ensures Below(y, x)
        {
          if y != m {
            BelowTransitive(y, m, x);
          }
        }
      }
    }
  }

  /** The greatest name of a non-empty set. */
  function SetMax(s: set<Name>): (m: Name)
    requires s != {}
    ensures m in s && forall y :: y in s && y != m ==> Below(y, m)
  {
    MaxExists(s);
    assert forall a, b :: !(Below(a, b) && Below(b, a)) by {
      forall a, b
        ensures !(Below(a, b) && Below(b, a))
      {
        BelowAsymmetric(a, b);
      }
    }
    var m :| m in s && forall y :: y in s && y != m ==> Below(y, m); m
  }

  predicate StrictlyDescending(q: seq<Name>)
  {
    forall i, j :: 0 <= i < j < |q| ==> Below(q[j], q[i])
  }

  lemma DescendingNoDup(q: seq<Name>)
    requires StrictlyDescending(q)
    ensures NoDup(q)
  {
    forall i, j | 0 <= i < j < |q|
      ensures q[i] != q[j]
    {
      BelowIrreflexive(q[i]);
    }
  }

  /** Putting a name above all others in front keeps a sequence descending. */
  lemma PrependGreatest(m: Name, rest: seq<Name>)
    requires StrictlyDescending(rest)
    requires forall y :: y in rest ==> Below(y, m)
    ensures StrictlyDescending([m] + rest)
  {
    var q := [m] + rest;
    forall i, j | 0 <= i < j < |q|
      ensures Below(q[j], q[i])
    {
      if i == 0 {
        assert q[j] == rest[j - 1];
      } else {
        assert q[i] == rest[i - 1] && q[j] == rest[j - 1];
      }
    }
  }

  /** `OrderByDescending(x => x)` over the keys left in the copy (ModTek.cs:518). */
  function OrderByDescending(s: set<Name>): (q: seq<Name>)
    ensures Elems(q) == s && |q| == |s|
    ensures StrictlyDescending(q)
    decreases |s|
  {
    if s == {} then []
    else
      var m := SetMax(s);
      var rest := OrderByDescending(s - {m});
      var q := [m] + rest;
      assert Elems(q) == {m} + Elems(rest) by {
        assert forall y :: y in q <==> y == m || y in rest;
      }
      forall y | y in rest
        ensures Below(y, m)
      {
        assert y in Elems(rest);
      }
      PrependGreatest(m, rest);
      q
  }

  /** A strictly descending sequence is the sorted form of its own elements. */
  lemma {:induction false} DescendingIsCanonical(q: seq<Name>)
    requires StrictlyDescending(q)
    ensures OrderByDescending(Elems(q)) == q
  {
    if q != [] {
      var s := Elems(q);
      assert q[0] in s;
      var m := SetMax(s);
      if m != q[0] {
        var k :| 0 <= k < |q| && q[k] == m;
        assert Below(q[0], m);
        assert Below(m, q[0]);
        BelowAsymmetric(m, q[0]);
      }
      DescendingNoDup(q);
      assert s - {m} == Elems(q[1..]) by {
        assert q == [q[0]] + q[1..];
        assert q[0] !in q[1..];
      }
      DescendingIsCanonical(q[1..]);
    } else {
      assert Elems(q) == {};
    }
  }

  // ---------------------------------------------------------------------------
  // Constraint normalisation (ModTek.cs:434-464)

  /** The present mods that declare a conflict with `a`. */
  function DeclaredAgainst(defs: map<Name, ModDef>, a: Name): set<Name>
  {
    set y | y in defs && a in defs[y].conflictsWith
  }

  /** The closed form of PropagateConflictsForward: every present mod also
      conflicts with each mod that declared a conflict against it. */
  function PropagatedConflicts(defs: map<Name, ModDef>): (r: map<Name, ModDef>)
    ensures r.Keys == defs.Keys
    ensures forall a :: a in r ==> r[a] == defs[a].(conflictsWith := r[a].conflictsWith)
    ensures forall a :: a in r ==> defs[a].conflictsWith <= r[a].conflictsWith
    ensures forall a, b :: a in r && b in r ==>
      (b in r[a].conflictsWith <==> a in r[b].conflictsWith)
    ensures forall a, b :: a in r && b in r[a].conflictsWith ==>
      b in defs[a].conflictsWith || (b in defs && a in defs[b].conflictsWith)
  {
    map a | a in defs :: defs[a].(conflictsWith := defs[a].conflictsWith + DeclaredAgainst(defs, a))
  }

  /** FillInOptionalDependencies: an optional dependency becomes a hard one
      exactly when a mod of that name is present. */
  function FillInOptionalDependencies(defs: map<Name, ModDef>): (r: map<Name, ModDef>)
    ensures r.Keys == defs.Keys
    ensures forall a :: a in r ==> r[a] == defs[a].(dependsOn := r[a].dependsOn)
    ensures forall a, n :: a in r ==>
      (n in r[a].dependsOn <==> n in defs[a].dependsOn || (n in defs[a].optionallyDependsOn && n in defs))
  {
    map a | a in defs :: defs[a].(dependsOn := defs[a].dependsOn + (defs[a].optionallyDependsOn * defs.Keys))
  }

  /** Both normalisation steps, in the order GetLoadOrder applies them. The
      dictionary copy at ModTek.cs:499 is shallow, so the descriptors looked up
      through the original dictionary at :510 and :532 are the normalised ones. */
  function Normalize(defs: map<Name, ModDef>): (r: map<Name, ModDef>)
    ensures r.Keys == defs.Keys
  {
    FillInOptionalDependencies(PropagatedConflicts(defs))
  }

  /** What normalisation does to the constraints the resolver reads. */
  lemma NormalizedConstraints(defs: map<Name, ModDef>, a: Name, b: Name)
    requires a in defs
    ensures Normalize(defs).Keys == defs.Keys
    ensures b in Normalize(defs)[a].dependsOn <==>
      b in defs[a].dependsOn || (b in defs[a].optionallyDependsOn && b in defs)
    ensures b in defs ==>
      (b in Normalize(defs)[a].conflictsWith <==> b in defs[a].conflictsWith || a in defs[b].conflictsWith)
  {
    var p := PropagatedConflicts(defs);
    assert Normalize(defs)[a].conflictsWith == p[a].conflictsWith;
    if b in defs {
      assert b in p;
    }
  }

  // ---------------------------------------------------------------------------
  // The dependency check (ModTek.cs:491-495)

  /** AreDependanciesResolved with set-valued constraints: every hard
      dependency is loaded and no conflicting mod is. */
  predicate Resolved(d: ModDef, loaded: set<Name>)
  {
    d.dependsOn <= loaded && d.conflictsWith !! loaded
  }

  /** AreDependanciesResolved read over C# lists: `Intersect` yields distinct
      elements, so its count is the number of distinct loaded dependencies. */
  predicate ResolvedOnLists(dependsOn: seq<Name>, conflictsWith: seq<Name>, loaded: set<Name>)
  {
    !((|dependsOn| != 0 && |Elems(dependsOn) * loaded| != |dependsOn|)
      || (|conflictsWith| != 0 && Elems(conflictsWith) * loaded != {}))
  }

  /** On duplicate-free lists the count-based check is the set check. */
  lemma ListCheckAgreesOnDistinctLists(dependsOn: seq<Name>, conflictsWith: seq<Name>, loaded: set<Name>)
    requires NoDup(dependsOn)
    ensures ResolvedOnLists(dependsOn, conflictsWith, loaded)
        <==> Elems(dependsOn) <= loaded && Elems(conflictsWith) !! loaded
  {
    NoDupCard(dependsOn);
    var deps := Elems(dependsOn);
    if !(deps <= loaded) {
      var x :| x in deps && x !in loaded;
      SubsetCard(deps * loaded, deps, x);
    } else {
      assert deps * loaded == deps;
    }
    if |dependsOn| == 0 {
      assert deps == {};
    }
    if |conflictsWith| == 0 {
      assert Elems(conflictsWith) == {};
    }
    assert (Elems(conflictsWith) * loaded == {}) == (Elems(conflictsWith) !! loaded) by {
      if !(Elems(conflictsWith) !! loaded) {
        var x :| x in Elems(conflictsWith) && x in loaded;
        assert x in Elems(conflictsWith) * loaded;
      }
    }
  }

  /** A dependency listed twice (for instance, once as a hard dependency and
      once promoted from the optional list) can never satisfy the count test. */
  lemma RepeatedDependencyNeverResolves(dependsOn: seq<Name>, conflictsWith: seq<Name>, loaded: set<Name>)
    requires !NoDup(dependsOn)
    ensures !ResolvedOnLists(dependsOn, conflictsWith, loaded)
  {
    NoDupCard(dependsOn);
    ElemsBound(dependsOn);
    var deps := Elems(dependsOn);
    SubsetCardLe(deps * loaded, deps);
  }

  lemma SubsetCardLe(a: set<Name>, b: set<Name>)
    requires a <= b
    ensures |a| <= |b|
  {
    assert b == a + (b - a);
    assert a !! (b - a);
  }

  /** A subset missing an element of the larger set is strictly smaller. */
  lemma SubsetCard(a: set<Name>, b: set<Name>, x: Name)
    requires a <= b && x in b && x !in a
    ensures |a| < |b|
  {
    SubsetCardLe(a + {x}, b);
  }

  // ---------------------------------------------------------------------------
  // Orders

  /** Every mod of the order passed the dependency check against exactly the
      mods placed before it. */
  ghost predicate ValidOrder(defs: map<Name, ModDef>, order: seq<Name>)
  {
    forall i :: 0 <= i < |order| ==> order[i] in defs && Resolved(defs[order[i]], Elems(order[..i]))
  }

  lemma ValidOrderAppend(defs: map<Name, ModDef>, order: seq<Name>, x: Name)
    requires ValidOrder(defs, order) && x in defs && Resolved(defs[x], Elems(order))
    ensures ValidOrder(defs, order + [x])
  {
    var o := order + [x];
    forall i | 0 <= i < |o|
      ensures o[i] in defs && Resolved(defs[o[i]], Elems(o[..i]))
    {
      if i < |order| {
        assert o[..i] == order[..i];
      } else {
        assert o[..i] == order;
      }
    }
  }

  lemma ValidOrderElems(defs: map<Name, ModDef>, order: seq<Name>)
    requires ValidOrder(defs, order)
    ensures Elems(order) <= defs.Keys
  {
    forall y | y in Elems(order)
      ensures y in defs
    {
      var k :| 0 <= k < |order| && order[k] == y;
    }
  }

  /** Seeding from the persisted order (ModTek.cs:508-515), as the order
      reached after walking `persisted` front to back. */
  function Seed(defs: map<Name, ModDef>, persisted: seq<Name>): (order: seq<Name>)
    decreases |persisted|
    ensures ValidOrder(defs, order)
    ensures IsSubseq(order, persisted)
  {
    if persisted == [] then []
    else
      var prior := Seed(defs, persisted[..|persisted| - 1]);
      var n := persisted[|persisted| - 1];
      assert persisted == persisted[..|persisted| - 1] + [n];
      if n in defs && Resolved(defs[n], Elems(prior)) then
        ValidOrderAppend(defs, prior, n);
        SubseqAppendBoth(prior, persisted[..|persisted| - 1], n);
        prior + [n]
      else
        SubseqExtend(prior, persisted[..|persisted| - 1], n);
        prior
  }

  /** Walking a longer persisted list only appends to the seed. */
  lemma {:induction false} SeedOfPrefix(defs: map<Name, ModDef>, persisted: seq<Name>, i: int)
    requires 0 <= i <= |persisted|
    ensures Seed(defs, persisted[..i]) <= Seed(defs, persisted)
    decreases |persisted|
  {
    if i < |persisted| {
      var init := persisted[..|persisted| - 1];
      assert init[..i] == persisted[..i];
      SeedOfPrefix(defs, init, i);
    } else {
      assert persisted[..i] == persisted;
    }
  }

  /** The seed accepts every present name that passes the dependency check
      against what was accepted before its turn, and a name that does not
      pass leaves the seed as it was. */
  lemma SeedAcceptsEveryPassingName(defs: map<Name, ModDef>, persisted: seq<Name>, i: int)
    requires 0 <= i < |persisted|
    ensures var before, n := Seed(defs, persisted[..i]), persisted[i];
      && (n in defs && Resolved(defs[n], Elems(before)) ==> before + [n] <= Seed(defs, persisted))
      && (!(n in defs && Resolved(defs[n], Elems(before))) ==>
            Seed(defs, persisted[..i + 1]) == before && before <= Seed(defs, persisted))
  {
    var upto := persisted[..i + 1];
    assert upto[..|upto| - 1] == persisted[..i];
    assert upto[|upto| - 1] == persisted[i];
    SeedOfPrefix(defs, persisted, i + 1);
  }

  /** One pass of the do-while body (ModTek.cs:528-540) over the list `s`,
      visited from its last element to its first, starting from `order0`;
      PassFrom(.., k) is the state once the names at positions k and above
      have been visited. An accepted mod is appended to the order at once, so
      later candidates of the same pass see it; rejected names keep their
      relative order. */
  function PassFrom(defs: map<Name, ModDef>, order0: seq<Name>, s: seq<Name>, k: int): Resolution
    requires Elems(s) <= defs.Keys && 0 <= k <= |s|
    decreases |s| - k
  {
    if k == |s| then Resolution(order0, [])
    else
      var x := s[k];
      assert x in Elems(s);
      var p := PassFrom(defs, order0, s, k + 1);
      if Resolved(defs[x], Elems(p.order)) then Resolution(p.order + [x], p.unloaded)
      else Resolution(p.order, [x] + p.unloaded)
  }

  /** A whole pass over `s`. */
  function Pass(defs: map<Name, ModDef>, order0: seq<Name>, s: seq<Name>): Resolution
    requires Elems(s) <= defs.Keys
  {
    PassFrom(defs, order0, s, 0)
  }

  /** A pass only appends to the order, and the names it accepts together
      with the names it leaves are exactly the names it visited. */
  lemma {:induction false} PassFromShape(defs: map<Name, ModDef>, order0: seq<Name>, s: seq<Name>, k: int)
    requires Elems(s) <= defs.Keys && 0 <= k <= |s|
    ensures var r := PassFrom(defs, order0, s, k);
      && |order0| <= |r.order| && r.order[..|order0|] == order0
      && multiset(r.order[|order0|..]) + multiset(r.unloaded) == multiset(s[k..])
    decreases |s| - k
  {
    PassFromGrows(defs, order0, s, k);
    if k < |s| {
      var x := s[k];
      assert s[k..] == [x] + s[k + 1..];
      PassFromShape(defs, order0, s, k + 1);
      var p := PassFrom(defs, order0, s, k + 1);
      if Resolved(defs[x], Elems(p.order)) {
        AppendedTail(order0, p.order, x);
      }
    }
  }

  lemma AppendedTail(order0: seq<Name>, o: seq<Name>, x: Name)
    requires |order0| <= |o|
    ensures (o + [x])[|order0|..] == o[|order0|..] + [x]
  {
  }

  /** The same for a whole pass, with the consequences the loop needs: the
      names left are among those visited, and the list shrinks by the number
      of names accepted. */
  lemma PassShape(defs: map<Name, ModDef>, order0: seq<Name>, s: seq<Name>)
    requires Elems(s) <= defs.Keys
    ensures var r := Pass(defs, order0, s);
      && |order0| <= |r.order| && r.order[..|order0|] == order0
      && multiset(r.order[|order0|..]) + multiset(r.unloaded) == multiset(s)
      && Elems(r.unloaded) <= Elems(s) && |r.order| - |order0| + |r.unloaded| == |s|
  {
    PassFromShape(defs, order0, s, 0);
    assert s[0..] == s;
    var r := Pass(defs, order0, s);
    assert forall y :: y in r.unloaded ==> y in multiset(s);
    assert |multiset(r.order[|order0|..])| + |multiset(r.unloaded)| == |multiset(s)|;
  }

  lemma {:induction false} PassKeepsValidOrder(defs: map<Name, ModDef>, order0: seq<Name>, s: seq<Name>, k: int)
    requires Elems(s) <= defs.Keys && 0 <= k <= |s| && ValidOrder(defs, order0)
    ensures ValidOrder(defs, PassFrom(defs, order0, s, k).order)
    decreases |s| - k
  {
    if k < |s| {
      PassKeepsValidOrder(defs, order0, s, k + 1);
      var p := PassFrom(defs, order0, s, k + 1);
      assert s[k] in Elems(s);
      if Resolved(defs[s[k]], Elems(p.order)) {
        ValidOrderAppend(defs, p.order, s[k]);
      }
    }
  }

  lemma {:induction false} PassFromGrows(defs: map<Name, ModDef>, order0: seq<Name>, s: seq<Name>, k: int)
    requires Elems(s) <= defs.Keys && 0 <= k <= |s|
    ensures var o := PassFrom(defs, order0, s, k).order; |o| >= |order0| && o[..|order0|] == order0
    decreases |s| - k
  {
    if k < |s| {
      PassFromGrows(defs, order0, s, k + 1);
      var o := PassFrom(defs, order0, s, k + 1).order;
      assert (o + [s[k]])[..|order0|] == o[..|order0|];
    }
  }

  /** A pass that accepts nothing leaves the list as it was, and then every
      visited name failed the check against the unchanged loaded set. */
  lemma {:induction false} PassAcceptingNothing(defs: map<Name, ModDef>, order0: seq<Name>, s: seq<Name>, k: int)
    requires Elems(s) <= defs.Keys && 0 <= k <= |s|
    ensures var r := PassFrom(defs, order0, s, k);
      |r.order| == |order0| ==>
        r.order == order0 && r.unloaded == s[k..]
        && forall i :: k <= i < |s| ==> !Resolved(defs[s[i]], Elems(order0))
    decreases |s| - k
  {
    if k < |s| {
      PassAcceptingNothing(defs, order0, s, k + 1);
      PassFromGrows(defs, order0, s, k + 1);
      assert s[k..] == [s[k]] + s[k + 1..];
    }
  }

  lemma {:induction false} PassKeepsDescending(defs: map<Name, ModDef>, order0: seq<Name>, s: seq<Name>, k: int)
    requires Elems(s) <= defs.Keys && 0 <= k <= |s| && StrictlyDescending(s)
    ensures StrictlyDescending(PassFrom(defs, order0, s, k).unloaded)
    ensures forall y :: y in PassFrom(defs, order0, s, k).unloaded ==> exists i :: k <= i < |s| && s[i] == y
    decreases |s| - k
  {
    if k < |s| {
      PassKeepsDescending(defs, order0, s, k + 1);
      var p := PassFrom(defs, order0, s, k + 1);
      forall y | y in p.unloaded
        ensures Below(y, s[k])
      {
        var i :| k + 1 <= i < |s| && s[i] == y;
      }
      PrependGreatest(s[k], p.unloaded);
    }
  }

  /** Extending an extension of `a` extends `a`, and the two added parts join. */
  lemma PrefixCompose(a: seq<Name>, b: seq<Name>, c: seq<Name>)
    requires |a| <= |b| && b[..|a|] == a
    requires |b| <= |c| && c[..|b|] == b
    ensures c[..|a|] == a
    ensures c[|a|..] == b[|a|..] + c[|b|..]
  {
    assert c[..|a|] == c[..|b|][..|a|];
  }

  /** The do-while loop (ModTek.cs:526-541): passes repeat while the last one
      accepted something and candidates remain. */
  function FixedPoint(defs: map<Name, ModDef>, order: seq<Name>, unloaded: seq<Name>): Resolution
    requires Elems(unloaded) <= defs.Keys
    decreases |unloaded|
  {
    var p := Pass(defs, order, unloaded);
    PassShape(defs, order, unloaded);
    if |p.order| > |order| && |p.unloaded| > 0 then FixedPoint(defs, p.order, p.unloaded)
    else p
  }

  /** The loop only appends to the order, and every candidate ends up either
      appended or still in the list. */
  lemma {:induction false} FixedPointShape(defs: map<Name, ModDef>, order: seq<Name>, unloaded: seq<Name>)
    requires Elems(unloaded) <= defs.Keys
    ensures var r := FixedPoint(defs, order, unloaded);
      && |order| <= |r.order| && r.order[..|order|] == order
      && multiset(r.order[|order|..]) + multiset(r.unloaded) == multiset(unloaded)
    decreases |unloaded|
  {
    var p := Pass(defs, order, unloaded);
    PassShape(defs, order, unloaded);
    if |p.order| > |order| && |p.unloaded| > 0 {
      FixedPointShape(defs, p.order, p.unloaded);
      var r := FixedPoint(defs, p.order, p.unloaded);
      PrefixCompose(order, p.order, r.order);
    }
  }

  lemma {:induction false} FixedPointKeepsValidOrder(defs: map<Name, ModDef>, order: seq<Name>, unloaded: seq<Name>)
    requires Elems(unloaded) <= defs.Keys && ValidOrder(defs, order)
    ensures ValidOrder(defs, FixedPoint(defs, order, unloaded).order)
    decreases |unloaded|
  {
    var p := Pass(defs, order, unloaded);
    PassShape(defs, order, unloaded);
    PassKeepsValidOrder(defs, order, unloaded, 0);
    if |p.order| > |order| && |p.unloaded| > 0 {
      FixedPointKeepsValidOrder(defs, p.order, p.unloaded);
    }
  }

  lemma {:induction false} FixedPointKeepsDescending(defs: map<Name, ModDef>, order: seq<Name>, unloaded: seq<Name>)
    requires Elems(unloaded) <= defs.Keys && StrictlyDescending(unloaded)
    ensures StrictlyDescending(FixedPoint(defs, order, unloaded).unloaded)
    decreases |unloaded|
  {
    var p := Pass(defs, order, unloaded);
    PassShape(defs, order, unloaded);
    PassKeepsDescending(defs, order, unloaded, 0);
    if |p.order| > |order| && |p.unloaded| > 0 {
      FixedPointKeepsDescending(defs, p.order, p.unloaded);
    }
  }

  /** When the loop stops, every name still unloaded fails the check against
      the final loaded set. */
  lemma {:induction false} FixedPointIsStuck(defs: map<Name, ModDef>, order: seq<Name>, unloaded: seq<Name>)
    requires Elems(unloaded) <= defs.Keys
    ensures var r := FixedPoint(defs, order, unloaded);
      forall x :: x in r.unloaded ==> x in defs && !Resolved(defs[x], Elems(r.order))
    decreases |unloaded|
  {
    var p := Pass(defs, order, unloaded);
    PassShape(defs, order, unloaded);
    if |p.order| > |order| && |p.unloaded| > 0 {
      FixedPointIsStuck(defs, p.order, p.unloaded);
    } else if |p.unloaded| > 0 {
      PassAcceptingNothing(defs, order, unloaded, 0);
      assert unloaded[0..] == unloaded;
      assert forall x :: x in unloaded ==> exists i :: 0 <= i < |unloaded| && unloaded[i] == x;
    }
  }

  /** The resolver proper, over descriptors whose constraints are already
      normalised: seed from the persisted order, sort the rest, run the loop. */
  function Resolve(nd: map<Name, ModDef>, persisted: seq<Name>): Resolution
  {
    var seeded := Seed(nd, persisted);
    var unloaded := OrderByDescending(nd.Keys - Elems(seeded));
    if |unloaded| == 0 then Resolution(seeded, [])
    else FixedPoint(nd, seeded, unloaded)
  }

  /** GetLoadOrder (ModTek.cs:497-544) with the persisted order given as a
      parameter instead of read from load_order.json. The order lists the
      dictionary keys where the source appends `modDef.Name`; the two agree
      for dictionaries keyed by name (Descriptors.KeyedByName), which is what
      Descriptors.CollectModDefs builds and LoadOrderImpl.GetLoadOrder requires. */
  function LoadOrderOf(defs: map<Name, ModDef>, persisted: seq<Name>): (r: Resolution)
    ensures ValidOrder(Normalize(defs), r.order)
  {
    ResolveIsValid(Normalize(defs), persisted);
    Resolve(Normalize(defs), persisted)
  }

  /** The resolved order only ever accepts a mod whose constraints hold
      against the mods placed before it. */
  lemma ResolveIsValid(nd: map<Name, ModDef>, persisted: seq<Name>)
    ensures ValidOrder(nd, Resolve(nd, persisted).order)
  {
    var seeded := Seed(nd, persisted);
    var unloaded := OrderByDescending(nd.Keys - Elems(seeded));
    if |unloaded| != 0 {
      FixedPointKeepsValidOrder(nd, seeded, unloaded);
    }
  }

  /** Every name left unloaded still fails the check against the final
      loaded set. */
  lemma ResolveLeavesOnlyBlocked(nd: map<Name, ModDef>, persisted: seq<Name>)
    ensures var r := Resolve(nd, persisted);
      forall x :: x in r.unloaded ==> x in nd && !Resolved(nd[x], Elems(r.order))
  {
    var seeded := Seed(nd, persisted);
    var unloaded := OrderByDescending(nd.Keys - Elems(seeded));
    if |unloaded| != 0 {
      FixedPointIsStuck(nd, seeded, unloaded);
    }
  }

  /** Every descriptor ends up in exactly one of the order and the unloaded
      list, and the order is duplicate-free when the persisted order is. */
  lemma ResolvePartitions(nd: map<Name, ModDef>, persisted: seq<Name>)
    ensures var r := Resolve(nd, persisted);
      && Elems(r.order) + Elems(r.unloaded) == nd.Keys
      && Elems(r.order) !! Elems(r.unloaded)
      && (NoDup(persisted) ==> NoDup(r.order))
  {
    var seeded := Seed(nd, persisted);
    var unloaded := OrderByDescending(nd.Keys - Elems(seeded));
    var r := Resolve(nd, persisted);
    DescendingNoDup(unloaded);
    ValidOrderElems(nd, seeded);
    ResolveShape(nd, persisted);
    LoadOrderPartition(nd, persisted, seeded, unloaded, r);
  }

  lemma ResolveShape(nd: map<Name, ModDef>, persisted: seq<Name>)
    ensures var seeded := Seed(nd, persisted);
      var unloaded := OrderByDescending(nd.Keys - Elems(seeded));
      var r := Resolve(nd, persisted);
      && |seeded| <= |r.order| && r.order[..|seeded|] == seeded
      && multiset(r.order[|seeded|..]) + multiset(r.unloaded) == multiset(unloaded)
  {
    var seeded := Seed(nd, persisted);
    var unloaded := OrderByDescending(nd.Keys - Elems(seeded));
    LoopShape(nd, seeded, unloaded);
  }

  lemma LoopShape(nd: map<Name, ModDef>, seeded: seq<Name>, unloaded: seq<Name>)
    requires Elems(unloaded) <= nd.Keys
    ensures var r := if |unloaded| == 0 then Resolution(seeded, []) else FixedPoint(nd, seeded, unloaded);
      && |seeded| <= |r.order| && r.order[..|seeded|] == seeded
      && multiset(r.order[|seeded|..]) + multiset(r.unloaded) == multiset(unloaded)
  {
    if |unloaded| == 0 {
      assert seeded[|seeded|..] == [];
    } else {
      FixedPointShape(nd, seeded, unloaded);
    }
  }

  /** The unloaded list comes out sorted like the candidates it started from. */
  lemma ResolveKeepsUnloadedSorted(nd: map<Name, ModDef>, persisted: seq<Name>)
    ensures StrictlyDescending(Resolve(nd, persisted).unloaded)
  {
    var seeded := Seed(nd, persisted);
    var unloaded := OrderByDescending(nd.Keys - Elems(seeded));
    if |unloaded| != 0 {
      FixedPointKeepsDescending(nd, seeded, unloaded);
    }
  }

  lemma LoadOrderPartition(nd: map<Name, ModDef>, persisted: seq<Name>, seeded: seq<Name>,
                           unloaded: seq<Name>, r: Resolution)
    requires Elems(seeded) <= nd.Keys && IsSubseq(seeded, persisted)
    requires NoDup(unloaded) && Elems(unloaded) == nd.Keys - Elems(seeded)
    requires |seeded| <= |r.order| && r.order[..|seeded|] == seeded
    requires multiset(r.order[|seeded|..]) + multiset(r.unloaded) == multiset(unloaded)
    ensures Elems(r.order) + Elems(r.unloaded) == nd.Keys
    ensures Elems(r.order) !! Elems(r.unloaded)
    ensures NoDup(persisted) ==> NoDup(r.order)
  {
    var added := r.order[|seeded|..];
    var rest := nd.Keys - Elems(seeded);
    NoDupMultiset(unloaded);
    MultisetPartition(added, r.unloaded, rest);
    assert r.order == seeded + added;
    ElemsConcat(seeded, added);
    if NoDup(persisted) {
      SubseqNoDup(seeded, persisted);
      NoDupConcat(seeded, added);
    }
  }

  /** Two distinct positions holding the same element count twice. */
  lemma MultisetTwoPositions(a: seq<Name>, i: int, j: int)
    requires 0 <= i < j < |a|
    ensures a[i] == a[j] ==> multiset(a)[a[i]] >= 2
  {
    assert a == a[..j] + a[j..];
    assert multiset(a) == multiset(a[..j]) + multiset(a[j..]);
    assert a[i] in a[..j] && a[j] in a[j..];
  }

  lemma MultisetOfSetAtMostOne(s: set<Name>, x: Name)
    ensures multiset(s)[x] <= 1
  {
  }

  /** A multiset split of a set into two sequences is a partition into
      duplicate-free, disjoint parts. */
  lemma MultisetPartition(a: seq<Name>, b: seq<Name>, s: set<Name>)
    requires multiset(a) + multiset(b) == multiset(s)
    ensures NoDup(a) && NoDup(b) && Elems(a) !! Elems(b) && Elems(a) + Elems(b) == s
  {
    forall i, j | 0 <= i < j < |a|
      ensures a[i] != a[j]
    {
      MultisetTwoPositions(a, i, j);
      MultisetOfSetAtMostOne(s, a[i]);
      assert multiset(s)[a[i]] == multiset(a)[a[i]] + multiset(b)[a[i]];
    }
    forall i, j | 0 <= i < j < |b|
      ensures b[i] != b[j]
    {
      MultisetTwoPositions(b, i, j);
      MultisetOfSetAtMostOne(s, b[i]);
      assert multiset(s)[b[i]] == multiset(a)[b[i]] + multiset(b)[b[i]];
    }
    forall x | x in Elems(a)
      ensures x !in Elems(b)
    {
      MultisetOfSetAtMostOne(s, x);
      assert multiset(s)[x] == multiset(a)[x] + multiset(b)[x];
      assert multiset(a)[x] >= 1;
      assert x in b ==> multiset(b)[x] >= 1;
    }
    forall x
      ensures x in Elems(a) + Elems(b) <==> x in s
    {
      assert x in multiset(s) <==> x in s;
    }
  }

  // ---------------------------------------------------------------------------
  // Properties of the resolved order

  /** In a valid order of the normalised descriptors, every hard dependency
      of a mod (declared, or optional and present) sits strictly earlier. */
  lemma ValidOrderPlacesDependenciesFirst(defs: map<Name, ModDef>, order: seq<Name>, i: int, d: Name)
    requires ValidOrder(Normalize(defs), order) && 0 <= i < |order|
    requires order[i] in defs
    requires d in defs[order[i]].dependsOn || (d in defs[order[i]].optionallyDependsOn && d in defs)
    ensures exists j :: 0 <= j < i && order[j] == d
  {
    NormalizedConstraints(defs, order[i], d);
    DependencyPrecedes(Normalize(defs), order, i, d);
  }

  lemma DependencyPrecedes(nd: map<Name, ModDef>, order: seq<Name>, i: int, d: Name)
    requires ValidOrder(nd, order) && 0 <= i < |order|
    requires d in nd[order[i]].dependsOn
    ensures exists j :: 0 <= j < i && order[j] == d
  {
    assert Resolved(nd[order[i]], Elems(order[..i]));
    var prefix := order[..i];
    assert d in Elems(prefix);
    var j :| 0 <= j < |prefix| && prefix[j] == d;
    assert order[j] == d;
  }

  /** In a valid order of the normalised descriptors no mod conflicts with an
      earlier one, whichever of the two declared the conflict. */
  lemma ValidOrderHasNoConflicts(defs: map<Name, ModDef>, order: seq<Name>, i: int, j: int)
    requires ValidOrder(Normalize(defs), order) && 0 <= i < j < |order|
    ensures order[i] in defs && order[j] in defs
    ensures order[i] !in defs[order[j]].conflictsWith && order[j] !in defs[order[i]].conflictsWith
  {
    var nd := Normalize(defs);
    assert order[i] in nd && order[j] in nd;
    NormalizedConstraints(defs, order[j], order[i]);
    assert Resolved(nd[order[j]], Elems(order[..j]));
    assert order[i] in Elems(order[..j]) by {
      assert order[..j][i] == order[i];
    }
  }

  /** The load order and the unloaded list together hold every descriptor
      exactly once (given a duplicate-free persisted order), every mod of the
      order passed the check against the mods before it, and every unloaded
      mod fails it against the whole order. */
  lemma LoadOrderIsSound(defs: map<Name, ModDef>, persisted: seq<Name>)
    ensures var r := LoadOrderOf(defs, persisted);
      && ValidOrder(Normalize(defs), r.order)
      && Elems(r.order) + Elems(r.unloaded) == defs.Keys
      && Elems(r.order) !! Elems(r.unloaded)
      && (NoDup(persisted) ==> NoDup(r.order))
      && StrictlyDescending(r.unloaded)
      && forall x :: x in r.unloaded ==> x in defs && !Resolved(Normalize(defs)[x], Elems(r.order))
  {
    var nd := Normalize(defs);
    ResolveIsValid(nd, persisted);
    ResolvePartitions(nd, persisted);
    ResolveKeepsUnloadedSorted(nd, persisted);
    ResolveLeavesOnlyBlocked(nd, persisted);
  }

  /** Every hard dependency of a loaded mod is loaded strictly earlier. */
  lemma DependenciesLoadEarlier(defs: map<Name, ModDef>, persisted: seq<Name>, i: int, d: Name)
    requires 0 <= i < |LoadOrderOf(defs, persisted).order|
    requires LoadOrderOf(defs, persisted).order[i] in defs
    requires d in defs[LoadOrderOf(defs, persisted).order[i]].dependsOn
          || (d in defs[LoadOrderOf(defs, persisted).order[i]].optionallyDependsOn && d in defs)
    ensures exists j :: 0 <= j < i && LoadOrderOf(defs, persisted).order[j] == d
  {
    ResolveIsValid(Normalize(defs), persisted);
    ValidOrderPlacesDependenciesFirst(defs, LoadOrderOf(defs, persisted).order, i, d);
  }

  /** No two loaded mods conflict. */
  lemma NoConflictingModsBothLoad(defs: map<Name, ModDef>, persisted: seq<Name>, i: int, j: int)
    requires 0 <= i < j < |LoadOrderOf(defs, persisted).order|
    ensures LoadOrderOf(defs, persisted).order[i] in defs
    ensures LoadOrderOf(defs, persisted).order[j] in defs
    ensures LoadOrderOf(defs, persisted).order[i] !in defs[LoadOrderOf(defs, persisted).order[j]].conflictsWith
    ensures LoadOrderOf(defs, persisted).order[j] !in defs[LoadOrderOf(defs, persisted).order[i]].conflictsWith
  {
    ResolveIsValid(Normalize(defs), persisted);
    ValidOrderHasNoConflicts(defs, LoadOrderOf(defs, persisted).order, i, j);
  }

  /** Walking an order that is already valid accepts every name of it. */
  lemma {:induction false} SeedAcceptsValidOrder(defs: map<Name, ModDef>, order: seq<Name>)
    requires ValidOrder(defs, order)
    ensures Seed(defs, order) == order
    decreases |order|
  {
    if order != [] {
      var prefix := order[..|order| - 1];
      assert ValidOrder(defs, prefix) by {
        forall i | 0 <= i < |prefix|
          ensures prefix[i] in defs && Resolved(defs[prefix[i]], Elems(prefix[..i]))
        {
          assert prefix[..i] == order[..i];
        }
      }
      SeedAcceptsValidOrder(defs, prefix);
      assert order == prefix + [order[|order| - 1]];
    }
  }

  /** A pass over names that all fail against the current order changes nothing. */
  lemma {:induction false} StuckPassIsIdentity(defs: map<Name, ModDef>, order: seq<Name>, s: seq<Name>, k: int)
    requires Elems(s) <= defs.Keys && 0 <= k <= |s|
    requires forall x :: x in s ==> !Resolved(defs[x], Elems(order))
    ensures PassFrom(defs, order, s, k) == Resolution(order, s[k..])
    decreases |s| - k
  {
    if k < |s| {
      StuckPassIsIdentity(defs, order, s, k + 1);
      assert s[k..] == [s[k]] + s[k + 1..];
    }
  }

  /** The loop stops after one pass when nothing can be accepted. */
  lemma StuckFixedPointIsIdentity(defs: map<Name, ModDef>, order: seq<Name>, s: seq<Name>)
    requires Elems(s) <= defs.Keys
    requires forall x :: x in s ==> !Resolved(defs[x], Elems(order))
    ensures FixedPoint(defs, order, s) == Resolution(order, s)
  {
    StuckPassIsIdentity(defs, order, s, 0);
    assert s[0..] == s;
  }

  /** Resolving again from a resolved order reproduces it. */
  lemma ResolveIsIdempotent(nd: map<Name, ModDef>, persisted: seq<Name>)
    ensures Resolve(nd, Resolve(nd, persisted).order) == Resolve(nd, persisted)
  {
    var r := Resolve(nd, persisted);
    ResolveIsValid(nd, persisted);
    ResolvePartitions(nd, persisted);
    ResolveKeepsUnloadedSorted(nd, persisted);
    ResolveLeavesOnlyBlocked(nd, persisted);
    SeedAcceptsValidOrder(nd, r.order);
    assert nd.Keys - Elems(r.order) == Elems(r.unloaded);
    DescendingIsCanonical(r.unloaded);
    if r.unloaded != [] {
      StuckFixedPointIsIdentity(nd, r.order, r.unloaded);
    }
  }

  /** Feeding the resolved order back as the persisted order (what
      load_order.json holds on the next start, ModTek.cs:724) with the same
      descriptors reproduces the same order and the same unloaded list. */
  lemma LoadOrderIsIdempotent(defs: map<Name, ModDef>, persisted: seq<Name>)
    ensures LoadOrderOf(defs, LoadOrderOf(defs, persisted).order) == LoadOrderOf(defs, persisted)
  {
    ResolveIsIdempotent(Normalize(defs), persisted);
  }

  /** A name repeated in the persisted order is loaded twice: the seeding loop
      does not test whether a name is already loaded. */
  lemma RepeatedPersistedNameLoadsTwice(d: ModDef)
    requires d.dependsOn == {} && d.optionallyDependsOn == {} && d.conflictsWith == {}
    ensures LoadOrderOf(map[d.name := d], [d.name, d.name]).order == [d.name, d.name]
  {
    var defs := map[d.name := d];
    var nd := Normalize(defs);
    var n := d.name;
    assert nd.Keys == {n};
    assert Resolved(nd[n], {}) && Resolved(nd[n], {n}) by {
      forall b
        ensures b !in nd[n].dependsOn && b !in nd[n].conflictsWith
      {
        NormalizedConstraints(defs, n, b);
      }
    }
    var persisted := [n, n];
    assert persisted[..1] == [n] && persisted[..0] == [];
    assert [n][..0] == [];
    assert Seed(nd, []) == [];
    assert Elems<Name>([]) == {};
    assert Seed(nd, [n]) == [n];
    assert Elems([n]) == {n};
    assert Seed(nd, persisted) == [n, n];
    assert nd.Keys - Elems([n, n]) == {};
  }
}

=== FILE: load_order_impl.dfy ===
/** The resolver as the source writes it: in-place loops over the descriptor
    dictionary (ModTek/ModTek.cs:434-464) and GetLoadOrder's seeding loop and
    do-while (ModTek/ModTek.cs:497-544). Each method is proved to compute the
    reference definition of module LoadOrder. */
module LoadOrderImpl {
  import opened Common
  import opened Descriptors
  import opened LoadOrder

  /** The mods among `done` that declared a conflict with `a`. */
  ghost function DeclaredAgainstAmong(defs: map<Name, ModDef>, done: seq<Name>, a: Name): set<Name>
  {
    set y | y in done && y in defs && a in defs[y].conflictsWith
  }

  /** PropagateConflictsForward. `keyOrder` is the dictionary's enumeration
      order. Each visited mod adds its own name to the conflict set of every
      present mod its current conflict set names; the sets grow while the loop
      runs, and a later mod iterates its grown set. Only the conflict sets
      change, so the loop works on them and rebuilds the descriptors at the end. */
  method PropagateConflictsForward(defs: map<Name, ModDef>, keyOrder: seq<Name>) returns (r: map<Name, ModDef>)
    requires KeyedByName(defs)
    requires NoDup(keyOrder) && forall a :: a in keyOrder <==> a in defs
    ensures r == PropagatedConflicts(defs)
  {
    var conflicts := map a | a in defs :: defs[a].conflictsWith;
    for i := 0 to |keyOrder|
      invariant forall a :: a in conflicts <==> a in defs
      invariant forall a :: a in conflicts ==>
        conflicts[a] == defs[a].conflictsWith + DeclaredAgainstAmong(defs, keyOrder[..i], a)
    {
      var k := keyOrder[i];
      ghost var before := conflicts;
      conflicts := MirrorOne(conflicts, k, defs[k].name);
      forall a | a in conflicts
        ensures conflicts[a] == defs[a].conflictsWith + DeclaredAgainstAmong(defs, keyOrder[..i + 1], a)
      {
        PropagateStep(defs, keyOrder, i, a, before[k]);
      }
    }
    assert keyOrder[..|keyOrder|] == keyOrder;
    r := map a | a in defs :: defs[a].(conflictsWith := conflicts[a]);
    PropagatedAll(defs, keyOrder, conflicts, r);
  }

  /** The body of PropagateConflictsForward's outer loop for the mod `k`,
      named `name`: skip a mod without conflicts, otherwise mirror its set. */
  method MirrorOne(conflicts: map<Name, set<Name>>, k: Name, name: Name) returns (r: map<Name, set<Name>>)
    requires k in conflicts
    ensures forall a :: a in r <==> a in conflicts
    ensures forall a :: a in r ==> r[a] == conflicts[a] + (if a in conflicts[k] then {name} else {})
  {
    r := conflicts;
    if |conflicts[k]| != 0 {
      r := MirrorConflict(conflicts, conflicts[k], name);
    }
  }

  lemma PropagatedAll(defs: map<Name, ModDef>, keyOrder: seq<Name>, conflicts: map<Name, set<Name>>, r: map<Name, ModDef>)
    requires forall a :: a in keyOrder <==> a in defs
    requires forall a :: a in conflicts <==> a in defs
    requires forall a :: a in conflicts ==>
      conflicts[a] == defs[a].conflictsWith + DeclaredAgainstAmong(defs, keyOrder, a)
    requires r == map a | a in defs :: defs[a].(conflictsWith := conflicts[a])
    ensures r == PropagatedConflicts(defs)
  {
    forall a | a in r
      ensures r[a] == PropagatedConflicts(defs)[a]
    {
      DeclaredAmongAll(defs, keyOrder, a);
    }
  }

  lemma DeclaredAmongAll(defs: map<Name, ModDef>, keyOrder: seq<Name>, a: Name)
    requires forall a :: a in keyOrder <==> a in defs
    ensures DeclaredAgainstAmong(defs, keyOrder, a) == DeclaredAgainst(defs, a)
  {
  }

  /** The inner loop of PropagateConflictsForward, as its overall effect:
      `name` joins the conflict set of every present mod among `targets`;
      names of absent mods are skipped. */
  function MirrorConflict(conflicts: map<Name, set<Name>>, targets: set<Name>, name: Name)
    : (r: map<Name, set<Name>>)
    ensures forall a :: a in r <==> a in conflicts
    ensures forall a :: a in r ==> r[a] == conflicts[a] + (if a in targets then {name} else {})
  {
    map a | a in conflicts :: if a in targets then conflicts[a] + {name} else conflicts[a]
  }

  /** Mirroring the k-th mod's current conflict set adds k to the sets of
      exactly the mods k declared against: the others in its set reached it by
      an earlier mirror, so they already declared k themselves. */
  lemma PropagateStep(defs: map<Name, ModDef>, keyOrder: seq<Name>, i: int, a: Name, current: set<Name>)
    requires 0 <= i < |keyOrder| && keyOrder[i] in defs && a in defs
    requires current == defs[keyOrder[i]].conflictsWith + DeclaredAgainstAmong(defs, keyOrder[..i], keyOrder[i])
    ensures defs[a].conflictsWith + DeclaredAgainstAmong(defs, keyOrder[..i], a)
              + (if a in current then {keyOrder[i]} else {})
         == defs[a].conflictsWith + DeclaredAgainstAmong(defs, keyOrder[..i + 1], a)
  {
    var k := keyOrder[i];
    assert keyOrder[..i + 1] == keyOrder[..i] + [k];
    var before := DeclaredAgainstAmong(defs, keyOrder[..i], a);
    var after := DeclaredAgainstAmong(defs, keyOrder[..i + 1], a);
    assert after == before + (if a in defs[k].conflictsWith then {k} else {});
    if a in current && a !in defs[k].conflictsWith {
      assert a in DeclaredAgainstAmong(defs, keyOrder[..i], k);
      assert k in defs[a].conflictsWith;
    }
  }

  /** The inner loop of FillInOptionalDependencies: every optional
      dependency naming a present mod joins the dependency set. */
  method AddPresent(dependsOn: set<Name>, optional: set<Name>, present: set<Name>) returns (r: set<Name>)
    ensures r == dependsOn + optional * present
  {
    r := dependsOn;
    var todo := optional;
    while todo != {}
      decreases |todo|
      invariant todo <= optional
      invariant r == dependsOn + (optional - todo) * present
    {
      var d :| d in todo;
      if d in present {
        r := r + {d};
      }
      todo := todo - {d};
    }
  }

  /** FillInOptionalDependencies, one mod at a time in enumeration order.
      Only dependency sets change, so the loop works on them. */
  method FillInOptionalDependenciesLoop(defs: map<Name, ModDef>, keyOrder: seq<Name>) returns (r: map<Name, ModDef>)
    requires NoDup(keyOrder) && forall a :: a in keyOrder <==> a in defs
    ensures r == FillInOptionalDependencies(defs)
  {
    var present := defs.Keys;
    var deps := map a | a in defs :: defs[a].dependsOn;
    for i := 0 to |keyOrder|
      invariant FilledUpTo(defs, deps, keyOrder[..i], present)
    {
      var k := keyOrder[i];
      assert k in deps;
      var deps' := FillOne(deps, k, defs[k].optionallyDependsOn, present);
      FillStep(defs, keyOrder, i, present, deps, deps');
      deps := deps';
    }
    assert keyOrder[..|keyOrder|] == keyOrder;
    r := map a | a in defs :: defs[a].(dependsOn := deps[a]);
    FilledDependencies(defs, deps, r);
  }

  /** The dependency sets after the mods in `done` had their optional
      dependencies on `present` mods added. */
  ghost predicate FilledUpTo(defs: map<Name, ModDef>, deps: map<Name, set<Name>>, done: seq<Name>, present: set<Name>)
  {
    && (forall a :: a in deps <==> a in defs)
    && forall a :: a in deps ==>
         deps[a] == defs[a].dependsOn + (if a in done then defs[a].optionallyDependsOn * present else {})
  }

  lemma FillStep(defs: map<Name, ModDef>, keyOrder: seq<Name>, i: int, present: set<Name>,
                 deps: map<Name, set<Name>>, deps': map<Name, set<Name>>)
    requires NoDup(keyOrder) && 0 <= i < |keyOrder| && keyOrder[i] in defs
    requires FilledUpTo(defs, deps, keyOrder[..i], present)
    requires forall a :: a in deps' <==> a in deps
    requires deps'[keyOrder[i]] == deps[keyOrder[i]] + defs[keyOrder[i]].optionallyDependsOn * present
    requires forall a :: a in deps' && a != keyOrder[i] ==> deps'[a] == deps[a]
    ensures FilledUpTo(defs, deps', keyOrder[..i + 1], present)
  {
    FreshInPrefix(keyOrder, i);
  }

  /** The body of FillInOptionalDependencies' outer loop for the mod `k`. */
  method FillOne(deps: map<Name, set<Name>>, k: Name, optional: set<Name>, present: set<Name>)
    returns (r: map<Name, set<Name>>)
    requires k in deps
    ensures forall a :: a in r <==> a in deps
    ensures r[k] == deps[k] + optional * present
    ensures forall a :: a in r && a != k ==> r[a] == deps[a]
  {
    r := deps;
    if |optional| != 0 {
      var acc := AddPresent(deps[k], optional, present);
      r := deps[k := acc];
    }
  }

  /** Entry i of a duplicate-free sequence joins its prefix as a new element. */
  lemma FreshInPrefix(keyOrder: seq<Name>, i: int)
    requires NoDup(keyOrder) && 0 <= i < |keyOrder|
    ensures keyOrder[i] !in keyOrder[..i]
    ensures forall a :: a in keyOrder[..i + 1] <==> a in keyOrder[..i] || a == keyOrder[i]
  {
    assert keyOrder[..i + 1] == keyOrder[..i] + [keyOrder[i]];
  }

  lemma FilledDependencies(defs: map<Name, ModDef>, deps: map<Name, set<Name>>, r: map<Name, ModDef>)
    requires forall a :: a in deps <==> a in defs
    requires forall a :: a in deps ==> deps[a] == defs[a].dependsOn + defs[a].optionallyDependsOn * defs.Keys
    requires r == map a | a in defs :: defs[a].(dependsOn := deps[a])
    ensures r == FillInOptionalDependencies(defs)
  {
  }

  /** The seeding loop of GetLoadOrder (ModTek.cs:508-515): each persisted
      name that is present and passes the check is loaded and removed from the
      working copy's keys. */
  method SeedFromPersisted(nd: map<Name, ModDef>, persisted: seq<Name>)
    returns (order: seq<Name>, loaded: set<Name>, copyKeys: set<Name>)
    ensures order == Seed(nd, persisted)
    ensures loaded == Elems(order) && copyKeys == nd.Keys - loaded
  {
    copyKeys := nd.Keys;
    order := [];
    loaded := {};
    for i := 0 to |persisted|
      invariant order == Seed(nd, persisted[..i])
      invariant loaded == Elems(order)
      invariant copyKeys == nd.Keys - loaded
    {
      var name := persisted[i];
      assert persisted[..i + 1] == persisted[..i] + [name];
      if name in nd && Resolved(nd[name], loaded) {
        copyKeys := copyKeys - {name};
        ElemsAppend(order, name);
        order := order + [name];
        loaded := loaded + {name};
      }
    }
    assert persisted[..|persisted|] == persisted;
  }

  /** One pass of the do-while (ModTek.cs:528-540): walk `unloaded` from the
      back, and move each mod that passes the check to the order at once. */
  method RunPass(nd: map<Name, ModDef>, order0: seq<Name>, u0: seq<Name>, loaded0: set<Name>)
    returns (order: seq<Name>, unloaded: seq<Name>, loaded: set<Name>, removedThisPass: int)
    requires KeyedByName(nd) && Elems(u0) <= nd.Keys && loaded0 == Elems(order0)
    ensures Resolution(order, unloaded) == Pass(nd, order0, u0)
    ensures loaded == Elems(order) && removedThisPass == |order| - |order0|
  {
    order, unloaded, loaded := order0, u0, loaded0;
    removedThisPass := 0;
    var j := |unloaded| - 1;
    assert u0[..j + 1] == u0;
    while j >= 0
      invariant -1 <= j < |u0|
      invariant order == PassFrom(nd, order0, u0, j + 1).order
      invariant unloaded == u0[..j + 1] + PassFrom(nd, order0, u0, j + 1).unloaded
      invariant loaded == Elems(order)
      invariant removedThisPass == |order| - |order0|
      decreases j + 1
    {
      order, unloaded, loaded, removedThisPass := VisitOne(nd, order0, u0, j, order, unloaded, loaded, removedThisPass);
      j := j - 1;
    }
    assert u0[..0] == [];
  }

  /** The body of the pass for index `j`: the mod there is checked against the
      mods loaded so far and, if it passes, removed from the list and appended
      to the order under its descriptor's name. */
  method VisitOne(nd: map<Name, ModDef>, ghost order0: seq<Name>, ghost u0: seq<Name>, j: int,
                  order: seq<Name>, unloaded: seq<Name>, loaded: set<Name>, removed: int)
    returns (order': seq<Name>, unloaded': seq<Name>, loaded': set<Name>, removed': int)
    requires KeyedByName(nd) && Elems(u0) <= nd.Keys && 0 <= j < |u0|
    requires order == PassFrom(nd, order0, u0, j + 1).order
    requires unloaded == u0[..j + 1] + PassFrom(nd, order0, u0, j + 1).unloaded
    requires loaded == Elems(order) && removed == |order| - |order0|
    ensures order' == PassFrom(nd, order0, u0, j).order
    ensures unloaded' == u0[..j] + PassFrom(nd, order0, u0, j).unloaded
    ensures loaded' == Elems(order') && removed' == |order'| - |order0|
  {
    ghost var p := PassFrom(nd, order0, u0, j + 1);
    SplitAt(u0, j, p.unloaded);
    assert u0[j] in Elems(u0);
    var name := unloaded[j];
    order', unloaded', loaded', removed' := order, unloaded, loaded, removed;
    if Resolved(nd[name], loaded) {
      unloaded' := unloaded[..j] + unloaded[j + 1..];
      ElemsAppend(order, nd[name].name);
      order' := order + [nd[name].name];
      loaded' := loaded + {name};
      removed' := removed + 1;
    }
  }

  /** The list during a pass: the names not yet visited, then what the pass
      left of the visited ones. */
  lemma SplitAt(u0: seq<Name>, j: int, tail: seq<Name>)
    requires 0 <= j < |u0|
    ensures (u0[..j + 1] + tail)[j] == u0[j]
    ensures (u0[..j + 1] + tail)[..j] + (u0[..j + 1] + tail)[j + 1..] == u0[..j] + tail
    ensures u0[..j + 1] + tail == u0[..j] + ([u0[j]] + tail)
  {
    var w := u0[..j + 1] + tail;
    assert w[..j] == u0[..j];
    assert w[j + 1..] == tail;
    assert u0[..j + 1] == u0[..j] + [u0[j]];
  }

  /** GetLoadOrder. The working copy of the dictionary shares its descriptors
      with `defs`, so both normalisation steps are visible through `defs`; the
      copy only contributes its key set, from which seeded names are removed.
      `keyOrder` is the dictionary's enumeration order, `persisted` the order
      read from load_order.json. */
  method GetLoadOrder(defs: map<Name, ModDef>, keyOrder: seq<Name>, persisted: seq<Name>)
    returns (order: seq<Name>, unloaded: seq<Name>)
    requires KeyedByName(defs)
    requires NoDup(keyOrder) && forall a :: a in keyOrder <==> a in defs
    ensures Resolution(order, unloaded) == LoadOrderOf(defs, persisted)
  {
    var propagated := PropagateConflictsForward(defs, keyOrder);
    var nd := FillInOptionalDependenciesLoop(propagated, keyOrder);
    assert nd == Normalize(defs);
    NormalizeKeepsNames(defs);
    var loaded, copyKeys;
    order, loaded, copyKeys := SeedFromPersisted(nd, persisted);
    unloaded := OrderByDescending(copyKeys);
    if |unloaded| == 0 {
      return;
    }
    var more := true;
    while more
      invariant Elems(unloaded) <= nd.Keys
      invariant loaded == Elems(order)
      invariant more ==> FixedPoint(nd, order, unloaded) == LoadOrderOf(defs, persisted)
      invariant !more ==> Resolution(order, unloaded) == LoadOrderOf(defs, persisted)
      decreases if more then |unloaded| + 1 else 0
    {
      ghost var order0, u0 := order, unloaded;
      var removedThisPass;
      order, unloaded, loaded, removedThisPass := RunPass(nd, order, unloaded, loaded);
      PassShape(nd, order0, u0);
      more := removedThisPass > 0 && |unloaded| > 0;
    }
  }

  lemma NormalizeKeepsNames(defs: map<Name, ModDef>)
    requires KeyedByName(defs)
    ensures KeyedByName(Normalize(defs))
  {
    forall a | a in Normalize(defs)
      ensures Normalize(defs)[a].name == a
    {
      NormalizedConstraints(defs, a, a);
    }
  }
}

=== FILE: paths.dfy ===
/** The .NET path and string helpers the pipeline leans on (Path.GetFileName,
    Path.GetExtension, Path.GetFileNameWithoutExtension, Path.IsPathRooted,
    String.ToLower, String.EndsWith ignoring case) with Windows separators, and
    the deny-list test of ModTek/ModTek.cs:191-194. */
module Paths {

  /** Directory separator '\\', alternative separator '/', volume separator ':'. */
  predicate IsSeparator(c: char)
  {
    c == '\\' || c == '/' || c == ':'
  }

  /** Index of the last separator in `s`, or -1. */
  function LastSeparator(s: string): (r: int)
    ensures -1 <= r < |s|
    ensures r >= 0 ==> IsSeparator(s[r])
    ensures forall j :: r < j < |s| ==> !IsSeparator(s[j])
  {
    if s == [] then -1
    else if IsSeparator(s[|s| - 1]) then |s| - 1
    else LastSeparator(s[..|s| - 1])
  }

  /** String.LastIndexOf(char): index of the last `c` in `s`, or -1. */
  function LastIndexOf(s: string, c: char): (r: int)
    ensures -1 <= r < |s|
    ensures r >= 0 ==> s[r] == c
    ensures forall j :: r < j < |s| ==> s[j] != c
  {
    if s == [] then -1
    else if s[|s| - 1] == c then |s| - 1
    else LastIndexOf(s[..|s| - 1], c)
  }

  /** Path.GetFileName: what follows the last separator. */
  function GetFileName(path: string): string
  {
    path[LastSeparator(path) + 1..]
  }

  /** Path.GetExtension: from the last '.' of the file name on, or "" when
      the file name has no '.' or ends with it. */
  function GetExtension(path: string): string
  {
    var dot := LastIndexOf(path, '.');
    if dot > LastSeparator(path) && dot < |path| - 1 then path[dot..] else ""
  }

  /** Path.GetFileNameWithoutExtension: the file name up to its last '.'. */
  function GetFileNameWithoutExtension(path: string): string
  {
    var name := GetFileName(path);
    var dot := LastIndexOf(name, '.');
    if dot == -1 then name else name[..dot]
  }

  /** Path.IsPathRooted: starts with a separator, or names a drive. */
  predicate IsPathRooted(path: string)
  {
    (|path| >= 1 && (path[0] == '\\' || path[0] == '/')) || (|path| >= 2 && path[1] == ':')
  }

  /** Case folding of String.ToLower, restricted to ASCII letters. */
  function Lower(c: char): char
  {
    if 'A' <= c <= 'Z' then (c as int - 'A' as int + 'a' as int) as char else c
  }

  function LowerStr(s: string): (r: string)
    ensures |r| == |s| && forall i :: 0 <= i < |s| ==> r[i] == Lower(s[i])
  {
    seq(|s|, i requires 0 <= i < |s| => Lower(s[i]))
  }

  /** String.EndsWith(suffix, InvariantCultureIgnoreCase). */
  predicate EndsWithIgnoreCase(s: string, suffix: string)
  {
    |suffix| <= |s| && LowerStr(s[|s| - |suffix|..]) == LowerStr(suffix)
  }

  /** The extension, lower-cased, reads ".json". */
  predicate IsJson(path: string)
  {
    LowerStr(GetExtension(path)) == ".json"
  }

  /** IGNORE_LIST. */
  const DenyList: seq<string> := [".DS_STORE", "~", ".nomedia"]

  function AnyEndsWith(path: string, suffixes: seq<string>): (r: bool)
    ensures r <==> exists i :: 0 <= i < |suffixes| && EndsWithIgnoreCase(path, suffixes[i])
  {
    if suffixes == [] then false
    else EndsWithIgnoreCase(path, suffixes[0]) || AnyEndsWith(path, suffixes[1..])
  }

  /** FileIsOnDenyList: the path ends with a deny-listed suffix, ignoring case. */
  function FileIsOnDenyList(path: string): (r: bool)
    ensures r <==> exists i :: 0 <= i < |DenyList| && EndsWithIgnoreCase(path, DenyList[i])
  {
    AnyEndsWith(path, DenyList)
  }

  // ---- Facts about the helpers ----

  lemma LowerIdempotent(s: string)
    ensures LowerStr(LowerStr(s)) == LowerStr(s)
  {
  }

  /** Lower-casing commutes with taking a suffix. */
  lemma LowerSuffix(s: string, k: int)
    requires 0 <= k <= |s|
    ensures LowerStr(s)[k..] == LowerStr(s[k..])
  {
  }

  /** The deny list already ignores case: a path is denied exactly when its
      lower-case spelling is. */
  lemma DenyListIgnoresCase(path: string)
    ensures FileIsOnDenyList(path) == FileIsOnDenyList(LowerStr(path))
  {
    var low := LowerStr(path);
    forall i | 0 <= i < |DenyList|
      ensures EndsWithIgnoreCase(path, DenyList[i]) == EndsWithIgnoreCase(low, DenyList[i])
    {
      var x := DenyList[i];
      if |x| <= |path| {
        LowerSuffix(path, |path| - |x|);
        LowerIdempotent(path[|path| - |x|..]);
      }
    }
  }

  /** No deny-listed suffix is a JSON extension, so a file whose extension
      reads ".json" in any case is never skipped by the deny list. */
  lemma JsonIsNeverDenied(path: string)
    requires IsJson(path)
    ensures !FileIsOnDenyList(path)
  {
    var ext := GetExtension(path);
    assert |ext| == 5 && ext == path[|path| - 5..];
    assert Lower(path[|path| - 1]) == 'n';
    forall i | 0 <= i < |DenyList|
      ensures !EndsWithIgnoreCase(path, DenyList[i])
    {
      var x := DenyList[i];
      if |x| <= |path| {
        assert LowerStr(path[|path| - |x|..])[|x| - 1] == 'n';
        assert LowerStr(x)[|x| - 1] != 'n';
      }
    }
  }

  /** With no separator after `dir`, the last separator is dir's last character. */
  lemma LastSeparatorOfJoin(dir: string, name: string)
    requires dir == [] || IsSeparator(dir[|dir| - 1])
    requires forall i :: 0 <= i < |name| ==> !IsSeparator(name[i])
    ensures LastSeparator(dir + name) == |dir| - 1
  {
    var p := dir + name;
    var r := LastSeparator(p);
    forall j | |dir| <= j < |p|
      ensures !IsSeparator(p[j])
    {
      assert p[j] == name[j - |dir|];
    }
    assert r < |dir|;
    if dir != [] {
      assert p[|dir| - 1] == dir[|dir| - 1];
      assert r >= |dir| - 1;
    }
  }

  /** The last occurrence of `c` in `dir + name` is the one in `name`. */
  lemma LastIndexOfJoin(dir: string, name: string, c: char)
    requires LastIndexOf(name, c) >= 0
    ensures LastIndexOf(dir + name, c) == |dir| + LastIndexOf(name, c)
  {
    var p := dir + name;
    var d := LastIndexOf(name, c);
    forall j | |dir| + d < j < |p|
      ensures p[j] != c
    {
      assert p[j] == name[j - |dir|];
    }
    assert p[|dir| + d] == c;
  }

  /** The file name is the part after the last separator: joining a directory
      that ends in a separator (or is empty) with a separator-free name gives
      back that name. */
  lemma FileNameOfJoin(dir: string, name: string)
    requires dir == [] || IsSeparator(dir[|dir| - 1])
    requires forall i :: 0 <= i < |name| ==> !IsSeparator(name[i])
    ensures GetFileName(dir + name) == name
  {
    LastSeparatorOfJoin(dir, name);
    assert (dir + name)[|dir|..] == name;
  }

  /** A file name holds no separator. */
  lemma FileNameHasNoSeparator(path: string)
    ensures forall i :: 0 <= i < |GetFileName(path)| ==> !IsSeparator(GetFileName(path)[i])
  {
    var k := LastSeparator(path);
    forall i | 0 <= i < |GetFileName(path)|
      ensures !IsSeparator(GetFileName(path)[i])
    {
      assert GetFileName(path)[i] == path[k + 1 + i];
    }
  }

  /** When a path has an extension, the name without it followed by the
      extension is the whole file name. */
  lemma StemAndExtension(path: string)
    requires GetExtension(path) != ""
    ensures GetFileNameWithoutExtension(path) + GetExtension(path) == GetFileName(path)
  {
    var sep := LastSeparator(path);
    var dot := LastIndexOf(path, '.');
    var name := GetFileName(path);
    assert name[dot - sep - 1] == '.';
    var d := LastIndexOf(name, '.');
    forall j | dot - sep - 1 < j < |name|
      ensures name[j] != '.'
    {
      assert name[j] == path[sep + 1 + j];
    }
    assert d == dot - sep - 1;
    assert name[..d] + path[dot..] == name;
  }

  /** `stem.ext` has no separator and its last '.' is the one after the stem. */
  lemma DottedName(stem: string, ext: string)
    requires forall i :: 0 <= i < |stem| ==> !IsSeparator(stem[i])
    requires forall i :: 0 <= i < |ext| ==> !IsSeparator(ext[i]) && ext[i] != '.'
    ensures var name := stem + "." + ext;
      && (forall i :: 0 <= i < |name| ==> !IsSeparator(name[i]))
      && LastIndexOf(name, '.') == |stem|
  {
    var name := stem + "." + ext;
    forall i | 0 <= i < |name|
      ensures !IsSeparator(name[i]) && (i > |stem| ==> name[i] != '.')
    {
      if i < |stem| {
        assert name[i] == stem[i];
      } else if i > |stem| {
        assert name[i] == ext[i - |stem| - 1];
      }
    }
    assert name[|stem|] == '.';
  }

  /** Writing a file as directory, stem, '.', extension: the two helpers
      recover the stem and the extension. */
  lemma ExtensionRoundTrip(dir: string, stem: string, ext: string)
    requires dir == [] || IsSeparator(dir[|dir| - 1])
    requires forall i :: 0 <= i < |stem| ==> !IsSeparator(stem[i])
    requires forall i :: 0 <= i < |ext| ==> !IsSeparator(ext[i]) && ext[i] != '.'
    requires ext != []
    ensures GetExtension(dir + (stem + "." + ext)) == "." + ext
    ensures GetFileNameWithoutExtension(dir + (stem + "." + ext)) == stem
  {
    var name := stem + "." + ext;
    var tail := "." + ext;
    assert name == stem + tail;
    DottedName(stem, ext);
    ExtensionOfJoin(dir, name, |stem|);
    StemOfJoin(dir, name, |stem|);
    assert name[|stem|..] == tail;
    assert name[..|stem|] == stem;
  }

  lemma ExtensionOfJoin(dir: string, name: string, d: int)
    requires dir == [] || IsSeparator(dir[|dir| - 1])
    requires forall i :: 0 <= i < |name| ==> !IsSeparator(name[i])
    requires LastIndexOf(name, '.') == d && 0 <= d < |name| - 1
    ensures GetExtension(dir + name) == name[d..]
  {
    var p := dir + name;
    var dot := |dir| + d;
    LastSeparatorOfJoin(dir, name);
    LastIndexOfJoin(dir, name, '.');
    SuffixOfJoin(dir, name, d);
    ExtensionAt(p, dot);
  }

  /** The extension starts at the last '.' when that follows the last
      separator and is not the final character. */
  lemma ExtensionAt(p: string, dot: int)
    requires LastIndexOf(p, '.') == dot && LastSeparator(p) < dot < |p| - 1
    ensures GetExtension(p) == p[dot..]
  {
  }

  /** A suffix of the name is the same suffix of the joined path. */
  lemma SuffixOfJoin(dir: string, name: string, d: int)
    requires 0 <= d <= |name|
    ensures (dir + name)[|dir| + d..] == name[d..]
  {
    var p := dir + name;
    forall k | 0 <= k < |name| - d
      ensures p[|dir| + d..][k] == name[d..][k]
    {
      assert p[|dir| + d + k] == name[d + k];
    }
  }

  lemma StemOfJoin(dir: string, name: string, d: int)
    requires dir == [] || IsSeparator(dir[|dir| - 1])
    requires forall i :: 0 <= i < |name| ==> !IsSeparator(name[i])
    requires LastIndexOf(name, '.') == d && 0 <= d
    ensures GetFileNameWithoutExtension(dir + name) == name[..d]
  {
    FileNameOfJoin(dir, name);
  }
}

=== FILE: type_cache.dfy ===
/** The type cache: the resource types recorded for each file, keyed by the
    file's path relative to the game directory (ModTek/ModTek.cs:353-399),
    and the one-off migration of absolute keys to relative ones
    (ModTek/ModTek.cs:280-300). GetRelativePath and Path.GetFullPath are
    functions carried by a `PathFns` value. */
module TypeCache {
  import opened Common
  import opened Paths

  type Cache = map<string, seq<string>>

  /** An entry of the game's VersionManifest. */
  datatype CatalogEntry = CatalogEntry(id: string, filePath: string, typ: string)

  datatype PathFns = PathFns(
    relative: string -> string,   // GetRelativePath(_, GameDirectory)
    fullPath: string -> string)   // Path.GetFullPath

  /** GetTypesFromCache: the list cached under the path's relative form, or null. */
  function GetTypesFromCache(cache: Cache, pf: PathFns, absolutePath: string): Option<seq<string>>
  {
    var rel := pf.relative(absolutePath);
    if rel in cache then Some(cache[rel]) else None
  }

  /** The types of the catalog entries whose full path is `absolutePath`, in
      catalog order (the FindAll of GetTypesFromCacheOrManifest). */
  function TypesInCatalog(catalog: seq<CatalogEntry>, pf: PathFns, absolutePath: string): (r: seq<string>)
    ensures |r| <= |catalog|
  {
    if catalog == [] then []
    else
      var rest := TypesInCatalog(catalog[1..], pf, absolutePath);
      if pf.fullPath(catalog[0].filePath) == absolutePath then [catalog[0].typ] + rest else rest
  }

  lemma {:induction false} TypesInCatalogMembers(catalog: seq<CatalogEntry>, pf: PathFns, absolutePath: string, t: string)
    ensures t in TypesInCatalog(catalog, pf, absolutePath) <==>
      exists i :: 0 <= i < |catalog| && pf.fullPath(catalog[i].filePath) == absolutePath && catalog[i].typ == t
  {
    if catalog != [] {
      TypesInCatalogMembers(catalog[1..], pf, absolutePath, t);
      if exists i :: 1 <= i < |catalog| && pf.fullPath(catalog[i].filePath) == absolutePath && catalog[i].typ == t {
        var i :| 1 <= i < |catalog| && pf.fullPath(catalog[i].filePath) == absolutePath && catalog[i].typ == t;
        assert catalog[1..][i - 1] == catalog[i];
      }
    }
  }

  /** GetTypesFromCacheOrManifest: the cached list if there is one; otherwise
      the types the catalog lists for the file, which are then cached; null
      (and no change) when the catalog has none. */
  function GetTypesFromCacheOrManifest(cache: Cache, pf: PathFns, catalog: seq<CatalogEntry>, absolutePath: string)
    : (Option<seq<string>>, Cache)
  {
    var cached := GetTypesFromCache(cache, pf, absolutePath);
    if cached.Some? then (cached, cache)
    else
      var types := TypesInCatalog(catalog, pf, absolutePath);
      if |types| == 0 then (None, cache)
      else (Some(types), cache[pf.relative(absolutePath) := types])
  }

  /** A cache hit answers without consulting the catalog: any catalog gives the
      same answer, and the cache is untouched. */
  lemma CacheHitIgnoresCatalog(cache: Cache, pf: PathFns, c1: seq<CatalogEntry>, c2: seq<CatalogEntry>, absolutePath: string)
    requires pf.relative(absolutePath) in cache
    ensures GetTypesFromCacheOrManifest(cache, pf, c1, absolutePath) == GetTypesFromCacheOrManifest(cache, pf, c2, absolutePath)
    ensures GetTypesFromCacheOrManifest(cache, pf, c1, absolutePath) == (Some(cache[pf.relative(absolutePath)]), cache)
  {
  }

  /** A miss the catalog cannot answer returns null and leaves the cache as it was. */
  lemma MissWithoutMatch(cache: Cache, pf: PathFns, catalog: seq<CatalogEntry>, absolutePath: string)
    requires pf.relative(absolutePath) !in cache
    requires forall i :: 0 <= i < |catalog| ==> pf.fullPath(catalog[i].filePath) != absolutePath
    ensures GetTypesFromCacheOrManifest(cache, pf, catalog, absolutePath) == (None, cache)
  {
    if |TypesInCatalog(catalog, pf, absolutePath)| != 0 {
      var t := TypesInCatalog(catalog, pf, absolutePath)[0];
      TypesInCatalogMembers(catalog, pf, absolutePath, t);
    }
  }

  /** A miss the catalog answers caches exactly the catalog's types for the
      file and returns them; asking again is then a hit with no change. */
  lemma MissWithMatchIsCached(cache: Cache, pf: PathFns, catalog: seq<CatalogEntry>, absolutePath: string)
    requires pf.relative(absolutePath) !in cache
    requires exists i :: 0 <= i < |catalog| && pf.fullPath(catalog[i].filePath) == absolutePath
    ensures var (types, cache') := GetTypesFromCacheOrManifest(cache, pf, catalog, absolutePath);
      && types.Some?
      && (forall t :: t in types.value <==>
            exists i :: 0 <= i < |catalog| && pf.fullPath(catalog[i].filePath) == absolutePath && catalog[i].typ == t)
      && cache' == cache[pf.relative(absolutePath) := types.value]
      && GetTypesFromCacheOrManifest(cache', pf, catalog, absolutePath) == (types, cache')
  {
    var i :| 0 <= i < |catalog| && pf.fullPath(catalog[i].filePath) == absolutePath;
    TypesInCatalogMembers(catalog, pf, absolutePath, catalog[i].typ);
    forall t {
      TypesInCatalogMembers(catalog, pf, absolutePath, t);
    }
  }

  /** TryAddTypeToCache: the type joins the file's cached list unless it is
      already there; a file with no list gets a list of just that type. */
  function TryAddTypeToCache(cache: Cache, pf: PathFns, absolutePath: string, t: string): Cache
  {
    var rel := pf.relative(absolutePath);
    match GetTypesFromCache(cache, pf, absolutePath)
    case Some(types) => if t in types then cache else cache[rel := types + [t]]
    case None => cache[rel := [t]]
  }

  /** After the call the type is cached for the file; no key and no cached
      type is lost; only the file's own list changes, and only by growing at
      its end. */
  lemma TryAddTypeToCacheSpec(cache: Cache, pf: PathFns, absolutePath: string, t: string)
    ensures var r := TryAddTypeToCache(cache, pf, absolutePath, t);
      var rel := pf.relative(absolutePath);
      && rel in r && t in r[rel]
      && (forall k :: k in r <==> k in cache || k == rel)
      && (forall k :: k in cache && k != rel ==> r[k] == cache[k])
      && (rel in cache ==> |cache[rel]| <= |r[rel]| && r[rel][..|cache[rel]|] == cache[rel])
  {
    var rel := pf.relative(absolutePath);
    if rel in cache && t !in cache[rel] {
      assert (cache[rel] + [t])[..|cache[rel]|] == cache[rel];
    }
  }

  /** A repeat call changes nothing. */
  lemma TryAddTypeToCacheIdempotent(cache: Cache, pf: PathFns, absolutePath: string, t: string)
    ensures var once := TryAddTypeToCache(cache, pf, absolutePath, t);
      TryAddTypeToCache(once, pf, absolutePath, t) == once
  {
    TryAddTypeToCacheSpec(cache, pf, absolutePath, t);
  }

  /** A duplicate-free list stays duplicate-free. */
  lemma TryAddTypeToCacheKeepsNoDup(cache: Cache, pf: PathFns, absolutePath: string, t: string)
    requires pf.relative(absolutePath) in cache ==> NoDup(cache[pf.relative(absolutePath)])
    ensures NoDup(TryAddTypeToCache(cache, pf, absolutePath, t)[pf.relative(absolutePath)])
  {
    var rel := pf.relative(absolutePath);
    if rel in cache && t !in cache[rel] {
      NoDupAppend(cache[rel], t);
    }
  }

  // ---- Migrating absolute keys ----

  /** The `toAdd` dictionary of UpdateCacheToRelativePath after visiting
      `keys` in order: every rooted key's value under its relative form; a
      later key overwrites an earlier one with the same relative form. */
  function ToAdd<T>(cache: map<string, T>, keys: seq<string>, relative: string -> string): map<string, T>
    requires forall i :: 0 <= i < |keys| ==> keys[i] in cache
  {
    if keys == [] then map[]
    else
      var last := keys[|keys| - 1];
      var m := ToAdd(cache, keys[..|keys| - 1], relative);
      if IsPathRooted(last) then m[relative(last) := cache[last]] else m
  }

  /** Each relative key holds the value of the last rooted key that maps to it. */
  lemma {:induction false} ToAddIsLastWriter<T>(cache: map<string, T>, keys: seq<string>, relative: string -> string, k: string)
    requires forall i :: 0 <= i < |keys| ==> keys[i] in cache
    ensures k in ToAdd(cache, keys, relative) <==>
      exists i :: 0 <= i < |keys| && IsPathRooted(keys[i]) && relative(keys[i]) == k
    ensures k in ToAdd(cache, keys, relative) ==>
      exists i :: 0 <= i < |keys| && IsPathRooted(keys[i]) && relative(keys[i]) == k &&
                  ToAdd(cache, keys, relative)[k] == cache[keys[i]] &&
                  forall j :: i < j < |keys| ==> !(IsPathRooted(keys[j]) && relative(keys[j]) == k)
  {
    if keys != [] {
      var init, last := keys[..|keys| - 1], keys[|keys| - 1];
      ToAddIsLastWriter(cache, init, relative, k);
      assert forall i :: 0 <= i < |init| ==> init[i] == keys[i];
      if !(IsPathRooted(last) && relative(last) == k) && k in ToAdd(cache, keys, relative) {
        var i :| 0 <= i < |init| && IsPathRooted(init[i]) && relative(init[i]) == k &&
                 ToAdd(cache, init, relative)[k] == cache[init[i]] &&
                 forall j :: i < j < |init| ==> !(IsPathRooted(init[j]) && relative(init[j]) == k);
        assert forall j :: i < j < |keys| ==> !(IsPathRooted(keys[j]) && relative(keys[j]) == k);
      }
    }
  }

  /** UpdateCacheToRelativePath with the dictionary's key enumeration order
      given as `keys`: the first Add that meets an existing key throws;
      otherwise the rooted keys are replaced by their relative forms. */
  function UpdateCacheToRelativePath<T>(cache: map<string, T>, keys: seq<string>, relative: string -> string)
    : Result<map<string, T>, string>
    requires forall i :: 0 <= i < |keys| ==> keys[i] in cache
  {
    var toAdd := ToAdd(cache, keys, relative);
    if exists k :: k in toAdd && k in cache then Failure("An item with the same key has already been added.")
    else Success((map k | k in cache && !IsPathRooted(k) :: cache[k]) + toAdd)
  }

  /** The migration throws exactly when some rooted key's relative form is
      already a key; otherwise the result holds the unrooted keys unchanged
      plus, under each relative form, the value of the last rooted key
      mapping to it, and nothing else. */
  lemma UpdateCacheToRelativePathSpec<T>(cache: map<string, T>, keys: seq<string>, relative: string -> string)
    requires NoDup(keys) && forall k :: k in keys <==> k in cache
    ensures var r := UpdateCacheToRelativePath(cache, keys, relative);
      && (r.Failure? <==> exists p :: p in cache && IsPathRooted(p) && relative(p) in cache)
      && (r.Success? ==> forall k :: k in r.value <==>
            (k in cache && !IsPathRooted(k)) || exists p :: p in cache && IsPathRooted(p) && relative(p) == k)
      && (r.Success? ==> forall k :: k in cache && !IsPathRooted(k) ==> r.value[k] == cache[k])
      && (r.Success? ==> forall i :: 0 <= i < |keys| && LastRootedWriter(keys, relative, i) ==>
            r.value[relative(keys[i])] == cache[keys[i]])
  {
    var toAdd := ToAdd(cache, keys, relative);
    forall k
      ensures k in toAdd <==> exists p :: p in cache && IsPathRooted(p) && relative(p) == k
    {
      ToAddIsLastWriter(cache, keys, relative, k);
      if exists p :: p in cache && IsPathRooted(p) && relative(p) == k {
        var p :| p in cache && IsPathRooted(p) && relative(p) == k;
        var i :| 0 <= i < |keys| && keys[i] == p;
      }
    }
    var r := UpdateCacheToRelativePath(cache, keys, relative);
    if r.Success? {
      forall k | k in cache && !IsPathRooted(k)
        ensures r.value[k] == cache[k]
      {
        assert k !in toAdd;
      }
      forall i | 0 <= i < |keys| && LastRootedWriter(keys, relative, i)
        ensures r.value[relative(keys[i])] == cache[keys[i]]
      {
        LastWriterValue(cache, keys, relative, i);
      }
    }
  }

  /** keys[i] is rooted and no later rooted key has the same relative form. */
  predicate LastRootedWriter(keys: seq<string>, relative: string -> string, i: int)
    requires 0 <= i < |keys|
  {
    IsPathRooted(keys[i]) &&
    forall j :: i < j < |keys| ==> !(IsPathRooted(keys[j]) && relative(keys[j]) == relative(keys[i]))
  }

  lemma LastWriterValue<T>(cache: map<string, T>, keys: seq<string>, relative: string -> string, i: int)
    requires forall j :: 0 <= j < |keys| ==> keys[j] in cache
    requires 0 <= i < |keys| && LastRootedWriter(keys, relative, i)
    ensures relative(keys[i]) in ToAdd(cache, keys, relative)
    ensures ToAdd(cache, keys, relative)[relative(keys[i])] == cache[keys[i]]
  {
    var k := relative(keys[i]);
    ToAddIsLastWriter(cache, keys, relative, k);
    var i' :| 0 <= i' < |keys| && IsPathRooted(keys[i']) && relative(keys[i']) == k &&
              ToAdd(cache, keys, relative)[k] == cache[keys[i']] &&
              forall j :: i' < j < |keys| ==> !(IsPathRooted(keys[j]) && relative(keys[j]) == k);
    assert i' == i;
  }

  /** A cache with no rooted key comes back unchanged, so migrating a
      migrated cache again is a no-op whenever relative forms are unrooted. */
  lemma UpdateWithoutRootedKeysIsIdentity<T>(cache: map<string, T>, keys: seq<string>, relative: string -> string)
    requires forall i :: 0 <= i < |keys| ==> keys[i] in cache
    requires forall k :: k in cache ==> !IsPathRooted(k)
    ensures UpdateCacheToRelativePath(cache, keys, relative) == Success(cache)
  {
    NothingRootedAddsNothing(cache, keys, relative);
    var kept := map k | k in cache && !IsPathRooted(k) :: cache[k];
    assert kept == cache;
    var empty: map<string, T> := map[];
    assert kept + empty == cache;
  }

  lemma {:induction false} NothingRootedAddsNothing<T>(cache: map<string, T>, keys: seq<string>, relative: string -> string)
    requires forall i :: 0 <= i < |keys| ==> keys[i] in cache
    requires forall k :: k in cache ==> !IsPathRooted(k)
    ensures ToAdd(cache, keys, relative) == map[]
  {
    if keys != [] {
      NothingRootedAddsNothing(cache, keys[..|keys| - 1], relative);
    }
  }
}
